=== FILE: README.md ===
# Arkestra tool-dispatch layer and its pure helpers, in Dafny

This project models the stdio MCP cookbook of Arkestra and the small transformers around it.

**The two MCP clients** (`searxng_mcp_client.py`, `local_llm_mcp_client.py`):
- They build JSON-RPC 2.0 request envelopes (section 4 of the JSON-RPC 2.0 Specification). Every envelope carries id 1.
- They read response lines from a worker process and classify each decoded response by whether it has an `error` key.
- They turn a batch of the language model's tool calls into tool-result records.
- They run the chat loop, the keep-alive ping and the two-phase teardown (terminate, then kill).
- The worker is a status (`Running` or `Exited(code)`), a queue of read outcomes (a line, end of file, the worker exiting, or a stall that the read timeout turns into a `TimeoutError`), its buffered stderr, and a log of the requests written to it.

**The filesystem tool server** (`filesystem_mcp_server.py`):
- The root-containment check, modelled as POSIX `normpath`/`abspath`/`commonpath`.
- `list_files` with hidden-file filtering and bounded-depth recursion, over a directory tree value.
- `search_files` with its filter pipeline and result cap, over the `os.walk` order of that tree.
- `get_file_info`, `file_preview` and the unit tier of `format_size`.

**The fake weather server and client** (`fake_mcp_server.py`, `fake_mcp_client.py`): the one-line `invoke` shortcut and the per-call translation into tool messages.

**Smaller pieces:**
- `composite_prompt_content`, whose two identical copies live in `pylib/components/prompt.py` and `pylib/components/prompt/composite.py`.
- The researcher's content classification and truncation, its search-result fold, its step loop and `_trace` (`cookbook/toolio_researcher_plus/main.py`).
- The tab-group handlers of tabluk (`cookbook/browserkit/tabluk/app.py`) on the in-memory map of groups.
- The page-to-loom fold of the Notion loader (`pylib/components/prompt/notion.py`).

**Parameters.** The outside world enters as function parameters:
- `json.loads` and `json.dumps`;
- the spawned process's stdout;
- `mimetypes.guess_type`, text extraction and the page fetch;
- ISO date parsing and the glob matcher;
- the uuid each handler draws;
- the title a page fetch yields.

**Errors.** Exceptions are modelled as the values they carry:
- `Err`/`Fault` values for the clients;
- error dicts for the tool server;
- `Failure` for the Notion loader.

**Layout.** One module per file:

| file | contents |
|---|---|
| `base.dfy` | `Option`, `Result`, `Min`, `Max` |
| `strings.dfy` | the `str` methods the code uses: `split`, `join`, `strip`, `lower`, `upper`, `str(int)` |
| `json.dfy` | decoded JSON and the Python views of it |
| `protocol.dfy` | envelope, tool call and record, worker, faults, exit words |
| `batch.dfy` | a batch of tool calls run in order |
| `chat.dfy` | the chat loop and the input loop |
| `local_client.dfy`, `searxng_client.dfy` | the two clients |
| `posix_path.dfy` | the path functions and the access check |
| `fs_server.dfy` | the filesystem tools |
| `fake_server.dfy`, `fake_client.dfy` | the fake weather server and client |
| `prompt.dfy` | `composite_prompt_content` |
| `researcher.dfy` | the researcher |
| `tabluk.dfy` | tabluk |
| `notion.dfy` | the Notion loader |

What the clients do not do, and what they do on a dead worker:
- Neither client keeps a table of pending requests or fails them all on worker death.
- The local client does not skip non-JSON lines: it hands every non-empty line to `json.loads`.
- The searxng client skips exactly the lines whose stripped text does not start with `{`.
- A dead worker yields the record content `{'error': 'MCP server has terminated'}`.

## Model

| member | source | states |
|---|---|---|
| Protocol.EnvelopeRoundTrip | cookbook/multi_agent/mcp_lm_studio/searxng_mcp_client.py:96-101 | the envelope reads back as version 2.0 with the caller's method, id and params, and `params or {}` turns a missing or empty params into `{}` |
| Protocol.ToolRecord | cookbook/multi_agent/mcp_lm_studio/local_llm_mcp_client.py:321-326 | a tool record carries the call's id and function name and the role `tool` |
| Protocol.ResponseContent | cookbook/multi_agent/mcp_lm_studio/local_llm_mcp_client.py:313-319 | a response with an `error` key gives `{'error': response['error']}`; any other dict gives its `result`; a non-dict raises |
| Protocol.OutcomeRecord | cookbook/multi_agent/mcp_lm_studio/local_llm_mcp_client.py:313-337 | a tool record with the call's id and name; a reply without `error` gives its `result` as content, a reply with `error` gives `{'error': …}`, and an exception (a fault, or a reply lacking `result`) becomes `{'error': str(e)}` in that call's own record |
| Protocol.ReadLine | cookbook/multi_agent/mcp_lm_studio/local_llm_mcp_client.py:86-89 | one read consumes exactly one outcome and never touches the request log; a line gives its text and end of file gives `''` with the status unchanged, an exit gives `''` and the exited status, and a timeout gives `None` with only that outcome consumed |
| Protocol.ExitCommands | cookbook/multi_agent/mcp_lm_studio/local_llm_mcp_client.py:404 | the input ends the session exactly when it is `exit`, `quit` or `q` in any letter case |
| Batch.RunBatchSplit | cookbook/multi_agent/mcp_lm_studio/local_llm_mcp_client.py:299-339 | a batch run equals running its first part and then the rest from the worker state the first part left |
| Batch.RunBatchRecord | cookbook/multi_agent/mcp_lm_studio/local_llm_mcp_client.py:299-339 | the record of call i is what that call alone yields from the state after calls 0..i-1, so an exception affects only its own record |
| Batch.RunBatchAnswers | cookbook/multi_agent/mcp_lm_studio/searxng_mcp_client.py:236-278 | one record per call, in call order, each with that call's id and name |
| Batch.RunBatchWrites | cookbook/multi_agent/mcp_lm_studio/searxng_mcp_client.py:236-278 | a batch writes at most one request per call and keeps earlier requests |
| Batch.RunBatchExited | cookbook/multi_agent/mcp_lm_studio/local_llm_mcp_client.py:64-69 | once the worker has exited, nothing more is written and every later record is an error record |
| Chat.Converse | cookbook/multi_agent/mcp_lm_studio/local_llm_mcp_client.py:346-384 | the loop only appends to the messages; it continues only after replies with tool calls, stops at the first reply without them, and stops at the first exception |
| Chat.ChatWithLlm | cookbook/multi_agent/mcp_lm_studio/local_llm_mcp_client.py:341-344 | the conversation starts with the user's message |
| Chat.ConverseAssistants | cookbook/multi_agent/mcp_lm_studio/local_llm_mcp_client.py:356-361 | the assistant messages added are exactly the consumed replies' contents, one per iteration, in order |
| Chat.ConverseToolIds | cookbook/multi_agent/mcp_lm_studio/local_llm_mcp_client.py:367-370 | the tool messages added answer the consumed replies' tool calls, one each, in order |
| Chat.ExitIndex | cookbook/multi_agent/mcp_lm_studio/local_llm_mcp_client.py:402-405 | the index of the first exit word: no earlier input is one |
| Chat.Session | cookbook/multi_agent/mcp_lm_studio/local_llm_mcp_client.py:402-407 | one conversation per input before the first exit word, each started by that input |
| LocalClient.StartServer | cookbook/multi_agent/mcp_lm_studio/local_llm_mcp_client.py:42-51 | a worker found exited after the start-up wait raises "MCP server failed to start: " followed by its stderr |
| LocalClient.SendToMcp | cookbook/multi_agent/mcp_lm_studio/local_llm_mcp_client.py:59-113 | an exited worker raises before anything is written; otherwise exactly one id-1 envelope is written, and an empty read raises "MCP server returned empty response" |
| LocalClient.DispatchOne | cookbook/multi_agent/mcp_lm_studio/local_llm_mcp_client.py:299-337 | one call gives one answering record; undecodable arguments are an error record with nothing sent; decodable arguments give exactly the record of the outcome of sending the call's method and arguments, and the worker that send leaves |
| LocalClient.DispatchOneResult | cookbook/multi_agent/mcp_lm_studio/local_llm_mcp_client.py:311-326 | a running worker whose next line is a dict with `result` and no `error` gives a record whose content is that `result`, consumes exactly that line, and logs one request carrying the call's method and arguments |
| LocalClient.DispatchAll | cookbook/multi_agent/mcp_lm_studio/local_llm_mcp_client.py:299-339 | one answering record per call, in order, with at most one request per call appended to the log; record i is exactly the record one call gives from the worker the calls before it left, so a live call's content is what its reply carries |
| LocalClient.ProcessToolCalls | cookbook/multi_agent/mcp_lm_studio/local_llm_mcp_client.py:279-339 | a dead worker gets one "MCP server has terminated" record per call and no request; a live one runs the loop |
| LocalClient.HandlerIsFaithful | cookbook/multi_agent/mcp_lm_studio/local_llm_mcp_client.py:279-339 | the handler answers every batch with one record per call, in order |
| LocalClient.ChatTranscript | cookbook/multi_agent/mcp_lm_studio/local_llm_mcp_client.py:341-386 | the transcript alternates each reply with the answers to its tool calls |
| LocalClient.Teardown | cookbook/multi_agent/mcp_lm_studio/local_llm_mcp_client.py:412-423 | teardown always terminates first, then kills only when the grace wait times out |
| LocalClient.RunClient | cookbook/multi_agent/mcp_lm_studio/local_llm_mcp_client.py:388-425 | start failure ends the program; otherwise one conversation per input before the exit word, then teardown |
| SearxngClient.StartServer | cookbook/multi_agent/mcp_lm_studio/searxng_mcp_client.py:25-55 | stderr is read up to the first READY line; a worker found exited raises "MCP server failed to start: " followed by the stderr left after that line |
| SearxngClient.ReadResponse | cookbook/multi_agent/mcp_lm_studio/searxng_mcp_client.py:57-83 | a returned line's stripped text starts with `{`, and the request log is untouched |
| SearxngClient.ReadResponseSkipsBanners | cookbook/multi_agent/mcp_lm_studio/searxng_mcp_client.py:65-83 | the result is the first non-banner outcome: a `{` line is returned; an empty read raises with the exit code when the worker has exited; a timeout raises; every earlier banner line is consumed |
| SearxngClient.SendToMcp | cookbook/multi_agent/mcp_lm_studio/searxng_mcp_client.py:85-134 | an exited worker raises before writing; a live one gets exactly the envelope with the given id appended, and the result is the reply read off its stdout: the first non-banner line decoded, "Invalid JSON response: " and the line when it does not decode, or the read's own error |
| SearxngClient.SendToMcpSkipsBanners | cookbook/multi_agent/mcp_lm_studio/searxng_mcp_client.py:78-126 | banner lines before a `{` line are consumed and the reply is that line, decoded, or the Invalid JSON error |
| SearxngClient.Initialize | cookbook/multi_agent/mcp_lm_studio/searxng_mcp_client.py:136-165 | a dead worker fails without a request; for a live one a failed send is re-raised, a dict reply with `error` fails carrying that error, and a dict reply without one is returned |
| SearxngClient.InitializeFirstJsonLine | cookbook/multi_agent/mcp_lm_studio/searxng_mcp_client.py:136-165 | after banner lines, the handshake succeeds with the first JSON dict exactly when it has no `error` key, and otherwise fails with that key's value |
| SearxngClient.DispatchOne | cookbook/multi_agent/mcp_lm_studio/searxng_mcp_client.py:236-278 | one record with the call's id and name; `search` goes out as `tools/call` with the name and arguments; decodable arguments give exactly the record of the outcome of that send, and the worker it leaves |
| SearxngClient.DispatchOneResult | cookbook/multi_agent/mcp_lm_studio/searxng_mcp_client.py:249-270 | a running worker whose next line is a dict with `result` and no `error` gives a record whose content is that `result`, consumes exactly that line, and logs the one request the call's method maps to |
| SearxngClient.DispatchAll | cookbook/multi_agent/mcp_lm_studio/searxng_mcp_client.py:236-280 | one answering record per call, in order, with at most one request per call; record i is exactly the record one call gives from the worker the calls before it left, so a live call's content is what its reply carries |
| SearxngClient.ProcessToolCalls | cookbook/multi_agent/mcp_lm_studio/searxng_mcp_client.py:213-280 | a dead worker gets one terminated record per call and no request; a live one pings first, ignores a failed ping, then runs the loop |
| SearxngClient.KeepAlive | cookbook/multi_agent/mcp_lm_studio/searxng_mcp_client.py:282-294 | the loop stops only on a worker observed exited; every other wake-up sends one ping, whatever its outcome |
| SearxngClient.HandlerIsFaithful | cookbook/multi_agent/mcp_lm_studio/searxng_mcp_client.py:213-280 | the handler answers every batch with one record per call, in order |
| SearxngClient.ChatTranscript | cookbook/multi_agent/mcp_lm_studio/searxng_mcp_client.py:335-363 | the transcript alternates each reply with the answers to its tool calls |
| SearxngClient.Teardown | cookbook/multi_agent/mcp_lm_studio/searxng_mcp_client.py:379-386 | terminate only a worker still running, and kill only after the grace wait times out |
| SearxngClient.Handshake | cookbook/multi_agent/mcp_lm_studio/searxng_mcp_client.py:312-320 | a failed `initialize` ends the try block with its error text and sends no ping; otherwise the result is Ok exactly when the ping succeeds, carrying the ping's reply or its error text |
| SearxngClient.HandshakeTwoReplies | cookbook/multi_agent/mcp_lm_studio/searxng_mcp_client.py:312-320 | a worker answering with an error-free dict and then a JSON reply completes the handshake with that reply, both lines consumed |
| SearxngClient.RunClient | cookbook/multi_agent/mcp_lm_studio/searxng_mcp_client.py:296-386 | start failure returns before teardown; a failed handshake holds no conversation; whenever the worker was started, the signals are the teardown of the worker as the session left it: Terminate first when it is still running, Kill exactly when the grace wait runs out, nothing when it has exited |
| PosixPath.PathJoin | cookbook/multi_agent/mcp_lm_studio/filesystem_mcp_server.py:44 | joining an absolute path gives that path; otherwise the result starts with the root and ends with the argument |
| PosixPath.ContainmentIsPrefix | cookbook/multi_agent/mcp_lm_studio/filesystem_mcp_server.py:44-48 | for a canonical absolute root, access is granted exactly when the root's components are a prefix of the normalised target's components |
| PosixPath.ParentOfRootDenied | cookbook/multi_agent/mcp_lm_studio/filesystem_mcp_server.py:44-48 | `..` from a canonical root is denied |
| PosixPath.TrailingSlashRootDeniesAll | cookbook/multi_agent/mcp_lm_studio/filesystem_mcp_server.py:47 | a root written with a trailing slash never equals a `commonpath` result, so nothing is granted |
| PosixPath.RelativeRootRaises | cookbook/multi_agent/mcp_lm_studio/filesystem_mcp_server.py:47 | a relative root with an absolute working directory makes `commonpath` raise for every argument |
| PosixPath.Lcp | cookbook/multi_agent/mcp_lm_studio/filesystem_mcp_server.py:47 | the longest common prefix of two component lists: a prefix of both that cannot be extended |
| PosixPath.LcpIsWhole | cookbook/multi_agent/mcp_lm_studio/filesystem_mcp_server.py:47 | the common prefix equals the root exactly when the root is a prefix of the target |
| FilesystemServer.Scan | cookbook/multi_agent/mcp_lm_studio/filesystem_mcp_server.py:58-91 | every listed item lies under the scanned path, no deeper than `max_depth` below it, one level deep when not recursive, and is not hidden unless hidden files are asked for |
| FilesystemServer.ScanSound | cookbook/multi_agent/mcp_lm_studio/filesystem_mcp_server.py:63-81 | every listed file or directory is reached in the tree by following its path below the scanned directory, and the item reports that node's kind and the size its `stat` gives |
| FilesystemServer.ScanComplete | cookbook/multi_agent/mcp_lm_studio/filesystem_mcp_server.py:58-81 | every included entry of the scanned directory that the scan reaches (no earlier included entry failed its `stat`) is listed with its path, kind and size, directly followed by the listing of its subtree when that is entered |
| FilesystemServer.ListFiles | cookbook/multi_agent/mcp_lm_studio/filesystem_mcp_server.py:44-94 | the access-denied dict exactly when the check denies; a negative `max_depth` lists nothing; a target that cannot be opened gives one error record with the exception text; otherwise the answer is the scan of the opened directory from depth 0, every item placed within the depth and hidden-file rules |
| FilesystemServer.ListFilesComplete | cookbook/multi_agent/mcp_lm_studio/filesystem_mcp_server.py:58-94 | every included top-level entry that the scan reaches appears in the answer, followed by its subtree |
| FilesystemServer.OpenCanonical | cookbook/multi_agent/mcp_lm_studio/filesystem_mcp_server.py:63 | on a path without `.`, `..` or empty components, the kernel's component-by-component walk finds the node at exactly those segments |
| FilesystemServer.DotDotNeedsItsDirectory | cookbook/multi_agent/mcp_lm_studio/filesystem_mcp_server.py:63 | `/d/n/../a` fails to open when `d/n` is missing, even though its lexical normalisation `/d/a` would be found: the tools open the raw path, not the normalised one |
| FilesystemServer.Walk | cookbook/multi_agent/mcp_lm_studio/filesystem_mcp_server.py:153 | `os.walk` order: the top directory first, then directories strictly below it |
| FilesystemServer.NormalizeType | cookbook/multi_agent/mcp_lm_studio/filesystem_mcp_server.py:148-149 | no filter exactly when the type is absent or empty; a type already starting with `.` is kept as it is, any other gets `.` prepended |
| FilesystemServer.NormalizeTypeIdempotent | cookbook/multi_agent/mcp_lm_studio/filesystem_mcp_server.py:148-149 | normalising twice equals normalising once |
| FilesystemServer.Matches | cookbook/multi_agent/mcp_lm_studio/filesystem_mcp_server.py:153-195 | every uncapped hit is non-hidden, matches the pattern and the type suffix, lies within the size and date bounds, and comes from the top directory when not recursive |
| FilesystemServer.MatchesComplete | cookbook/multi_agent/mcp_lm_studio/filesystem_mcp_server.py:153-195 | conversely, every file of the walk (the top directory only, when not recursive) that passes the name, type, size and date filters is a hit of the uncapped search |
| FilesystemServer.MatchesInComplete | cookbook/multi_agent/mcp_lm_studio/filesystem_mcp_server.py:159-195 | within one directory, every file passing all the filters is a hit |
| FilesystemServer.Collect | cookbook/multi_agent/mcp_lm_studio/filesystem_mcp_server.py:153-203 | the capped loop extends what it has collected with admissible hits only, and never past the cap |
| FilesystemServer.CollectTakesPrefix | cookbook/multi_agent/mcp_lm_studio/filesystem_mcp_server.py:197-203 | for `max_results >= 1` the capped result is the first `max_results` hits of the uncapped search |
| FilesystemServer.NonPositiveCap | cookbook/multi_agent/mcp_lm_studio/filesystem_mcp_server.py:197-203 | with `max_results <= 0` the check after each append stops at the first hit, so at most one is returned |
| FilesystemServer.SearchFiles | cookbook/multi_agent/mcp_lm_studio/filesystem_mcp_server.py:97-205 | denied paths give the access-denied dict; an unparseable date gives its error dict; otherwise the answer holds only admissible hits and at most `max_results` of them when that is positive |
| FilesystemServer.SearchFilesIsCapped | cookbook/multi_agent/mcp_lm_studio/filesystem_mcp_server.py:153-205 | with valid dates and a positive cap the answer is exactly the first `max_results` hits of the uncapped reference over the walk of the target, or none when the target cannot be opened |
| FilesystemServer.FormatSizeMonotone | cookbook/multi_agent/mcp_lm_studio/filesystem_mcp_server.py:318-327 | a larger size never gets a smaller unit |
| FilesystemServer.FormatSizeShown | cookbook/multi_agent/mcp_lm_studio/filesystem_mcp_server.py:318-327 | below 1024 the exact integer in B; otherwise the shown number is at least 1 and, below GB, under 1024 |
| FilesystemServer.BaseName | cookbook/multi_agent/mcp_lm_studio/filesystem_mcp_server.py:227 | the basename has no `/`, ends the path, and is preceded by a `/` whenever it is not the whole path, so it is everything after the last separator |
| FilesystemServer.Extension | cookbook/multi_agent/mcp_lm_studio/filesystem_mcp_server.py:237 | `splitext`: empty exactly when every `.` of the basename has only dots before it; otherwise the suffix from the last `.`, with no other `.`, strictly shorter than the basename |
| FilesystemServer.GetFileInfo | cookbook/multi_agent/mcp_lm_studio/filesystem_mcp_server.py:208-245 | the access-denied dict exactly when the check denies; success describes the node found, with the path's basename as name and its `splitext` suffix as extension; a failed lookup or stat gives the error text naming the path; it raises exactly when the path check raises, with the same message |
| FilesystemServer.FilePreview | cookbook/multi_agent/mcp_lm_studio/filesystem_mcp_server.py:284-316 | contents exactly for a granted regular file within the size limit whose read succeeds; a larger one gets "File too large" with the formatted limit |
| FakeServer.ForecastText | cookbook/multi_agent/mcp_lm_studio/fake_mcp_server.py:11 | the sentence is exactly `Weather forecast for `, the location, ` for the next `, the day count and ` day(s): Sunny, 75°F`, each at its own position |
| FakeServer.ServeLine | cookbook/multi_agent/mcp_lm_studio/fake_mcp_server.py:17-35 | a direct response exactly for a decodable `get-forecast` invoke; an undecodable line or any other dict falls through to the regular server |
| FakeServer.ResponseFields | cookbook/multi_agent/mcp_lm_studio/fake_mcp_server.py:21-27 | the response has type `response`, echoes the id (`''` by default), and its output is the `get_forecast` text for the same location and days |
| FakeServer.ResponseDefaults | cookbook/multi_agent/mcp_lm_studio/fake_mcp_server.py:21-23 | with no location and no days the forecast is for `unknown`, one day |
| FakeServer.Stdout | cookbook/multi_agent/mcp_lm_studio/fake_mcp_server.py:29-35 | a direct response is printed as one JSON line |
| FakeClient.ToolResult | cookbook/multi_agent/mcp_lm_studio/fake_mcp_client.py:94-98 | unparseable stdout gives the parse-error text with the stdout; a dict without `output` gives "No output returned" |
| FakeClient.Translate | cookbook/multi_agent/mcp_lm_studio/fake_mcp_client.py:61-108 | the message carries the call's id and name; a process is started exactly for `get-forecast`, fed the invoke envelope; any other name gets "Unknown function: " and its name |
| FakeClient.TranslateAll | cookbook/multi_agent/mcp_lm_studio/fake_mcp_client.py:61-108 | one message per call, in order, or the index of the first call that raised |
| FakeClient.TranslateAllSpawns | cookbook/multi_agent/mcp_lm_studio/fake_mcp_client.py:61-108 | exactly one process per `get-forecast` call, in order, fed that call's envelope |
| FakeClient.InvokeFields | cookbook/multi_agent/mcp_lm_studio/fake_mcp_client.py:75-80 | the envelope carries type `invoke`, the call's id and name, and the decoded arguments as `input` |
| FakeClient.ForecastEndToEnd | cookbook/multi_agent/mcp_lm_studio/fake_mcp_client.py:70-98 | against the fake server, a forecast call's message is exactly the tool's own forecast text |
| Prompt.CompositePromptContent | pylib/components/prompt.py:53-75 | no images (None or empty) gives the text itself; otherwise a list of 1 + n parts: the text part, then one `image_url` part per image, in order, with URL `data:image/<type>;base64,<data>` |
| Prompt.UrlsRoundTrip | pylib/components/prompt/composite.py:35-41 | the image parts, in order, give back each image's type and data; the copy in this file is the same function as in `pylib/components/prompt.py` |
| Prompt.FilenameIrrelevant | pylib/components/prompt.py:44-50 | image lists that agree on type and data give the same content, whatever the file names |
| Prompt.CompositeRoundTrip | pylib/components/prompt/composite.py:29-41 | the text and every image's type and data, in order, can be read back from the content |
| Prompt.DataUrlRoundTrip | pylib/components/prompt/composite.py:39 | a data URL gives back its image's type and data |
| Researcher.Classify | cookbook/toolio_researcher_plus/main.py:183-197 | `image/…` gives image, `application/pdf` gives pdf, `video/…` gives video, `text/…` gives text, anything else or no mime gives unknown |
| Researcher.ProcessContent | cookbook/toolio_researcher_plus/main.py:199-222 | the raw content is the prefix of at most 2000 characters; non-text gets `[TYPE content]`; empty extraction falls back to the raw prefix |
| Researcher.Kept | cookbook/toolio_researcher_plus/main.py:251-278 | the fold fails only when a result has no `url`, and keeps at most one entry per result |
| Researcher.SearxngSearch | cookbook/toolio_researcher_plus/main.py:231-278 | the loop handles at most three results and agrees with the fold over the first three |
| Researcher.FailedFetchDropsOnlyItself | cookbook/toolio_researcher_plus/main.py:252-274 | a result whose fetch fails is dropped and nothing else changes |
| Researcher.AllFetchedAllKept | cookbook/toolio_researcher_plus/main.py:252-271 | when every fetch succeeds, every result is kept, in order |
| Researcher.Research | cookbook/toolio_researcher_plus/main.py:323-365 | at most ten steps; an early stop only below the ten-step cap, at a search step after two completed steps with the analysis complete and rigor low, that step not counted; findings concatenated in order |
| Researcher.Trace | cookbook/toolio_researcher_plus/main.py:386-393 | exactly one entry is appended and earlier entries are unchanged |
| Researcher.TraceKeepsHistory | cookbook/toolio_researcher_plus/main.py:386-393 | a sequence of traces appends its entries in order after the unchanged history |
| Tabluk.CreateGroup | cookbook/browserkit/tabluk/app.py:99-110 | the new group sits under its id with the given name and no links, and every other group is unchanged; a missing name raises |
| Tabluk.CreateGroupAddsOne | cookbook/browserkit/tabluk/app.py:101-109 | with a fresh id, exactly one key is added |
| Tabluk.UpdateGroup | cookbook/browserkit/tabluk/app.py:112-118 | an absent id changes nothing; for a present id a body without `name` raises KeyError, and one with it raises because the handler item-assigns a `TabGroup` |
| Tabluk.DeleteGroup | cookbook/browserkit/tabluk/app.py:120-126 | the id is gone and every other group is unchanged |
| Tabluk.DeleteGroupInverse | cookbook/browserkit/tabluk/app.py:122-126 | restoring a deleted group gives the map back, and an absent id changes nothing |
| Tabluk.AddLink | cookbook/browserkit/tabluk/app.py:128-151 | an absent group changes nothing; for a present one the link goes at the end, other links and groups unchanged; a missing url raises KeyError; a non-string url raises AttributeError in `urlparse` when it is truthy and no title is given, and fails validation otherwise |
| Tabluk.LinkTitle | cookbook/browserkit/tabluk/app.py:134-135 | a missing or falsy title is replaced by the page title; a given one is kept exactly when it is a string |
| Tabluk.PageTitle | cookbook/browserkit/tabluk/app.py:57-72 | the stripped page title when fetched, else the URL's host (or the error its parsing raises) |
| Tabluk.Netloc | cookbook/browserkit/tabluk/app.py:70-72 | the host never contains `/`, `?`, `#`, a tab or a line break, and holds `[` exactly when it holds `]`; otherwise the parse raises "Invalid IPv6 URL" |
| Tabluk.NetlocOfHttps | cookbook/browserkit/tabluk/app.py:70-72 | the host of an `https` URL comes back as its netloc |
| Tabluk.NetlocIgnoresLeadingBlanks | cookbook/browserkit/tabluk/app.py:70-72 | leading spaces and control characters before the URL do not change its host |
| Tabluk.NetlocIgnoresBreaks | cookbook/browserkit/tabluk/app.py:70-72 | tabs and line breaks anywhere in the URL do not change its host |
| Tabluk.Without | cookbook/browserkit/tabluk/app.py:155-158 | exactly the links whose id differs are kept |
| Tabluk.WithoutConcat | cookbook/browserkit/tabluk/app.py:155-158 | the filter works piecewise, so the original order is kept |
| Tabluk.WithoutAbsent | cookbook/browserkit/tabluk/app.py:155-158 | deleting an id no link has changes nothing |
| Tabluk.DeleteLink | cookbook/browserkit/tabluk/app.py:153-159 | only the group's links change, to those with a different id |
| Tabluk.LaunchGroup | cookbook/browserkit/tabluk/app.py:161-168 | an absent id gives `{'status': 'error', 'message': 'Group not found'}`; a present one opens each link in order and then raises |
| Notion.ReadPage | pylib/components/prompt/notion.py:48-70 | the id property is checked before the text, and the text before the params; a page that reads has key `title[0].plain_text`, text `rich_text[0].text.content`, language `en`, and the params as markers |
| Notion.ReadEntry | pylib/components/prompt/notion.py:66-70 | with the three properties in hand, the entry reads exactly when the params text, the title's `plain_text` (hashable) and the text's `content` are all there, and then carries those values |
| Notion.FirstOfIsPath | pylib/components/prompt/notion.py:66-70 | a subscript chain `x[list][0][key]` succeeds exactly when `x` is a dict whose `list` is a non-empty list whose first item is a dict binding `key`, and yields that value |
| Notion.ReadPageRoundTrip | pylib/components/prompt/notion.py:48-70 | a well-formed page reads back as its prompt id, keyed to its text in English with its params split into markers |
| Notion.PropertiesOfPage | pylib/components/prompt/notion.py:54-65 | a properties dict that lists the three configured names gives each one's value without a `ValueError` |
| Notion.ReadEntryOfPage | pylib/components/prompt/notion.py:66-70 | well-formed title, text and params properties give the entry with that key, text and markers |
| Notion.Markers | pylib/components/prompt/notion.py:67 | one stripped marker per comma-separated part |
| Notion.MarkersOfEmpty | pylib/components/prompt/notion.py:66-67 | no params text gives the one marker `''` |
| Notion.MarkersOfJoin | pylib/components/prompt/notion.py:67 | stripped comma-free markers come back from the text that joins them |
| Notion.ParamsText | pylib/components/prompt/notion.py:66 | an empty `rich_text` list gives `''`; a non-empty one gives the first `plain_text` exactly when the subscripts succeed and it is a string; a missing `rich_text` raises |
| Notion.Load | pylib/components/prompt/notion.py:45-72 | the load succeeds exactly when every page reads, and otherwise fails with the first failing page's exception |
| Notion.LoadLastWins | pylib/components/prompt/notion.py:70 | the loom holds exactly the pages' keys, taken up to dict-key equality, each with the entry of the last page carrying it |
| Notion.LoadAppend | pylib/components/prompt/notion.py:70 | one more page updates the loom at its key's dict slot only |
| Notion.BoolAndIntShareAKey | pylib/components/prompt/notion.py:70 | pages whose ids are `true` and `1` fill one dict slot, holding the later page's entry |

## Left out

- Process and pipe plumbing. `subprocess.Popen`, `time.sleep`, `asyncio.to_thread` and `wait_for` are abstracted as the worker's outcome queue, because the model has no processes or clocks.
- The keep-alive task's interleaving with the chat loop on the shared pipes. Only one wake-up's decision is modelled, because the code holds no lock and the interleaving is scheduler-dependent.
- `KeyboardInterrupt` handling in both `main`s, because it is a signal from outside.
- The language model and every HTTP service (LM Studio, SearXNG, the fetched pages, Notion's API). Their answers are parameters: scripted replies, a `fetch` function, a fetched title.
- `json.dumps` text. Tool-record content is kept as a JSON value, because the serialiser is a library.
- `json.loads` is a parameter. Floating-point JSON numbers are not modelled.
- The numeric part of `format_size`: only the unit tier and the exact integer below 1024 are modelled, because the rest is float formatting to two places.
- The `modified` and `created` timestamps of listings, and the mtime comparisons of the date filters: these are floats from the clock. Date filters are modelled as integer bounds from a `parseIso` parameter.
- `recent_large_files` and `get_current_time`, because they depend on the clock and float GB arithmetic.
- The glob matching of `Path.match`. It is a parameter, because the pattern language is a library.
- Symbolic links. The tree is a value that the tools open component by component as the kernel does, so `..` goes back to the directory actually reached. `abspath` in the containment check is normalisation against a given working directory.
- The `[Errno n]` prefix and the quoted path in `str(e)` for OS errors. Only the message part is modelled, because errno numbers are platform-specific.
- The bytes of image data in the prompt builders. Base64 text is a string.
- Persistence of tabluk's groups (`load_tab_groups`, `save_tab_groups`), the uuid generator, the `/` and `/chat` routes and the browser launch itself, because they are I/O.
- Tabluk.LaunchGroup: a present group is modelled as opening its URLs and then raising, because the handler indexes a `TabGroup` like a dict.
- Tabluk.UpdateGroup: a present group whose body has a `name` is modelled as raising for the same reason.
- Tabluk.Netloc: the extra validation that recent Python versions apply to a bracketed `[...]` host is not modelled, because it is the `ipaddress` parser. The unbalanced-bracket ValueError is modelled.
- Notion's `pages()` paging client, because it is HTTP. Its own defects (a str payload that is subscripted, a yield count never incremented) are outside the fold.
- FakeServer.Stdout: what the regular stdio server writes on fall-through is a parameter, because that server is the MCP library.
- The rigor of the researcher is a boolean "below 0.8", because it is a float.
- The researcher's LLM planning and analysis. The plan and each step's analysis are parameters, because they are model output.
- The `isatty` test of the fake server's `__main__`: stdin is taken to be a pipe, because an interactive terminal is outside the model.
- The trace file (`researcher_trace.json` by default) that `_trace` rewrites on every step: the model keeps the trace as a list value and takes each timestamp as a parameter, because writing the file and reading the clock are I/O.
- Worker deaths that no read has seen. The worker's status turns to exited only when a read consumes its exit, so a worker that dies between requests is not noticed by the `poll()` before a write, in the keep-alive or in teardown until a read shows it. Where the source would raise "MCP server process terminated" without writing, or skip the terminate, the model writes once more or signals, because when the process dies relative to the client's calls is a scheduling fact outside the model.
- End of standard input. `input()` raising EOFError is not modelled; running out of inputs ends the session as an exit word does.
- Researcher.Kept: search results are taken to be dicts. A result that is a list or a string, for which `r['url']` raises TypeError, is reported as the KeyError for `url`.
- Json.Repr: strings are shown in single quotes without escaping. Python's `repr` switches to double quotes for a string holding `'` and escapes backslashes and control characters, which only changes error texts.
- The `print` output, console progress bars and `structlog` logging throughout, because they do not change what is returned.

=== FILE: base.dfy ===
/** Failure-carrying wrappers shared by every module of the model. */
module Base {

  /** A value that may be absent: Python's `None` versus a present value. */
  datatype Option<+T> = None | Some(value: T)

  /** The outcome of an operation that can raise: `Ok` carries the return value,
      `Err` the exception (or error reply) that the source raises instead. */
  datatype Result<+T, +E> = Ok(value: T) | Err(error: E)

  function Min(a: int, b: int): int { if a <= b then a else b }

  function Max(a: int, b: int): int { if a <= b then b else a }
}

=== FILE: batch.dfy ===
/** The loop both MCP clients run over one batch of tool calls: each call is
    handled in order by a step that sees the worker state the previous call
    left, and produces exactly one tool record. The properties here are
    stated once for any step; each client instantiates them with its own. */
module Batch {
  import opened Json
  import opened Protocol

  /** Handling one tool call: its record and the worker afterwards. */
  type Step = (ToolCall, Worker) -> (Record, Worker)

  /** The record answers the call: same id and function name, role `tool`. */
  predicate Answers(call: ToolCall, record: Record) {
    record.toolCallId == call.id && record.name == call.name && record.role == "tool"
  }

  /** `after` has written at most one request more than `before`, keeping
      everything `before` had written. */
  predicate WritesAtMostOne(before: Worker, after: Worker) {
    |before.sent| <= |after.sent| <= |before.sent| + 1 && after.sent[..|before.sent|] == before.sent
  }

  /** A step on an exited worker writes nothing, leaves it exited and records an error. */
  predicate InertWhenExited(x: Worker, out: (Record, Worker)) {
    x.status.Exited? ==>
      out.1.sent == x.sent && out.1.status == x.status && HasKey(out.0.content, "error")
  }

  /** The calls of a batch, one after another. */
  function RunBatch(calls: seq<ToolCall>, w: Worker, step: Step): (r: (seq<Record>, Worker))
    ensures |r.0| == |calls|
  {
    if |calls| == 0 then ([], w)
    else
      var (record, w1) := step(calls[0], w);
      var (rest, w2) := RunBatch(calls[1..], w1, step);
      ([record] + rest, w2)
  }

  /** Running a batch is running its first part and then, from the worker state
      that left, its second part: a call's outcome (an exception included)
      reaches later calls only through the worker state. */
  lemma {:induction false} RunBatchSplit(a: seq<ToolCall>, b: seq<ToolCall>, w: Worker, step: Step)
    ensures var (ra, wa) := RunBatch(a, w, step);
            var (rb, wb) := RunBatch(b, wa, step);
            RunBatch(a + b, w, step) == (ra + rb, wb)
  {
    if |a| == 0 {
      assert a + b == b;
      var (rb, wb) := RunBatch(b, w, step);
      assert [] + rb == rb;
    } else {
      var (record, w1) := step(a[0], w);
      assert (a + b)[1..] == a[1..] + b;
      assert (a + b)[0] == a[0];
      RunBatchSplit(a[1..], b, w1, step);
      var (ra1, wa) := RunBatch(a[1..], w1, step);
      var (rb, wb) := RunBatch(b, wa, step);
      assert RunBatch(a, w, step) == ([record] + ra1, wa);
      assert RunBatch(a + b, w, step) == ([record] + (ra1 + rb), wb);
      assert [record] + (ra1 + rb) == ([record] + ra1) + rb;
    }
  }

  /** The record of call `i` is the record that call alone produces from the
      worker state the earlier calls left behind. */
  lemma {:induction false} RunBatchRecord(calls: seq<ToolCall>, w: Worker, step: Step, i: nat)
    requires i < |calls|
    ensures RunBatch(calls, w, step).0[i] == step(calls[i], RunBatch(calls[..i], w, step).1).0
  {
    var w1 := step(calls[0], w).1;
    if i == 0 {
      assert calls[..0] == [];
    } else {
      RunBatchRecord(calls[1..], w1, step, i - 1);
      assert calls[..i][0] == calls[0];
      assert calls[..i][1..] == calls[1..][..i - 1];
    }
  }

  /** A step whose record always answers its call gives a batch whose records
      answer the calls position by position. */
  lemma {:induction false} RunBatchAnswers(calls: seq<ToolCall>, w: Worker, step: Step)
    requires forall c, x :: Answers(c, step(c, x).0)
    ensures forall i :: 0 <= i < |calls| ==> Answers(calls[i], RunBatch(calls, w, step).0[i])
  {
    if |calls| > 0 {
      var (record, w1) := step(calls[0], w);
      RunBatchAnswers(calls[1..], w1, step);
      var r := RunBatch(calls, w, step);
      assert r.0 == [record] + RunBatch(calls[1..], w1, step).0;
      forall i | 0 <= i < |calls| ensures Answers(calls[i], r.0[i]) {
        if i > 0 {
          assert r.0[i] == RunBatch(calls[1..], w1, step).0[i - 1];
        }
      }
    }
  }

  /** A step that writes at most one request gives a batch that writes at most
      one per call, only appending. */
  lemma {:induction false} RunBatchWrites(calls: seq<ToolCall>, w: Worker, step: Step)
    requires forall c, x :: WritesAtMostOne(x, step(c, x).1)
    ensures var after := RunBatch(calls, w, step).1;
            |w.sent| <= |after.sent| <= |w.sent| + |calls| && after.sent[..|w.sent|] == w.sent
  {
    if |calls| > 0 {
      var (record, w1) := step(calls[0], w);
      assert WritesAtMostOne(w, w1);
      RunBatchWrites(calls[1..], w1, step);
      var w2 := RunBatch(calls[1..], w1, step).1;
      assert w2.sent[..|w.sent|] == w2.sent[..|w1.sent|][..|w.sent|];
    }
  }

  /** Once the worker has exited (mid-batch included) every further call gets
      an error record and nothing more is written. */
  lemma {:induction false} RunBatchExited(calls: seq<ToolCall>, w: Worker, step: Step)
    requires forall c, x :: InertWhenExited(x, step(c, x))
    requires w.status.Exited?
    ensures RunBatch(calls, w, step).1.sent == w.sent
    ensures RunBatch(calls, w, step).1.status == w.status
    ensures forall i :: 0 <= i < |calls| ==> HasKey(RunBatch(calls, w, step).0[i].content, "error")
  {
    if |calls| > 0 {
      var (record, w1) := step(calls[0], w);
      assert InertWhenExited(w, step(calls[0], w));
      RunBatchExited(calls[1..], w1, step);
      var r := RunBatch(calls, w, step);
      assert r.0 == [record] + RunBatch(calls[1..], w1, step).0;
      forall i | 0 <= i < |calls| ensures HasKey(r.0[i].content, "error") {
        if i > 0 {
          assert r.0[i] == RunBatch(calls[1..], w1, step).0[i - 1];
        }
      }
    }
  }
}

=== FILE: chat.dfy ===
/** The conversation loop both MCP clients run for one user input
    (`chat_with_llm` in local_llm_mcp_client.py, the inner loop of `main` in
    searxng_mcp_client.py), and the session loop around it that reads inputs
    until an exit word. The language model is a script of replies; a client
    plugs in its own tool-call handler. */
module Chat {
  import opened Base
  import opened Protocol
  import opened Batch

  /** What one completion request yields: the assistant's message (its text and
      its tool calls), or the exception the request raised. */
  datatype Reply = Reply(content: Option<string>, toolCalls: seq<ToolCall>) | Failure(message: string)

  /** The entries of the `messages` list. */
  datatype Message = User(text: string) | Assistant(content: Option<string>) | Tool(record: Record)

  /** Why the loop ended: a reply without tool calls, an exception, or (an
      artefact of the script) no further reply. */
  datatype Stop = Answered | Failed(message: string) | OutOfReplies

  /** The loop's result: the messages, how many assistant replies it consumed,
      why it stopped, and the worker as the tool calls left it. */
  datatype Conversation = Conversation(messages: seq<Message>, turns: nat, stop: Stop, worker: Worker)

  /** A client's `process_tool_calls`. */
  type Handler = (seq<ToolCall>, Worker) -> (seq<Record>, Worker)

  function ToolMessages(records: seq<Record>): seq<Message> {
    seq(|records|, i requires 0 <= i < |records| => Tool(records[i]))
  }

  /** The loop from the current `messages`: each reply appends one assistant
      message and then every tool record for its calls, and the loop goes
      round again only when the reply had tool calls. */
  function Converse(ms: seq<Message>, replies: seq<Reply>, w: Worker, handle: Handler): (c: Conversation)
    ensures c.turns <= |replies|
    ensures |ms| <= |c.messages| && c.messages[..|ms|] == ms
    ensures 0 < c.turns ==> |ms| < |c.messages|
    ensures forall i :: 0 <= i < c.turns ==> replies[i].Reply?
    ensures forall i :: 0 <= i < c.turns - 1 ==> |replies[i].toolCalls| > 0
    ensures c.stop == Answered <==> 0 < c.turns && |replies[c.turns - 1].toolCalls| == 0
    ensures c.stop.Failed? ==> c.turns < |replies| && replies[c.turns] == Failure(c.stop.message)
    ensures c.stop == OutOfReplies ==> c.turns == |replies|
    decreases |replies|
  {
    if |replies| == 0 then Conversation(ms, 0, OutOfReplies, w)
    else
      match replies[0]
      case Failure(m) => Conversation(ms, 0, Failed(m), w)
      case Reply(content, calls) =>
        var ms1 := ms + [Assistant(content)];
        if |calls| == 0 then Conversation(ms1, 1, Answered, w)
        else
          var (records, w1) := handle(calls, w);
          var rest := Converse(ms1 + ToolMessages(records), replies[1..], w1, handle);
          assert rest.messages[..|ms|] == (ms1 + ToolMessages(records))[..|ms|];
          Conversation(rest.messages, rest.turns + 1, rest.stop, rest.worker)
  }

  /** `chat_with_llm`: the loop started from the user's message. */
  function ChatWithLlm(input: string, replies: seq<Reply>, w: Worker, handle: Handler): (c: Conversation)
    ensures |c.messages| > 0 && c.messages[0] == User(input)
    ensures c.turns <= |replies|
  {
    var c := Converse([User(input)], replies, w, handle);
    assert c.messages[..1] == [User(input)];
    c
  }

  // ---------------------------------------------------------------------------
  // What a conversation's messages contain

  /** The contents of the assistant messages, in order. */
  function AssistantContents(ms: seq<Message>): seq<Option<string>> {
    if |ms| == 0 then []
    else (if ms[0].Assistant? then [ms[0].content] else []) + AssistantContents(ms[1..])
  }

  /** The `tool_call_id`s of the tool messages, in order. */
  function ToolIds(ms: seq<Message>): seq<string> {
    if |ms| == 0 then []
    else (if ms[0].Tool? then [ms[0].record.toolCallId] else []) + ToolIds(ms[1..])
  }

  /** The contents of the replies that are assistant messages, in order. */
  function ReplyContents(rs: seq<Reply>): seq<Option<string>> {
    if |rs| == 0 then []
    else (if rs[0].Reply? then [rs[0].content] else []) + ReplyContents(rs[1..])
  }

  function CallIds(calls: seq<ToolCall>): seq<string> {
    seq(|calls|, i requires 0 <= i < |calls| => calls[i].id)
  }

  /** The ids of all tool calls of the replies, in order. */
  function ReplyCallIds(rs: seq<Reply>): seq<string> {
    if |rs| == 0 then []
    else (if rs[0].Reply? then CallIds(rs[0].toolCalls) else []) + ReplyCallIds(rs[1..])
  }

  /** A handler that answers each call of a batch with one record, in order. */
  ghost predicate Faithful(handle: Handler) {
    forall calls, x :: AnswersAll(calls, handle(calls, x).0)
  }

  predicate AnswersAll(calls: seq<ToolCall>, records: seq<Record>) {
    |records| == |calls| && forall i :: 0 <= i < |calls| ==> Answers(calls[i], records[i])
  }

  lemma {:induction false} AssistantContentsConcat(a: seq<Message>, b: seq<Message>)
    ensures AssistantContents(a + b) == AssistantContents(a) + AssistantContents(b)
  {
    if |a| > 0 {
      assert (a + b)[1..] == a[1..] + b;
      AssistantContentsConcat(a[1..], b);
    } else {
      assert a + b == b;
    }
  }

  lemma {:induction false} ToolIdsConcat(a: seq<Message>, b: seq<Message>)
    ensures ToolIds(a + b) == ToolIds(a) + ToolIds(b)
  {
    if |a| > 0 {
      assert (a + b)[1..] == a[1..] + b;
      ToolIdsConcat(a[1..], b);
    } else {
      assert a + b == b;
    }
  }

  lemma {:induction false} ToolMessagesIds(calls: seq<ToolCall>, records: seq<Record>)
    requires AnswersAll(calls, records)
    ensures ToolIds(ToolMessages(records)) == CallIds(calls)
    ensures AssistantContents(ToolMessages(records)) == []
  {
    if |records| > 0 {
      var ms := ToolMessages(records);
      assert ms[1..] == ToolMessages(records[1..]);
      ToolMessagesIds(calls[1..], records[1..]);
      assert CallIds(calls) == [calls[0].id] + CallIds(calls[1..]);
    }
  }

  /** The assistant messages a conversation adds are the consumed replies, in
      order: exactly one per iteration. */
  lemma {:induction false} ConverseAssistants(ms: seq<Message>, replies: seq<Reply>, w: Worker, handle: Handler)
    requires Faithful(handle)
    ensures var c := Converse(ms, replies, w, handle);
            AssistantContents(c.messages) == AssistantContents(ms) + ReplyContents(replies[..c.turns])
    decreases |replies|
  {
    var c := Converse(ms, replies, w, handle);
    if |replies| > 0 && replies[0].Reply? {
      var content := replies[0].content;
      var calls := replies[0].toolCalls;
      var ms1 := ms + [Assistant(content)];
      AssistantContentsConcat(ms, [Assistant(content)]);
      assert AssistantContents([Assistant(content)]) == [content];
      assert ReplyContents(replies[..c.turns]) == [content] + ReplyContents(replies[..c.turns][1..]);
      if |calls| > 0 {
        var (records, w1) := handle(calls, w);
        assert AnswersAll(calls, records);
        ToolMessagesIds(calls, records);
        AssistantContentsConcat(ms1, ToolMessages(records));
        ConverseAssistants(ms1 + ToolMessages(records), replies[1..], w1, handle);
        var rest := Converse(ms1 + ToolMessages(records), replies[1..], w1, handle);
        assert c.messages == rest.messages && c.turns == rest.turns + 1;
        assert replies[..c.turns][1..] == replies[1..][..c.turns - 1];
      } else {
        assert replies[..c.turns][1..] == [];
      }
    } else {
      assert replies[..c.turns] == [];
    }
  }

  /** The tool messages a conversation adds answer the calls of the consumed
      replies, all of them and in order: every call's record follows its
      assistant message before the next request. */
  lemma {:induction false} ConverseToolIds(ms: seq<Message>, replies: seq<Reply>, w: Worker, handle: Handler)
    requires Faithful(handle)
    ensures var c := Converse(ms, replies, w, handle);
            ToolIds(c.messages) == ToolIds(ms) + ReplyCallIds(replies[..c.turns])
    decreases |replies|
  {
    var c := Converse(ms, replies, w, handle);
    if |replies| > 0 && replies[0].Reply? {
      var content := replies[0].content;
      var calls := replies[0].toolCalls;
      var ms1 := ms + [Assistant(content)];
      ToolIdsConcat(ms, [Assistant(content)]);
      assert ToolIds([Assistant(content)]) == [];
      assert ReplyCallIds(replies[..c.turns]) == CallIds(calls) + ReplyCallIds(replies[..c.turns][1..]);
      if |calls| > 0 {
        var (records, w1) := handle(calls, w);
        assert AnswersAll(calls, records);
        ToolMessagesIds(calls, records);
        ToolIdsConcat(ms1, ToolMessages(records));
        ConverseToolIds(ms1 + ToolMessages(records), replies[1..], w1, handle);
        var rest := Converse(ms1 + ToolMessages(records), replies[1..], w1, handle);
        assert c.messages == rest.messages && c.turns == rest.turns + 1;
        assert replies[..c.turns][1..] == replies[1..][..c.turns - 1];
      } else {
        assert replies[..c.turns][1..] == [];
        assert CallIds(calls) == [];
      }
    } else {
      assert replies[..c.turns] == [];
    }
  }

  // ---------------------------------------------------------------------------
  // The session loop

  /** Index of the first exit word (or the number of inputs when there is none). */
  function ExitIndex(inputs: seq<string>): (k: nat)
    ensures k <= |inputs|
    ensures forall i :: 0 <= i < k ==> !IsExitCommand(inputs[i])
    ensures k < |inputs| ==> IsExitCommand(inputs[k])
  {
    if |inputs| == 0 || IsExitCommand(inputs[0]) then 0 else 1 + ExitIndex(inputs[1..])
  }

  /** The `while True: input(...)` loop of `main`: one conversation per input
      until an exit word (or the end of input, where `input` raises); a failed
      conversation does not end the session. `scripts[i]` is the model's
      replies during the i-th conversation. */
  function Session(inputs: seq<string>, scripts: seq<seq<Reply>>, w: Worker, handle: Handler)
    : (r: (seq<Conversation>, Worker))
    ensures |r.0| == ExitIndex(inputs)
    ensures forall i :: 0 <= i < |r.0| ==> |r.0[i].messages| > 0 && r.0[i].messages[0] == User(inputs[i])
  {
    if |inputs| == 0 || IsExitCommand(inputs[0]) then ([], w)
    else
      var c := ChatWithLlm(inputs[0], if |scripts| > 0 then scripts[0] else [], w, handle);
      var (rest, w1) := Session(inputs[1..], if |scripts| > 0 then scripts[1..] else [], c.worker, handle);
      ([c] + rest, w1)
  }
}

=== FILE: fake_client.dfy ===
/** The fake MCP client (cookbook/multi_agent/mcp_lm_studio/fake_mcp_client.py):
    each tool call of the model's reply becomes one tool message; a
    `get-forecast` call is sent as an `invoke` envelope to a fresh server
    process, any other name is answered locally. */
module FakeClient {
  import opened Base
  import opened Strings
  import opened Json
  import opened Protocol
  import FakeServer

  /** A `{'role': 'tool', 'tool_call_id': …, 'name': …, 'content': …}` message. */
  datatype ToolMessage = ToolMessage(toolCallId: string, name: string, content: string)

  /** What the client needs from the outside: `json.loads`, `json.dumps`, and
      the server process as a map from what it is fed on stdin to what it
      writes on stdout. */
  datatype Env = Env(loads: Loads, dumps: Json -> string, spawn: string -> string)

  /** The translation of one call ended the script: its arguments did not
      decode, or the server's reply decoded to something that is not a dict. */
  datatype Crash = Crash(callIndex: nat)

  const Forecast := "get-forecast"

  /** The stdin document for a call: `{type: 'invoke', id, name, input}`. */
  function Invoke(call: ToolCall, input: Json): Json {
    Obj([("type", Str("invoke")), ("id", Str(call.id)), ("name", Str(call.name)), ("input", input)])
  }

  /** What the client makes of the server's stdout: the `output` member (or
      `'No output returned'`), or a parse-error text carrying the stdout. */
  function ToolResult(stdout: string, loads: Loads): (r: Option<string>)
    ensures loads(stdout).Err? ==> r == Some("Error parsing server response: " + stdout)
    ensures loads(stdout).Ok? && loads(stdout).value.Obj? && !HasKey(loads(stdout).value, "output") ==>
              r == Some("No output returned")
    ensures loads(stdout).Ok? && HasKey(loads(stdout).value, "output") ==>
              r == Some(PyStr(Get(loads(stdout).value, "output").value))
    ensures r.None? <==> loads(stdout).Ok? && !loads(stdout).value.Obj?
  {
    match loads(stdout)
    case Err(_) => Some("Error parsing server response: " + stdout)
    case Ok(result) =>
      if !result.Obj? then None
      else Some(PyStr(GetOr(result, "output", Str("No output returned"))))
  }

  /** One iteration of the loop over `tool_calls`: the message, and the stdin
      text of the server process it started, if it started one. */
  function Translate(call: ToolCall, env: Env): (r: Option<(ToolMessage, Option<string>)>)
    ensures r.Some? ==> r.value.0.toolCallId == call.id && r.value.0.name == call.name
    ensures r.Some? ==> (r.value.1.Some? <==> call.name == Forecast)
    ensures env.loads(call.arguments).Err? ==> r.None?
    ensures r.Some? && call.name != Forecast ==> r.value.0.content == "Unknown function: " + call.name
    ensures r.Some? && call.name == Forecast ==>
              r.value.1 == Some(env.dumps(Invoke(call, env.loads(call.arguments).value)) + "\n")
  {
    match env.loads(call.arguments)
    case Err(_) => None
    case Ok(args) =>
      if call.name == Forecast then
        var stdin := env.dumps(Invoke(call, args)) + "\n";
        match ToolResult(env.spawn(stdin), env.loads)
        case None => None
        case Some(text) => Some((ToolMessage(call.id, call.name, text), Some(stdin)))
      else Some((ToolMessage(call.id, call.name, "Unknown function: " + call.name), None))
  }

  /** The loop over the calls: the messages appended and the stdin text of
      each server process started, in call order, or the call that crashed. */
  function TranslateAll(calls: seq<ToolCall>, env: Env): (r: Result<(seq<ToolMessage>, seq<string>), Crash>)
    ensures r.Ok? <==> forall i :: 0 <= i < |calls| ==> Translate(calls[i], env).Some?
    ensures r.Ok? ==> |r.value.0| == |calls|
    ensures r.Ok? ==> forall i :: 0 <= i < |calls| ==> r.value.0[i] == Translate(calls[i], env).value.0
    ensures r.Err? ==> r.error.callIndex < |calls| && Translate(calls[r.error.callIndex], env).None?
                       && forall i :: 0 <= i < r.error.callIndex ==> Translate(calls[i], env).Some?
  {
    if |calls| == 0 then Ok(([], []))
    else
      match Translate(calls[0], env)
      case None => Err(Crash(0))
      case Some((message, started)) =>
        match TranslateAll(calls[1..], env)
        case Err(c) =>
          assert forall i :: 1 <= i < |calls| ==> calls[i] == calls[1..][i - 1];
          Err(Crash(c.callIndex + 1))
        case Ok((messages, stdins)) =>
          assert forall i :: 1 <= i < |calls| ==> calls[i] == calls[1..][i - 1];
          Ok(([message] + messages, (if started.Some? then [started.value] else []) + stdins))
  }

  /** The calls that start a server process. */
  function ForecastCalls(calls: seq<ToolCall>): seq<ToolCall> {
    if |calls| == 0 then []
    else (if calls[0].name == Forecast then [calls[0]] else []) + ForecastCalls(calls[1..])
  }

  /** One tool message per call, in call order, with that call's id and name;
      and exactly one server process per `get-forecast` call and none for any
      other name, fed that call's envelope. */
  lemma {:induction false} TranslateAllSpawns(calls: seq<ToolCall>, env: Env)
    requires TranslateAll(calls, env).Ok?
    ensures var (messages, stdins) := TranslateAll(calls, env).value;
            |stdins| == |ForecastCalls(calls)|
            && forall k :: 0 <= k < |stdins| ==>
                 var c := ForecastCalls(calls)[k];
                 env.loads(c.arguments).Ok? && stdins[k] == env.dumps(Invoke(c, env.loads(c.arguments).value)) + "\n"
    ensures forall i :: 0 <= i < |calls| ==>
              TranslateAll(calls, env).value.0[i].toolCallId == calls[i].id
              && TranslateAll(calls, env).value.0[i].name == calls[i].name
  {
    if |calls| > 0 {
      var (message, started) := Translate(calls[0], env).value;
      assert forall i :: 1 <= i < |calls| ==> calls[i] == calls[1..][i - 1];
      TranslateAllSpawns(calls[1..], env);
      var (messages, stdins) := TranslateAll(calls[1..], env).value;
      assert TranslateAll(calls, env).value.1 == (if started.Some? then [started.value] else []) + stdins;
      assert ForecastCalls(calls) == (if calls[0].name == Forecast then [calls[0]] else []) + ForecastCalls(calls[1..]);
    }
  }

  // ---------------------------------------------------------------------------
  // Client and fake server together

  /** `json.loads` reads back what `json.dumps` wrote, a trailing newline
      included. */
  ghost predicate ReadsBack(loads: Loads, dumps: Json -> string) {
    forall j :: loads(dumps(j) + "\n") == Ok(j)
  }

  /** The client wired to the fake server's process. */
  function WithFakeServer(loads: Loads, dumps: Json -> string, fallback: string): Env {
    Env(loads, dumps, stdin => FakeServer.Stdout(stdin, loads, dumps, fallback))
  }

  /** The envelope carries the call's id and name and its decoded arguments as `input`. */
  lemma InvokeFields(call: ToolCall, input: Json)
    ensures Get(Invoke(call, input), "type") == Some(Str("invoke"))
    ensures Get(Invoke(call, input), "id") == Some(Str(call.id))
    ensures Get(Invoke(call, input), "name") == Some(Str(call.name))
    ensures Get(Invoke(call, input), "input") == Some(input)
  {
    var f := Invoke(call, input).fields;
    assert f[1..][1..] == f[2..] && f[2..][1..] == f[3..];
    assert Lookup(f[1..], "id") == Some(Str(call.id));
    assert Lookup(f[3..], "input") == Some(input);
    assert Lookup(f[2..], "input") == Lookup(f[3..], "input");
    assert Lookup(f[1..], "input") == Lookup(f[2..], "input");
    assert Lookup(f[2..], "name") == Some(Str(call.name));
    assert Lookup(f[1..], "name") == Lookup(f[2..], "name");
  }

  /** Against the fake server, a `get-forecast` call whose arguments are a dict
      with a string location and an integer day count gets the tool's own
      forecast text as its message, and absent arguments get the defaults. */
  lemma ForecastEndToEnd(call: ToolCall, loads: Loads, dumps: Json -> string, fallback: string)
    requires ReadsBack(loads, dumps)
    requires call.name == Forecast && loads(call.arguments).Ok? && loads(call.arguments).value.Obj?
    ensures var args := loads(call.arguments).value;
            var location := GetOr(args, "location", Str("unknown"));
            var days := GetOr(args, "days", Int(1));
            location.Str? && days.Int? ==>
              Translate(call, WithFakeServer(loads, dumps, fallback))
                == Some((ToolMessage(call.id, call.name, FakeServer.GetForecast(location.s, days.i)),
                         Some(dumps(Invoke(call, args)) + "\n")))
  {
    var args := loads(call.arguments).value;
    var env := WithFakeServer(loads, dumps, fallback);
    var request := Invoke(call, args);
    var stdin := dumps(request) + "\n";
    assert loads(stdin) == Ok(request);
    InvokeFields(call, args);
    var response := FakeServer.Response(request, args);
    assert FakeServer.ServeLine(stdin, loads) == FakeServer.Respond(response);
    assert env.spawn(stdin) == dumps(response) + "\n";
    FakeServer.ResponseFields(request, args);
  }
}

=== FILE: fake_server.dfy ===
/** The fake weather MCP server (cookbook/multi_agent/mcp_lm_studio/fake_mcp_server.py):
    the `get_forecast` tool text and the one-line stdin shortcut of its
    `__main__`, which answers an `invoke` of `get-forecast` directly and lets
    everything else through to the regular stdio server. */
module FakeServer {
  import opened Base
  import opened Strings
  import opened Json
  import opened Protocol

  /** The forecast sentence for a location and a day count, each already
      rendered as the f-string renders it. */
  const ForecastLead := "Weather forecast for "
  const ForecastMiddle := " for the next "
  const ForecastTail := " day(s): Sunny, 75°F"

  /** The sentence is the lead, the location, the middle words, the day count
      and the fixed tail, each at its own place and nothing else. */
  function ForecastText(location: string, days: string): (t: string)
    ensures |t| == |ForecastLead| + |location| + |ForecastMiddle| + |days| + |ForecastTail|
    ensures StartsWith(t, ForecastLead) && EndsWith(t, ForecastTail)
    ensures t[|ForecastLead|..|ForecastLead| + |location|] == location
    ensures t[|ForecastLead| + |location|..|ForecastLead| + |location| + |ForecastMiddle|] == ForecastMiddle
    ensures t[|t| - |ForecastTail| - |days|..|t| - |ForecastTail|] == days
  {
    var a := ForecastLead + location;
    var b := a + ForecastMiddle;
    var c := b + days;
    var t := c + ForecastTail;
    assert t[..|a|] == a && a[..|ForecastLead|] == ForecastLead;
    assert t[..|ForecastLead|] == ForecastLead;
    assert t[|t| - |ForecastTail|..] == ForecastTail;
    assert t[|ForecastLead|..|a|] == a[|ForecastLead|..] == location;
    assert t[|a|..|b|] == b[|a|..] == ForecastMiddle;
    assert t[|b|..|c|] == c[|b|..] == days;
    t
  }

  /** The `get-forecast` tool. */
  function GetForecast(location: string, days: int): string {
    ForecastText(location, IntToString(days))
  }

  /** What the `__main__` block does with the first stdin line. */
  datatype Action =
    | Respond(response: Json)  // prints the response and exits 0
    | FallThrough              // runs the regular stdio server
    | Crash                    // `.get` on something that is not a dict: AttributeError

  /** The request is an `invoke` of `get-forecast`. */
  predicate IsForecastInvoke(request: Json) {
    request.Obj? && Get(request, "type") == Some(Str("invoke")) && Get(request, "name") == Some(Str("get-forecast"))
  }

  /** The response to a `get-forecast` invoke whose `input` is a dict: the id
      echoed (`""` when missing), location and days defaulting to `'unknown'` and 1. */
  function Response(request: Json, input: Json): Json
    requires request.Obj? && input.Obj?
  {
    var location := GetOr(input, "location", Str("unknown"));
    var days := GetOr(input, "days", Int(1));
    Obj([("type", Str("response")),
         ("id", GetOr(request, "id", Str(""))),
         ("output", Str(ForecastText(PyStr(location), PyStr(days))))])
  }

  /** The stdin shortcut: a line that does not decode, or a request that is
      not a `get-forecast` invoke, falls through; calling `.get` on a value
      that is not a dict raises. */
  function ServeLine(line: string, loads: Loads): (a: Action)
    ensures a.Respond? <==>
              loads(line).Ok? && IsForecastInvoke(loads(line).value)
              && GetOr(loads(line).value, "input", EmptyObj).Obj?
    ensures a.FallThrough? <==> loads(line).Err? || (loads(line).value.Obj? && !IsForecastInvoke(loads(line).value))
    ensures a.Respond? ==> a.response == Response(loads(line).value, GetOr(loads(line).value, "input", EmptyObj))
  {
    match loads(line)
    case Err(_) => FallThrough
    case Ok(request) =>
      if !request.Obj? then Crash
      else if !IsForecastInvoke(request) then FallThrough
      else
        var input := GetOr(request, "input", EmptyObj);
        if !input.Obj? then Crash else Respond(Response(request, input))
  }

  /** The response is a `response` carrying the request's id (or `""`) and, for
      a string location and an integer day count (or their defaults), exactly
      the text the `get-forecast` tool produces for them. */
  lemma ResponseFields(request: Json, input: Json)
    requires request.Obj? && input.Obj?
    ensures Get(Response(request, input), "type") == Some(Str("response"))
    ensures Get(Response(request, input), "id") == Some(GetOr(request, "id", Str("")))
    ensures var location := GetOr(input, "location", Str("unknown"));
            var days := GetOr(input, "days", Int(1));
            location.Str? && days.Int? ==>
              Get(Response(request, input), "output") == Some(Str(GetForecast(location.s, days.i)))
  {
    var f := Response(request, input).fields;
    assert f[1..][1..] == f[2..];
    assert Lookup(f[2..], "output") == Some(f[2].1);
    assert Lookup(f[1..], "output") == Lookup(f[2..], "output");
  }

  /** The defaults: with neither key present the forecast is for `unknown`,
      one day. */
  lemma ResponseDefaults(request: Json, input: Json)
    requires request.Obj? && input.Obj? && !HasKey(input, "location") && !HasKey(input, "days")
    ensures Get(Response(request, input), "output") == Some(Str(GetForecast("unknown", 1)))
  {
    ResponseFields(request, input);
  }

  /** What the process writes to stdout for that line: the response document
      and a newline, or whatever the regular server writes (`fallback`), or
      nothing when it crashes. */
  function Stdout(line: string, loads: Loads, dumps: Json -> string, fallback: string): (out: string)
    ensures ServeLine(line, loads).Respond? ==> out == dumps(ServeLine(line, loads).response) + "\n"
    ensures ServeLine(line, loads).Crash? ==> out == ""
  {
    match ServeLine(line, loads)
    case Respond(j) => dumps(j) + "\n"
    case FallThrough => fallback
    case Crash => ""
  }
}

=== FILE: fs_server.dfy ===
/** The tools of the filesystem MCP server
    (cookbook/multi_agent/mcp_lm_studio/filesystem_mcp_server.py) over an
    abstract directory tree: `list_files` with its hidden-entry filter and
    bounded recursion, the `search_files` filter pipeline and result cap,
    `get_file_info`, the size limit of `file_preview` and the unit tier of
    `format_size`. */
module FilesystemServer {
  import opened Base
  import opened Strings
  import opened PosixPath

  // ---------------------------------------------------------------------------
  // The tree

  /** The OSErrors the tools tell apart; the text stands for the message part
      of `str(e)` (without the `[Errno n]` prefix and the path). */
  datatype OsError = PermissionDenied | NotFound(text: string) | OtherError(text: string)

  /** What `stat` reports: size in bytes and modification time in whole seconds. */
  datatype Stat = Stat(size: int, mtime: int)

  /** A file (its `stat` and what reading it gives) or a directory (its `stat`
      and its entries in order, unless `os.scandir` raises `scanError`). */
  datatype Node =
    | File(stat: Result<Stat, OsError>, contents: Result<string, OsError>)
    | Dir(stat: Result<Stat, OsError>, scanError: Option<OsError>, entries: seq<Entry>)

  datatype Entry = Entry(name: string, node: Node)

  /** `str(e)` as the tools report it; a PermissionError is reported with the
      fixed text "Permission denied". */
  function ErrorText(e: OsError): string {
    match e
    case PermissionDenied => "Permission denied"
    case NotFound(t) => t
    case OtherError(t) => t
  }

  /** The node at the given components below `node`, as the operating system
      resolves it: a missing name is FileNotFoundError, a file in the middle
      is NotADirectoryError, an unreadable directory passes on its error. */
  function Lookup(node: Node, path: seq<string>): Result<Node, OsError>
    decreases node
  {
    if |path| == 0 then Ok(node)
    else
      match node
      case File(_, _) => Err(OtherError(NotADirectoryText))
      case Dir(_, failure, entries) =>
        if failure.Some? then Err(failure.value) else LookupIn(node, entries, 0, path)
  }

  function LookupIn(parent: Node, entries: seq<Entry>, i: nat, path: seq<string>): Result<Node, OsError>
    requires parent.Dir? && parent.scanError == None && parent.entries == entries && i <= |entries| && |path| > 0
    decreases parent, |entries| - i
  {
    if i == |entries| then Err(NotFound("No such file or directory"))
    else if entries[i].name == path[0] then
      assert entries[i] in parent.entries;
      Lookup(entries[i].node, path[1..])
    else LookupIn(parent, entries, i + 1, path)
  }

  const NotADirectoryText := "Not a directory"

  /** The node the operating system reaches for `path` (taken from the top of
      `fs`): each component in turn from the directories walked so far (the
      root first). An empty component and `.` stay put and `..` returns to
      the directory walked from (the root is its own parent), so `n/..`
      fails when `n` is missing, unlike the textual `normpath`; any component
      after a file is NotADirectoryError. */
  function Open(fs: Node, path: string): Result<Node, OsError> {
    OpenFrom([fs], Split(path, '/'))
  }

  function OpenFrom(stack: seq<Node>, comps: seq<string>): (r: Result<Node, OsError>)
    requires |stack| > 0
    decreases |comps|
  {
    if |comps| == 0 then Ok(stack[|stack| - 1])
    else
      var top := stack[|stack| - 1];
      var c := comps[0];
      if !top.Dir? then Err(OtherError(NotADirectoryText))
      else if c == "" || c == "." then OpenFrom(stack, comps[1..])
      else if c == ".." then OpenFrom(if |stack| > 1 then stack[..|stack| - 1] else stack, comps[1..])
      else
        match Lookup(top, [c])
        case Err(e) => Err(e)
        case Ok(child) => OpenFrom(stack + [child], comps[1..])
  }

  /** Looking up a path is looking up its first name, then the rest from there. */
  lemma {:induction false} LookupCons(node: Node, c: string, rest: seq<string>)
    ensures Lookup(node, [c] + rest) ==
              match Lookup(node, [c])
              case Err(e) => Err(e)
              case Ok(child) => Lookup(child, rest)
  {
    if node.Dir? && node.scanError.None? {
      LookupInCons(node, node.entries, 0, c, rest);
    }
  }

  lemma {:induction false} LookupInCons(parent: Node, entries: seq<Entry>, i: nat, c: string, rest: seq<string>)
    requires parent.Dir? && parent.scanError == None && parent.entries == entries && i <= |entries|
    ensures LookupIn(parent, entries, i, [c] + rest) ==
              match LookupIn(parent, entries, i, [c])
              case Err(e) => Err(e)
              case Ok(child) => Lookup(child, rest)
    decreases |entries| - i
  {
    if i < |entries| {
      if entries[i].name == c {
        assert ([c] + rest)[1..] == rest;
        assert [c][1..] == [];
      } else {
        LookupInCons(parent, entries, i + 1, c, rest);
      }
    }
  }

  /** On a canonical absolute path (no `.`, `..` or empty component) the
      operating system's walk and the textual lookup agree. */
  lemma {:induction false} OpenCanonical(fs: Node, segs: seq<string>)
    requires fs.Dir? && AllSegments(segs) && |segs| > 0
    ensures Open(fs, Render(segs)) == Lookup(fs, segs)
  {
    SplitRender(segs);
    assert OpenFrom([fs], [""] + segs) == OpenFrom([fs], segs) by {
      assert ([""] + segs)[1..] == segs;
    }
    OpenFromSegments([], fs, segs);
    assert [] + [fs] == [fs];
  }

  lemma {:induction false} OpenFromSegments(above: seq<Node>, top: Node, segs: seq<string>)
    requires AllSegments(segs)
    ensures OpenFrom(above + [top], segs) == Lookup(top, segs)
    decreases |segs|
  {
    if |segs| > 0 {
      var c := segs[0];
      assert IsSegment(c);
      assert segs == [c] + segs[1..];
      LookupCons(top, c, segs[1..]);
      if top.Dir? {
        match Lookup(top, [c])
        case Err(_) =>
        case Ok(child) =>
          OpenFromSegments(above + [top], child, segs[1..]);
      }
    }
  }

  /** Where the two differ: `/d/n/../a` with `n` missing from `d` is an error for
      the operating system, while its `normpath`, `/d/a`, names a file. */
  lemma {:induction false} DotDotNeedsItsDirectory(fs: Node, d: string, n: string, a: string)
    requires IsSegment(d) && IsSegment(n) && IsSegment(a)
    requires fs.Dir? && Lookup(fs, [d]).Ok? && Lookup(fs, [d, n]).Err? && Lookup(fs, [d, a]).Ok?
    ensures var p := Join(["", d, n, "..", a], '/');
            Open(fs, p) == Lookup(fs, [d, n]) && Lookup(fs, Resolved(p)) == Lookup(fs, [d, a])
  {
    var parts := ["", d, n, "..", a];
    var p := Join(parts, '/');
    SplitJoin(parts, '/');
    JoinCons(parts, '/');
    assert p[..1] == "/" && IsAbs(p);
    assert Resolved(p) == [d, a] by {
      var c4 := [d, n, "..", a];
      assert parts[1..] == c4 && c4[1..] == [n, "..", a];
      assert [n, "..", a][1..] == ["..", a] && ["..", a][1..] == [a] && [a][1..] == [];
      assert Step([], "", true) == [];
      assert Step([], d, true) == [d];
      assert Step([d], n, true) == [d, n];
      assert Step([d, n], "..", true) == [d] by { assert [d, n][..1] == [d]; }
      assert Step([d], a, true) == [d, a];
      assert Resolve([d, a], [], true) == [d, a];
      assert Resolve([d], [a], true) == [d, a];
      assert Resolve([d, n], ["..", a], true) == [d, a];
      assert Resolve([d], [n, "..", a], true) == [d, a];
      assert Resolve([], c4, true) == [d, a];
      assert Resolve([], parts, true) == [d, a];
    }
    var top := Lookup(fs, [d]).value;
    LookupCons(fs, d, [n]);
    assert [d] + [n] == [d, n];
    assert OpenFrom([fs], parts) == OpenFrom([fs], [d, n, "..", a]) by {
      assert parts[1..] == [d, n, "..", a];
    }
    assert OpenFrom([fs], [d, n, "..", a]) == OpenFrom([fs, top], [n, "..", a]);
    assert OpenFrom([fs, top], [n, "..", a]) == Lookup(fs, [d, n]);
  }

  /** `name` is an entry of a listable directory `node`, and `child` the node
      reached by following `rel` from it (some entry with each name, in turn). */
  ghost predicate Reaches(node: Node, rel: seq<string>, child: Node)
    decreases node
  {
    if |rel| == 0 then child == node
    else
      node.Dir? && node.scanError == None &&
      exists i :: 0 <= i < |node.entries| && node.entries[i].name == rel[0]
                  && Reaches(node.entries[i].node, rel[1..], child)
  }

  // ---------------------------------------------------------------------------
  // Tool answers

  /** What a tool hands back: its value, a refusal `{'error': …}`, an error
      tied to a path `{'error': …, 'path': …}`, or an exception it raised. */
  datatype Answer<+T> = Done(value: T) | Refused(error: string) | ErrorAt(error: string, path: string) | Crashed(message: string)

  const DirectoriesDenied := "Access denied. Cannot access directories outside of "
  const FilesDenied := "Access denied. Cannot access files outside of "

  // ---------------------------------------------------------------------------
  // list_files

  /** An entry of the listing (`info`), or the error record of a directory
      whose scan stopped; paths are components below the listed directory. */
  datatype Item = Info(path: seq<string>, isDir: bool, size: int) | Failure(path: seq<string>, message: string)

  datatype ListOptions = ListOptions(recursive: bool, includeHidden: bool, maxDepth: int)

  predicate IsHidden(name: string) {
    StartsWith(name, ".")
  }

  /** `should_include`: hidden entries pass only when asked for. */
  predicate ShouldInclude(name: string, includeHidden: bool) {
    includeHidden || !IsHidden(name)
  }

  function StatOf(n: Node): Result<Stat, OsError> {
    n.stat
  }

  /** What an item of a scan at `at`, started at `depth`, may be. */
  predicate Placed(item: Item, at: seq<string>, depth: int, opts: ListOptions) {
    IsPrefix(at, item.path)
    && (item.Info? ==>
          |at| < |item.path|
          && (opts.recursive ==> |item.path| - |at| <= opts.maxDepth - depth + 1)
          && (!opts.recursive ==> |item.path| == |at| + 1)
          && (!opts.includeHidden ==> forall k :: |at| <= k < |item.path| ==> !IsHidden(item.path[k])))
  }

  /** `scan_directory(dir_path, current_depth)` on the directory `node` found at
      `at`: nothing beyond `max_depth`; a failed `scandir` or a failed
      `stat` of an entry ends this directory's scan with one error record;
      subdirectories are entered only when recursive and below `max_depth`. */
  function Scan(node: Node, at: seq<string>, depth: int, opts: ListOptions): (items: seq<Item>)
    requires depth >= 0
    ensures forall j :: 0 <= j < |items| ==> Placed(items[j], at, depth, opts)
    decreases node, 1, 0
  {
    if depth > opts.maxDepth then []
    else
      match node
      case File(_, _) => [Failure(at, "Not a directory")]
      case Dir(_, failure, entries) =>
        if failure.Some? then [Failure(at, ErrorText(failure.value))] else ScanEntries(node, entries, 0, at, depth, opts)
  }

  function ScanEntries(parent: Node, entries: seq<Entry>, i: nat, at: seq<string>, depth: int, opts: ListOptions)
    : (items: seq<Item>)
    requires parent.Dir? && parent.scanError == None && parent.entries == entries && i <= |entries|
    requires 0 <= depth <= opts.maxDepth
    ensures forall j :: 0 <= j < |items| ==> Placed(items[j], at, depth, opts)
    decreases parent, 0, |entries| - i
  {
    if i == |entries| then []
    else
      var e := entries[i];
      var rest := ScanEntries(parent, entries, i + 1, at, depth, opts);
      if !ShouldInclude(e.name, opts.includeHidden) then rest
      else
        match StatOf(e.node)
        case Err(err) => [Failure(at, ErrorText(err))]
        case Ok(st) =>
          assert e in parent.entries;
          var here := at + [e.name];
          var below := if e.node.Dir? && opts.recursive && depth < opts.maxDepth
                       then Scan(e.node, here, depth + 1, opts) else [];
          assert forall j :: 0 <= j < |below| ==> Placed(below[j], at, depth, opts) by {
            forall j | 0 <= j < |below| ensures Placed(below[j], at, depth, opts) {
              assert Placed(below[j], here, depth + 1, opts);
              assert below[j].path[..|at|] == below[j].path[..|here|][..|at|];
            }
          }
          [Info(here, e.node.Dir?, st.size)] + below + rest
  }

  /** `list_files`: the containment check, then the scan of the target
      directory from depth 0 (a negative `max_depth` lists nothing). */
  function ListFiles(root: string, cwd: string, fs: Node, directory: string, opts: ListOptions)
    : (r: Answer<seq<Item>>)
    ensures Check(root, cwd, directory) == Denied <==> r == Refused(DirectoriesDenied + root)
    ensures r.Done? ==> Check(root, cwd, directory).Granted?
    ensures r.Done? ==> forall j :: 0 <= j < |r.value| ==> Placed(r.value[j], [], 0, opts)
    ensures Check(root, cwd, directory).Granted? ==>
              var found := Open(fs, Check(root, cwd, directory).target);
              (opts.maxDepth < 0 ==> r == Done([]))
              && (opts.maxDepth >= 0 && found.Err? ==> r == Done([Failure([], ErrorText(found.error))]))
              && (opts.maxDepth >= 0 && found.Ok? ==> r == Done(Scan(found.value, [], 0, opts)))
  {
    match Check(root, cwd, directory)
    case Raised(m) => Crashed(m)
    case Denied => Refused(DirectoriesDenied + root)
    case Granted(target) =>
      if opts.maxDepth < 0 then Done([])
      else
        match Open(fs, target)
        case Err(e) => Done([Failure([], ErrorText(e))])
        case Ok(node) => Done(Scan(node, [], 0, opts))
  }

  /** Every included entry of the listed directory that the scan reaches is
      in the answer, followed by its subtree's listing. */
  lemma ListFilesComplete(root: string, cwd: string, fs: Node, directory: string, opts: ListOptions, i: nat)
    requires Check(root, cwd, directory).Granted? && opts.maxDepth >= 0
    requires var found := Open(fs, Check(root, cwd, directory).target);
             found.Ok? && found.value.Dir? && found.value.scanError == None && i < |found.value.entries|
             && ShouldInclude(found.value.entries[i].name, opts.includeHidden)
             && StatsUpTo(found.value.entries, 0, i, opts.includeHidden)
    ensures var node := Open(fs, Check(root, cwd, directory).target).value;
            exists k :: ListedAt(ListFiles(root, cwd, fs, directory, opts).value, k, node.entries[i], [], 0, opts)
  {
    var node := Open(fs, Check(root, cwd, directory).target).value;
    ScanComplete(node, [], 0, opts, i);
    assert ListFiles(root, cwd, fs, directory, opts).value == Scan(node, [], 0, opts);
  }

  /** `child` is what the item reports: its kind and the size `stat` gives. */
  predicate Shows(child: Node, item: Item)
    requires item.Info?
  {
    child.Dir? == item.isDir && StatOf(child).Ok? && StatOf(child).value.size == item.size
  }

  /** Every entry a scan lists exists in the tree at its path, with the kind and
      size `stat` gives for it. */
  lemma {:induction false} ScanSound(node: Node, at: seq<string>, depth: int, opts: ListOptions, j: nat)
    requires depth >= 0
    requires j < |Scan(node, at, depth, opts)| && Scan(node, at, depth, opts)[j].Info?
    ensures var item := Scan(node, at, depth, opts)[j];
            exists child :: Reaches(node, item.path[|at|..], child) && Shows(child, item)
    decreases node, 1, 0
  {
    ScanEntriesSound(node, node.entries, 0, at, depth, opts, j);
  }

  /** Following one entry of a listable directory, then a path below it. */
  lemma ReachesStep(parent: Node, i: nat, rel: seq<string>, child: Node)
    requires parent.Dir? && parent.scanError == None && i < |parent.entries|
    requires Reaches(parent.entries[i].node, rel, child)
    ensures Reaches(parent, [parent.entries[i].name] + rel, child)
  {
    assert ([parent.entries[i].name] + rel)[1..] == rel;
  }

  /** The items of an included entry whose `stat` succeeds: its own, those of
      its subtree, then those of the later entries. */
  lemma ScanEntriesStep(parent: Node, entries: seq<Entry>, i: nat, at: seq<string>, depth: int, opts: ListOptions)
    requires parent.Dir? && parent.scanError == None && parent.entries == entries && i < |entries|
    requires 0 <= depth <= opts.maxDepth
    requires ShouldInclude(entries[i].name, opts.includeHidden) && StatOf(entries[i].node).Ok?
    ensures var e := entries[i];
            var below := if e.node.Dir? && opts.recursive && depth < opts.maxDepth
                         then Scan(e.node, at + [e.name], depth + 1, opts) else [];
            ScanEntries(parent, entries, i, at, depth, opts)
              == [Info(at + [e.name], e.node.Dir?, StatOf(e.node).value.size)] + below
                 + ScanEntries(parent, entries, i + 1, at, depth, opts)
  {
  }

  /** An item found below entry `i`, at the path of that entry, is found
      below the directory. */
  lemma LiftFound(parent: Node, i: nat, at: seq<string>, item: Item)
    requires parent.Dir? && parent.scanError == None && i < |parent.entries| && item.Info?
    requires IsPrefix(at + [parent.entries[i].name], item.path)
    requires exists child :: Reaches(parent.entries[i].node, item.path[|at| + 1..], child) && Shows(child, item)
    ensures exists child :: Reaches(parent, item.path[|at|..], child) && Shows(child, item)
  {
    var here := at + [parent.entries[i].name];
    var child :| Reaches(parent.entries[i].node, item.path[|here|..], child) && Shows(child, item);
    assert item.path[|at|..] == [parent.entries[i].name] + item.path[|here|..] by {
      assert item.path[..|here|] == here;
    }
    ReachesStep(parent, i, item.path[|here|..], child);
  }

  lemma {:induction false} ScanEntriesSound(parent: Node, entries: seq<Entry>, i: nat, at: seq<string>, depth: int,
                                            opts: ListOptions, j: nat)
    requires parent.Dir? && parent.scanError == None && parent.entries == entries && i <= |entries|
    requires 0 <= depth <= opts.maxDepth
    requires j < |ScanEntries(parent, entries, i, at, depth, opts)| && ScanEntries(parent, entries, i, at, depth, opts)[j].Info?
    ensures var item := ScanEntries(parent, entries, i, at, depth, opts)[j];
            exists child :: Reaches(parent, item.path[|at|..], child) && Shows(child, item)
    decreases parent, 0, |entries| - i
  {
    var items := ScanEntries(parent, entries, i, at, depth, opts);
    var item := items[j];
    var e := entries[i];
    if !ShouldInclude(e.name, opts.includeHidden) {
      ScanEntriesSound(parent, entries, i + 1, at, depth, opts, j);
    } else if StatOf(e.node).Ok? {
      ScanEntriesStep(parent, entries, i, at, depth, opts);
      var here := at + [e.name];
      assert e in parent.entries;
      var below := if e.node.Dir? && opts.recursive && depth < opts.maxDepth
                   then Scan(e.node, here, depth + 1, opts) else [];
      if j == 0 {
        assert item.path[|at|..] == [e.name] + [];
        ReachesStep(parent, i, [], e.node);
        assert Shows(e.node, item);
      } else if j <= |below| {
        assert item == below[j - 1];
        ScanSound(e.node, here, depth + 1, opts, j - 1);
        LiftFound(parent, i, at, item);
      } else {
        var rest := ScanEntries(parent, entries, i + 1, at, depth, opts);
        assert item == rest[j - 1 - |below|];
        ScanEntriesSound(parent, entries, i + 1, at, depth, opts, j - 1 - |below|);
      }
    }
  }

  /** The subtree items an entry contributes after its own item. */
  function Below(e: Entry, at: seq<string>, depth: int, opts: ListOptions): seq<Item>
    requires depth >= 0
  {
    if e.node.Dir? && opts.recursive && depth < opts.maxDepth then Scan(e.node, at + [e.name], depth + 1, opts) else []
  }

  /** No included entry up to `i` fails its `stat`, so the scan reaches entry `i`. */
  predicate StatsUpTo(entries: seq<Entry>, from: nat, i: nat, includeHidden: bool)
    requires i < |entries|
  {
    forall j :: from <= j <= i && ShouldInclude(entries[j].name, includeHidden) ==> StatOf(entries[j].node).Ok?
  }

  /** Item `k` of `items` is the one for entry `e`, directly followed by the
      listing of its subtree. */
  predicate ListedAt(items: seq<Item>, k: int, e: Entry, at: seq<string>, depth: int, opts: ListOptions)
    requires depth >= 0
  {
    var below := Below(e, at, depth, opts);
    StatOf(e.node).Ok? && 0 <= k && k + 1 + |below| <= |items|
    && items[k] == Info(at + [e.name], e.node.Dir?, StatOf(e.node).value.size)
    && items[k + 1..k + 1 + |below|] == below
  }

  lemma ListedAfter(front: seq<Item>, items: seq<Item>, k: int, e: Entry, at: seq<string>, depth: int, opts: ListOptions)
    requires depth >= 0 && ListedAt(items, k, e, at, depth, opts)
    ensures ListedAt(front + items, |front| + k, e, at, depth, opts)
  {
    var below := Below(e, at, depth, opts);
    assert (front + items)[|front| + k + 1..|front| + k + 1 + |below|] == items[k + 1..k + 1 + |below|];
  }

  /** Every included entry that the scan reaches is listed, with its kind and
      size, and directly followed by the listing of its subtree. */
  lemma {:induction false} ScanComplete(node: Node, at: seq<string>, depth: int, opts: ListOptions, i: nat)
    requires 0 <= depth <= opts.maxDepth
    requires node.Dir? && node.scanError == None && i < |node.entries|
    requires ShouldInclude(node.entries[i].name, opts.includeHidden)
    requires StatsUpTo(node.entries, 0, i, opts.includeHidden)
    ensures exists k :: ListedAt(Scan(node, at, depth, opts), k, node.entries[i], at, depth, opts)
  {
    assert Scan(node, at, depth, opts) == ScanEntries(node, node.entries, 0, at, depth, opts);
    ScanEntriesComplete(node, node.entries, 0, at, depth, opts, i);
  }

  lemma {:induction false} ScanEntriesComplete(parent: Node, entries: seq<Entry>, from: nat, at: seq<string>, depth: int,
                                               opts: ListOptions, i: nat)
    requires parent.Dir? && parent.scanError == None && parent.entries == entries && from <= i < |entries|
    requires 0 <= depth <= opts.maxDepth
    requires ShouldInclude(entries[i].name, opts.includeHidden)
    requires StatsUpTo(entries, from, i, opts.includeHidden)
    ensures exists k :: ListedAt(ScanEntries(parent, entries, from, at, depth, opts), k, entries[i], at, depth, opts)
    decreases i - from
  {
    var items := ScanEntries(parent, entries, from, at, depth, opts);
    var e := entries[from];
    if from == i {
      ScanEntriesStep(parent, entries, from, at, depth, opts);
      var below := Below(e, at, depth, opts);
      assert items[1..1 + |below|] == below;
      assert ListedAt(items, 0, e, at, depth, opts);
    } else {
      var rest := ScanEntries(parent, entries, from + 1, at, depth, opts);
      assert StatsUpTo(entries, from + 1, i, opts.includeHidden);
      ScanEntriesComplete(parent, entries, from + 1, at, depth, opts, i);
      var k :| ListedAt(rest, k, entries[i], at, depth, opts);
      if !ShouldInclude(e.name, opts.includeHidden) {
        assert items == rest;
      } else {
        ScanEntriesStep(parent, entries, from, at, depth, opts);
        var front := [Info(at + [e.name], e.node.Dir?, StatOf(e.node).value.size)] + Below(e, at, depth, opts);
        assert items == front + rest;
        ListedAfter(front, rest, k, entries[i], at, depth, opts);
      }
    }
  }

  // ---------------------------------------------------------------------------
  // search_files

  /** One directory as `os.walk` yields it: its path below the search root and
      its non-directory entries, in listing order. */
  datatype WalkDir = WalkDir(at: seq<string>, files: seq<Entry>)

  function Files(entries: seq<Entry>): (r: seq<Entry>)
    ensures forall k :: 0 <= k < |r| ==> r[k] in entries && !r[k].node.Dir?
  {
    if |entries| == 0 then []
    else (if entries[0].node.Dir? then [] else [entries[0]]) + Files(entries[1..])
  }

  /** `os.walk(top)` top-down: a directory, then each subdirectory's walk in
      listing order (hidden subdirectories included); a directory whose
      listing fails is skipped together with everything below it. */
  function Walk(node: Node, at: seq<string>): (r: seq<WalkDir>)
    ensures forall k :: 0 <= k < |r| ==> IsPrefix(at, r[k].at)
    ensures |r| > 0 ==> r[0].at == at
    ensures forall k :: 0 < k < |r| ==> |r[k].at| > |at|
    decreases node, 1, 0
  {
    match node
    case File(_, _) => []
    case Dir(_, failure, entries) =>
      if failure.Some? then [] else [WalkDir(at, Files(entries))] + WalkSubdirs(node, entries, 0, at)
  }

  function WalkSubdirs(parent: Node, entries: seq<Entry>, i: nat, at: seq<string>): (r: seq<WalkDir>)
    requires parent.Dir? && parent.scanError == None && parent.entries == entries && i <= |entries|
    ensures forall k :: 0 <= k < |r| ==> IsPrefix(at, r[k].at) && |r[k].at| > |at|
    decreases parent, 0, |entries| - i
  {
    if i == |entries| then []
    else
      var e := entries[i];
      assert e in parent.entries;
      var rest := WalkSubdirs(parent, entries, i + 1, at);
      if e.node.Dir? then
        var sub := Walk(e.node, at + [e.name]);
        assert forall k :: 0 <= k < |sub| ==> IsPrefix(at, sub[k].at) && |sub[k].at| > |at| by {
          forall k | 0 <= k < |sub| ensures IsPrefix(at, sub[k].at) && |sub[k].at| > |at| {
            assert IsPrefix(at + [e.name], sub[k].at);
            assert sub[k].at[..|at|] == sub[k].at[..|at| + 1][..|at|];
          }
        }
        sub + rest
      else rest
  }

  /** The filters of `search_files`, after date parsing and `file_type`
      normalisation. `matches` stands for `Path(file_path).match(pattern)`. */
  datatype Filters = Filters(
    recursive: bool,
    matches: seq<string> -> bool,
    fileType: Option<string>,
    minSize: Option<int>,
    maxSize: Option<int>,
    after: Option<int>,
    before: Option<int>)

  /** A search hit: where the file is, its name and what `stat` gave. */
  datatype Hit = Hit(at: seq<string>, name: string, stat: Stat)

  /** `file_type` normalised to start with `.`; an absent or empty one means no filter. */
  function NormalizeType(fileType: Option<string>): (r: Option<string>)
    ensures r.Some? ==> StartsWith(r.value, ".")
    ensures r.Some? <==> fileType.Some? && fileType.value != ""
    ensures r.Some? ==> r.value == fileType.value || r.value == "." + fileType.value
    ensures r.Some? && StartsWith(fileType.value, ".") ==> r.value == fileType.value
  {
    match fileType
    case None => None
    case Some(t) =>
      if t == "" then None
      else if StartsWith(t, ".") then Some(t)
      else Some("." + t)
  }

  lemma NormalizeTypeIdempotent(fileType: Option<string>)
    ensures NormalizeType(NormalizeType(fileType)) == NormalizeType(fileType)
  {
  }

  /** The checks a file must pass before its `stat` is taken. */
  predicate Named(f: Filters, at: seq<string>, name: string) {
    !IsHidden(name) && f.matches(at + [name])
    && (f.fileType.Some? ==> EndsWith(name, f.fileType.value))
  }

  /** The checks on its `stat`. */
  predicate Sized(f: Filters, st: Stat) {
    (f.minSize.Some? ==> f.minSize.value <= st.size)
    && (f.maxSize.Some? ==> st.size <= f.maxSize.value)
    && (f.after.Some? ==> f.after.value <= st.mtime)
    && (f.before.Some? ==> st.mtime <= f.before.value)
  }

  /** What every hit satisfies. */
  predicate Admissible(f: Filters, h: Hit) {
    Named(f, h.at, h.name) && Sized(f, h.stat) && (!f.recursive ==> h.at == [])
  }

  /** Reference definition: every hit in walk order, without the cap. A `stat`
      that raises PermissionError or FileNotFoundError skips the file; any
      other error ends the search with that exception. */
  function Matches(f: Filters, walk: seq<WalkDir>): (r: Result<seq<Hit>, string>)
    ensures r.Ok? ==> forall k :: 0 <= k < |r.value| ==> Admissible(f, r.value[k])
  {
    if |walk| == 0 then Ok([])
    else if !f.recursive && walk[0].at != [] then Matches(f, walk[1..])
    else
      match MatchesIn(f, walk[0].at, walk[0].files)
      case Err(m) => Err(m)
      case Ok(here) =>
        match Matches(f, walk[1..])
        case Err(m) => Err(m)
        case Ok(later) => Ok(here + later)
  }

  function MatchesIn(f: Filters, at: seq<string>, files: seq<Entry>): (r: Result<seq<Hit>, string>)
    requires !f.recursive ==> at == []
    ensures r.Ok? ==> forall k :: 0 <= k < |r.value| ==> Admissible(f, r.value[k]) && r.value[k].at == at
  {
    if |files| == 0 then Ok([])
    else
      var e := files[0];
      if !Named(f, at, e.name) then MatchesIn(f, at, files[1..])
      else
        match StatOf(e.node)
        case Err(PermissionDenied) => MatchesIn(f, at, files[1..])
        case Err(NotFound(_)) => MatchesIn(f, at, files[1..])
        case Err(OtherError(m)) => Err(m)
        case Ok(st) =>
          var rest := MatchesIn(f, at, files[1..]);
          if !Sized(f, st) then rest
          else if rest.Err? then rest
          else Ok([Hit(at, e.name, st)] + rest.value)
  }

  /** Every file of a directory that passes the filters is a hit, unless the
      directory's search raised. */
  lemma {:induction false} MatchesInComplete(f: Filters, at: seq<string>, files: seq<Entry>, j: nat)
    requires !f.recursive ==> at == []
    requires MatchesIn(f, at, files).Ok? && j < |files|
    requires Named(f, at, files[j].name) && StatOf(files[j].node).Ok? && Sized(f, StatOf(files[j].node).value)
    ensures Hit(at, files[j].name, StatOf(files[j].node).value) in MatchesIn(f, at, files).value
  {
    if j > 0 {
      assert files[1..][j - 1] == files[j];
      MatchesInComplete(f, at, files[1..], j - 1);
    }
  }

  /** Every file the walk yields that passes the filters is a hit of the
      uncapped search: the reference lists all of them, not only some. */
  lemma {:induction false} MatchesComplete(f: Filters, walk: seq<WalkDir>, d: nat, j: nat)
    requires Matches(f, walk).Ok? && d < |walk| && j < |walk[d].files|
    requires f.recursive || walk[d].at == []
    requires var e := walk[d].files[j];
             Named(f, walk[d].at, e.name) && StatOf(e.node).Ok? && Sized(f, StatOf(e.node).value)
    ensures var e := walk[d].files[j];
            Hit(walk[d].at, e.name, StatOf(e.node).value) in Matches(f, walk).value
  {
    if d == 0 {
      MatchesInComplete(f, walk[0].at, walk[0].files, j);
    } else {
      assert walk[1..][d - 1] == walk[d];
      MatchesComplete(f, walk[1..], d - 1, j);
    }
  }

  /** The loops of `search_files` with the cap: after each hit the inner loop
      stops once `len(results) >= max_results`, and the outer loop makes the
      same test after each directory it did not skip. */
  function Collect(f: Filters, walk: seq<WalkDir>, maxResults: int, acc: seq<Hit>): (r: Result<seq<Hit>, string>)
    requires forall k :: 0 <= k < |acc| ==> Admissible(f, acc[k])
    ensures r.Ok? ==> |acc| <= |r.value| && r.value[..|acc|] == acc && forall k :: 0 <= k < |r.value| ==> Admissible(f, r.value[k])
    ensures r.Ok? && |acc| < maxResults ==> |r.value| <= maxResults
  {
    if |walk| == 0 then Ok(acc)
    else if !f.recursive && walk[0].at != [] then Collect(f, walk[1..], maxResults, acc)
    else
      match CollectIn(f, walk[0].at, walk[0].files, maxResults, acc)
      case Err(m) => Err(m)
      case Ok(acc1) =>
        if |acc1| >= maxResults then Ok(acc1)
        else Collect(f, walk[1..], maxResults, acc1)
  }

  function CollectIn(f: Filters, at: seq<string>, files: seq<Entry>, maxResults: int, acc: seq<Hit>)
    : (r: Result<seq<Hit>, string>)
    requires !f.recursive ==> at == []
    requires forall k :: 0 <= k < |acc| ==> Admissible(f, acc[k])
    ensures r.Ok? ==> |acc| <= |r.value| && r.value[..|acc|] == acc && forall k :: 0 <= k < |r.value| ==> Admissible(f, r.value[k])
    ensures r.Ok? && |acc| < maxResults ==> |r.value| <= maxResults
  {
    if |files| == 0 then Ok(acc)
    else
      var e := files[0];
      if !Named(f, at, e.name) then CollectIn(f, at, files[1..], maxResults, acc)
      else
        match StatOf(e.node)
        case Err(PermissionDenied) => CollectIn(f, at, files[1..], maxResults, acc)
        case Err(NotFound(_)) => CollectIn(f, at, files[1..], maxResults, acc)
        case Err(OtherError(m)) => Err(m)
        case Ok(st) =>
          if !Sized(f, st) then CollectIn(f, at, files[1..], maxResults, acc)
          else
            var acc1 := acc + [Hit(at, e.name, st)];
            if |acc1| >= maxResults then Ok(acc1)
            else CollectIn(f, at, files[1..], maxResults, acc1)
  }

  /** With a positive cap and no raising `stat`, the search returns the first
      `max_results` hits of the uncapped search, in walk order. */
  lemma {:induction false} CollectTakesPrefix(f: Filters, walk: seq<WalkDir>, maxResults: int, acc: seq<Hit>)
    requires maxResults >= 1 && |acc| < maxResults
    requires forall k :: 0 <= k < |acc| ==> Admissible(f, acc[k])
    requires Matches(f, walk).Ok?
    ensures var all := acc + Matches(f, walk).value;
            Collect(f, walk, maxResults, acc) == Ok(all[..Min(maxResults, |all|)])
  {
    var all := acc + Matches(f, walk).value;
    if |walk| == 0 {
      assert all == acc;
    } else if !f.recursive && walk[0].at != [] {
      CollectTakesPrefix(f, walk[1..], maxResults, acc);
    } else {
      var here := MatchesIn(f, walk[0].at, walk[0].files).value;
      var later := Matches(f, walk[1..]).value;
      CollectInTakesPrefix(f, walk[0].at, walk[0].files, maxResults, acc);
      var acc1 := (acc + here)[..Min(maxResults, |acc + here|)];
      assert all == (acc + here) + later;
      if |acc1| >= maxResults {
        assert all[..maxResults] == (acc + here)[..maxResults];
      } else {
        assert acc1 == acc + here;
        CollectTakesPrefix(f, walk[1..], maxResults, acc1);
      }
    }
  }

  lemma {:induction false} CollectInTakesPrefix(f: Filters, at: seq<string>, files: seq<Entry>, maxResults: int, acc: seq<Hit>)
    requires !f.recursive ==> at == []
    requires maxResults >= 1 && |acc| < maxResults
    requires forall k :: 0 <= k < |acc| ==> Admissible(f, acc[k])
    requires MatchesIn(f, at, files).Ok?
    ensures var all := acc + MatchesIn(f, at, files).value;
            CollectIn(f, at, files, maxResults, acc) == Ok(all[..Min(maxResults, |all|)])
  {
    var all := acc + MatchesIn(f, at, files).value;
    if |files| == 0 {
      assert all == acc;
    } else {
      var e := files[0];
      if !Named(f, at, e.name) || StatOf(e.node).Err? || !Sized(f, StatOf(e.node).value) {
        CollectInTakesPrefix(f, at, files[1..], maxResults, acc);
      } else {
        var st := StatOf(e.node).value;
        var acc1 := acc + [Hit(at, e.name, st)];
        var rest := MatchesIn(f, at, files[1..]).value;
        assert all == acc1 + rest;
        if |acc1| < maxResults {
          CollectInTakesPrefix(f, at, files[1..], maxResults, acc1);
        } else {
          assert all[..maxResults] == acc1;
        }
      }
    }
  }

  /** A cap of zero or less still lets the top directory contribute up to one
      hit, and nothing else: the test comes after the append, and again after
      that directory. */
  lemma {:induction false} NonPositiveCap(f: Filters, walk: seq<WalkDir>, maxResults: int)
    requires maxResults <= 0
    requires |walk| > 0 ==> walk[0].at == []
    ensures var r := Collect(f, walk, maxResults, []);
            r.Ok? ==> |r.value| <= 1 && forall k :: 0 <= k < |r.value| ==> r.value[k].at == []
  {
    if |walk| > 0 {
      CollectInAtMostOne(f, [], walk[0].files, maxResults);
    }
  }

  lemma {:induction false} CollectInAtMostOne(f: Filters, at: seq<string>, files: seq<Entry>, maxResults: int)
    requires maxResults <= 0 && (!f.recursive ==> at == [])
    ensures var r := CollectIn(f, at, files, maxResults, []);
            r.Ok? ==> |r.value| <= 1 && forall k :: 0 <= k < |r.value| ==> r.value[k].at == at
  {
    if |files| > 0 {
      var e := files[0];
      if !Named(f, at, e.name) || StatOf(e.node).Err? || !Sized(f, StatOf(e.node).value) {
        CollectInAtMostOne(f, at, files[1..], maxResults);
      }
    }
  }

  /** `search_files`: the containment check, date parsing (`parseIso` stands
      for `datetime.fromisoformat(…).timestamp()`, `None` for ValueError) and
      `file_type` normalisation, then the walk of the target. */
  function SearchFiles(root: string, cwd: string, fs: Node, directory: string, recursive: bool,
                       matches: seq<string> -> bool, fileType: Option<string>,
                       minSize: Option<int>, maxSize: Option<int>,
                       modifiedAfter: Option<string>, modifiedBefore: Option<string>,
                       parseIso: string -> Option<int>, maxResults: int): (r: Answer<seq<Hit>>)
    ensures Check(root, cwd, directory) == Denied ==> r == Refused(DirectoriesDenied + root)
    ensures r.Refused? && Check(root, cwd, directory) != Denied ==>
              Check(root, cwd, directory).Granted?
              && (DateInvalid(modifiedAfter, parseIso) || DateInvalid(modifiedBefore, parseIso))
    ensures r.Done? ==>
              (Check(root, cwd, directory).Granted?
               && !DateInvalid(modifiedAfter, parseIso) && !DateInvalid(modifiedBefore, parseIso))
    ensures r.Done? ==>
              var f := Filters(recursive, matches, NormalizeType(fileType), minSize, maxSize,
                               DateBound(modifiedAfter, parseIso), DateBound(modifiedBefore, parseIso));
              forall k :: 0 <= k < |r.value| ==> Admissible(f, r.value[k])
    ensures r.Done? && maxResults >= 1 ==> |r.value| <= maxResults
  {
    match Check(root, cwd, directory)
    case Raised(m) => Crashed(m)
    case Denied => Refused(DirectoriesDenied + root)
    case Granted(target) =>
      if DateInvalid(modifiedAfter, parseIso) then
        Refused("Invalid date format for modified_after: " + modifiedAfter.value + ". Use ISO format (YYYY-MM-DDTHH:MM:SS).")
      else if DateInvalid(modifiedBefore, parseIso) then
        Refused("Invalid date format for modified_before: " + modifiedBefore.value + ". Use ISO format (YYYY-MM-DDTHH:MM:SS).")
      else
        var f := Filters(recursive, matches, NormalizeType(fileType), minSize, maxSize,
                         DateBound(modifiedAfter, parseIso), DateBound(modifiedBefore, parseIso));
        var walk := match Open(fs, target)
                    case Err(_) => []
                    case Ok(node) => Walk(node, []);
        match Collect(f, walk, maxResults, [])
        case Err(m) => Crashed(m)
        case Ok(hits) => Done(hits)
  }

  /** With valid dates and a positive cap, the search answers the first
      `max_results` hits of the uncapped reference over the walk of the target
      (none when the target cannot be opened). */
  lemma SearchFilesIsCapped(root: string, cwd: string, fs: Node, directory: string, recursive: bool,
                            matches: seq<string> -> bool, fileType: Option<string>,
                            minSize: Option<int>, maxSize: Option<int>,
                            modifiedAfter: Option<string>, modifiedBefore: Option<string>,
                            parseIso: string -> Option<int>, maxResults: int)
    requires Check(root, cwd, directory).Granted? && maxResults >= 1
    requires !DateInvalid(modifiedAfter, parseIso) && !DateInvalid(modifiedBefore, parseIso)
    requires var f := Filters(recursive, matches, NormalizeType(fileType), minSize, maxSize,
                              DateBound(modifiedAfter, parseIso), DateBound(modifiedBefore, parseIso));
             var found := Open(fs, Check(root, cwd, directory).target);
             Matches(f, if found.Ok? then Walk(found.value, []) else []).Ok?
    ensures var f := Filters(recursive, matches, NormalizeType(fileType), minSize, maxSize,
                             DateBound(modifiedAfter, parseIso), DateBound(modifiedBefore, parseIso));
            var found := Open(fs, Check(root, cwd, directory).target);
            var all := Matches(f, if found.Ok? then Walk(found.value, []) else []).value;
            SearchFiles(root, cwd, fs, directory, recursive, matches, fileType, minSize, maxSize,
                        modifiedAfter, modifiedBefore, parseIso, maxResults) == Done(all[..Min(maxResults, |all|)])
  {
    var f := Filters(recursive, matches, NormalizeType(fileType), minSize, maxSize,
                     DateBound(modifiedAfter, parseIso), DateBound(modifiedBefore, parseIso));
    var found := Open(fs, Check(root, cwd, directory).target);
    var walk := if found.Ok? then Walk(found.value, []) else [];
    CollectTakesPrefix(f, walk, maxResults, []);
    assert [] + Matches(f, walk).value == Matches(f, walk).value;
  }

  /** A date argument given (non-empty) that does not parse. */
  predicate DateInvalid(date: Option<string>, parseIso: string -> Option<int>) {
    date.Some? && date.value != "" && parseIso(date.value).None?
  }

  /** The bound a date argument sets: none when absent or empty. */
  function DateBound(date: Option<string>, parseIso: string -> Option<int>): Option<int> {
    if date.Some? && date.value != "" then parseIso(date.value) else None
  }

  // ---------------------------------------------------------------------------
  // format_size

  /** The unit `format_size` picks, with the byte count it scales. */
  datatype SizeLabel = Bytes(n: int) | KiloBytes(n: int) | MegaBytes(n: int) | GigaBytes(n: int)

  const KB: int := 1024
  const MB: int := 1024 * 1024
  const GB: int := 1024 * 1024 * 1024

  function FormatSize(n: int): SizeLabel {
    if n < KB then Bytes(n)
    else if n < MB then KiloBytes(n)
    else if n < GB then MegaBytes(n)
    else GigaBytes(n)
  }

  /** The text for the byte tier, `f'{size_bytes} B'`; the other tiers print
      a two-decimal float. */
  function BytesText(n: int): string {
    IntToString(n) + " B"
  }

  function Rank(l: SizeLabel): nat {
    match l
    case Bytes(_) => 0
    case KiloBytes(_) => 1
    case MegaBytes(_) => 2
    case GigaBytes(_) => 3
  }

  /** The number shown next to the unit. */
  function Shown(l: SizeLabel): real {
    match l
    case Bytes(n) => n as real
    case KiloBytes(n) => n as real / KB as real
    case MegaBytes(n) => n as real / MB as real
    case GigaBytes(n) => n as real / GB as real
  }

  /** A larger size never gets a smaller unit. */
  lemma FormatSizeMonotone(m: int, n: int)
    requires m <= n
    ensures Rank(FormatSize(m)) <= Rank(FormatSize(n))
  {
  }

  /** The label keeps the byte count, and the number shown is below 1024 in
      every unit but GB and at least 1 in every unit but B. */
  lemma FormatSizeShown(n: int)
    ensures FormatSize(n).n == n
    ensures !FormatSize(n).GigaBytes? ==> Shown(FormatSize(n)) < 1024.0
    ensures !FormatSize(n).Bytes? ==> Shown(FormatSize(n)) >= 1.0
  {
    var l := FormatSize(n);
    match l
    case Bytes(_) =>
    case KiloBytes(_) =>
      assert (n as real) / 1024.0 < 1024.0 by {
        assert (n as real) < 1024.0 * 1024.0;
      }
    case MegaBytes(_) =>
      assert (n as real) / (MB as real) < 1024.0 by {
        assert (n as real) < 1024.0 * (MB as real);
      }
    case GigaBytes(_) =>
  }

  // ---------------------------------------------------------------------------
  // get_file_info and file_preview

  datatype FileInfo = FileInfo(name: string, path: string, isFile: bool, isDir: bool, size: int, extension: string)

  /** `os.path.basename`: the text after the last separator. */
  function BaseName(p: string): (r: string)
    ensures '/' !in r && EndsWith(p, r)
    ensures |r| < |p| ==> p[|p| - |r| - 1] == '/'
  {
    if |p| == 0 || p[|p| - 1] == '/' then ""
    else BaseName(p[..|p| - 1]) + [p[|p| - 1]]
  }

  /** `os.path.splitext(p)[1]`: from the last `.` of the base name, provided
      some character before it in the base name is not a `.`. */
  function Extension(p: string): (r: string)
    ensures r == "" || (StartsWith(r, ".") && EndsWith(BaseName(p), r) && |r| < |BaseName(p)|)
    ensures r != "" ==> forall j :: 0 < j < |r| ==> r[j] != '.'
    ensures var b := BaseName(p);
            r == "" <==> forall j :: 0 <= j < |b| && b[j] == '.' ==> AllDots(b[..j])
  {
    var b := BaseName(p);
    var k := LastDot(b);
    if k < 0 || AllDots(b[..k]) then
      NoSuffixWhenDotsLead(b, k);
      ""
    else
      SuffixFromLastDot(b, k);
      b[k..]
  }

  /** When the last dot has only dots before it, every dot does. */
  lemma NoSuffixWhenDotsLead(b: string, k: int)
    requires k == LastDot(b) && (k < 0 || AllDots(b[..k]))
    ensures forall j :: 0 <= j < |b| && b[j] == '.' ==> AllDots(b[..j])
  {
    forall j | 0 <= j < |b| && b[j] == '.' ensures AllDots(b[..j]) {
      assert j <= k;
      assert forall m :: 0 <= m < j ==> b[..j][m] == b[..k][m];
    }
  }

  /** Otherwise the suffix from the last dot is a proper, dotted suffix with no
      other dot, and the last dot witnesses that not every dot is leading. */
  lemma SuffixFromLastDot(b: string, k: int)
    requires k == LastDot(b) && k >= 0 && !AllDots(b[..k])
    ensures 0 < k && StartsWith(b[k..], ".") && EndsWith(b, b[k..]) && |b[k..]| < |b|
    ensures forall j :: 0 < j < |b[k..]| ==> b[k..][j] != '.'
    ensures !(forall j :: 0 <= j < |b| && b[j] == '.' ==> AllDots(b[..j]))
  {
    assert b[k] == '.';
  }

  /** Index of the last `.` in `s`, or -1. */
  function LastDot(s: string): (k: int)
    ensures -1 <= k < |s| && (k >= 0 ==> s[k] == '.')
    ensures forall j :: k < j < |s| ==> s[j] != '.'
  {
    if |s| == 0 then -1
    else if s[|s| - 1] == '.' then |s| - 1
    else LastDot(s[..|s| - 1])
  }

  predicate AllDots(s: string) {
    forall j :: 0 <= j < |s| ==> s[j] == '.'
  }

  /** The error record for a failed `stat` or read of `path`. */
  function PathError<T>(e: OsError, path: string): Answer<T> {
    match e
    case NotFound(_) => ErrorAt("File not found", path)
    case PermissionDenied => ErrorAt("Permission denied", path)
    case OtherError(t) => ErrorAt(t, path)
  }

  /** The information reports what `stat` gives for the node found. */
  predicate Describes(info: FileInfo, found: Result<Node, OsError>) {
    found.Ok? && StatOf(found.value).Ok? && info.size == StatOf(found.value).value.size
    && info.isDir == found.value.Dir? && info.isFile == found.value.File?
  }

  /** `get_file_info`: the containment check, then the `stat` of the target. */
  function GetFileInfo(root: string, cwd: string, fs: Node, path: string): (r: Answer<FileInfo>)
    ensures Check(root, cwd, path) == Denied <==> r == Refused(FilesDenied + root)
    ensures r.Done? ==>
              Check(root, cwd, path).Granted? && r.value.path == Check(root, cwd, path).target
              && Describes(r.value, Open(fs, r.value.path))
              && r.value.name == BaseName(r.value.path) && r.value.extension == Extension(r.value.path)
    ensures r.ErrorAt? ==>
              Check(root, cwd, path).Granted? && r.path == Check(root, cwd, path).target
              && !(Open(fs, r.path).Ok? && StatOf(Open(fs, r.path).value).Ok?)
    ensures Check(root, cwd, path).Granted? ==>
              var target := Check(root, cwd, path).target;
              (Open(fs, target).Err? ==> r == PathError(Open(fs, target).error, target))
              && (Open(fs, target).Ok? && StatOf(Open(fs, target).value).Err? ==>
                    r == PathError(StatOf(Open(fs, target).value).error, target))
    ensures r.Crashed? <==> Check(root, cwd, path).Raised?
    ensures r.Crashed? ==> r.message == Check(root, cwd, path).message
  {
    match Check(root, cwd, path)
    case Raised(m) => Crashed(m)
    case Denied => Refused(FilesDenied + root)
    case Granted(target) =>
      match Open(fs, target)
      case Err(e) => PathError(e, target)
      case Ok(node) =>
        match StatOf(node)
        case Err(e) => PathError(e, target)
        case Ok(st) => Done(FileInfo(BaseName(target), target, node.File?, node.Dir?, st.size, Extension(target)))
  }

  /** The outcome of `file_preview`. */
  datatype Preview =
    | Contents(text: string)
    | NotAFile(path: string)
    | TooLarge(limit: SizeLabel, path: string)
    | Unreadable(error: string, path: string)
    | PreviewRefused(error: string)
    | PreviewCrashed(message: string)

  /** `os.path.isfile`: a file whose `stat` succeeds. */
  predicate IsFile(found: Result<Node, OsError>) {
    found.Ok? && found.value.File? && found.value.stat.Ok?
  }

  /** `file_preview`: contents only for a regular file no larger than
      `max_size`; a larger one is refused with the limit. */
  function FilePreview(root: string, cwd: string, fs: Node, path: string, maxSize: int): (r: Preview)
    ensures Check(root, cwd, path) == Denied <==> r == PreviewRefused(FilesDenied + root)
    ensures r.Contents? <==>
              Check(root, cwd, path).Granted?
              && var found := Open(fs, Check(root, cwd, path).target);
                 IsFile(found) && found.value.stat.value.size <= maxSize && found.value.contents.Ok?
    ensures r.Contents? ==> r.text == Open(fs, Check(root, cwd, path).target).value.contents.value
    ensures r.TooLarge? ==>
              (r.limit == FormatSize(maxSize) && IsFile(Open(fs, r.path))
               && Open(fs, r.path).value.stat.value.size > maxSize)
  {
    match Check(root, cwd, path)
    case Raised(m) => PreviewCrashed(m)
    case Denied => PreviewRefused(FilesDenied + root)
    case Granted(target) =>
      var found := Open(fs, target);
      if !IsFile(found) then NotAFile(target)
      else if found.value.stat.value.size > maxSize then TooLarge(FormatSize(maxSize), target)
      else
        match found.value.contents
        case Ok(text) => Contents(text)
        case Err(e) => Unreadable(PathError<string>(e, target).error, target)
  }
}

=== FILE: json.dfy ===
/** The JSON values that cross the worker pipes and the tool-call boundary,
    with the Python views of them the code relies on: `key in obj`,
    `obj[key]`, truthiness (`x or default`) and `str(x)`. */
module Json {
  import opened Base
  import opened Strings

  /** A decoded JSON value. Objects keep their fields in insertion order, as
      Python dicts do. Floating-point numbers are not modelled. */
  datatype Json =
    | Null
    | Bool(b: bool)
    | Int(i: int)
    | Str(s: string)
    | Arr(items: seq<Json>)
    | Obj(fields: seq<(string, Json)>)

  /** The value bound to `key` in a field list (first binding wins; a decoded
      object never binds a key twice). */
  function Lookup(fields: seq<(string, Json)>, key: string): (r: Option<Json>)
    ensures r.Some? <==> exists i :: 0 <= i < |fields| && fields[i].0 == key
    ensures r.Some? ==> exists i :: 0 <= i < |fields| && fields[i] == (key, r.value)
  {
    if |fields| == 0 then None
    else if fields[0].0 == key then Some(fields[0].1)
    else
      var r := Lookup(fields[1..], key);
      assert forall i :: 0 < i < |fields| ==> fields[i] == fields[1..][i - 1];
      r
  }

  /** `obj.get(key)` on a dict; `None` for anything that is not an object. */
  function Get(j: Json, key: string): Option<Json> {
    if j.Obj? then Lookup(j.fields, key) else None
  }

  /** `key in obj` for a dict. */
  predicate HasKey(j: Json, key: string) {
    Get(j, key).Some?
  }

  /** `obj.get(key, default)` on a dict. */
  function GetOr(j: Json, key: string, default: Json): Json
    requires j.Obj?
  {
    match Lookup(j.fields, key)
    case Some(v) => v
    case None => default
  }

  /** Python truthiness: `None`, `False`, `0`, `""`, `[]` and `{}` are false. */
  predicate Truthy(j: Json) {
    match j
    case Null => false
    case Bool(b) => b
    case Int(i) => i != 0
    case Str(s) => s != ""
    case Arr(items) => |items| > 0
    case Obj(fields) => |fields| > 0
  }

  /** The empty dict `{}`. */
  const EmptyObj: Json := Obj([])

  /** `{'error': detail}`. */
  function ErrorObj(detail: Json): Json {
    Obj([("error", detail)])
  }

  // ---------------------------------------------------------------------------
  // str() and repr()

  /** Python's `repr(x)`; strings are shown in single quotes without escaping. */
  function Repr(j: Json): string
    decreases j, 1
  {
    match j
    case Null => "None"
    case Bool(b) => if b then "True" else "False"
    case Int(i) => IntToString(i)
    case Str(s) => "'" + s + "'"
    case Arr(items) => "[" + ReprItems(items) + "]"
    case Obj(fields) => "{" + ReprFields(fields) + "}"
  }

  function ReprItems(items: seq<Json>): string
    decreases items, 0
  {
    if |items| == 0 then ""
    else if |items| == 1 then Repr(items[0])
    else Repr(items[0]) + ", " + ReprItems(items[1..])
  }

  function ReprFields(fields: seq<(string, Json)>): string
    decreases fields, 0
  {
    if |fields| == 0 then ""
    else
      var (key, value) := fields[0];
      assert value < fields[0];
      var entry := "'" + key + "': " + Repr(value);
      if |fields| == 1 then entry else entry + ", " + ReprFields(fields[1..])
  }

  /** Python's `str(x)`, which is what an f-string inserts: a string as is,
      anything else as its `repr`. */
  function PyStr(j: Json): string {
    if j.Str? then j.s else Repr(j)
  }
}

=== FILE: local_client.dfy ===
/** The local-LLM MCP client (cookbook/multi_agent/mcp_lm_studio/local_llm_mcp_client.py):
    the start-up exit check, sending one request (one line read, no skipping),
    dispatching a batch of tool calls, the session and the teardown. */
module LocalClient {
  import opened Base
  import opened Strings
  import opened Json
  import opened Protocol
  import opened Batch
  import opened Chat

  /** `start_mcp_server`: a worker found exited after the start-up wait is a
      failure carrying all of its stderr; a running one is the session's worker. */
  function StartServer(w: Worker): (r: Result<Worker, string>)
    ensures r.Err? <==> w.status.Exited?
    ensures r.Err? ==> r.error == "MCP server failed to start: " + w.stderr
    ensures r.Ok? ==> r.value == w
  {
    if w.status.Exited? then Err("MCP server failed to start: " + w.stderr) else Ok(w)
  }

  /** The message for a worker found exited before writing: the code only, the
      stderr is read and logged but not part of it. */
  function TerminatedMessage(code: int): string {
    "MCP server process terminated with code " + IntToString(code)
  }

  const EmptyResponseMessage := "MCP server returned empty response"

  /** `send_to_mcp`: refuses (before writing) when the worker has exited;
      otherwise writes the envelope with id 1, reads exactly one line and hands
      it to `json.loads` as it is. */
  function SendToMcp(w: Worker, loads: Loads, methodName: string, params: Option<Json>)
    : (r: (Result<Json, Fault>, Worker))
    ensures w.status.Exited? ==>
              r.0 == Err(Runtime(TerminatedMessage(w.status.code)))
              && r.1.sent == w.sent && r.1.stdout == w.stdout && r.1.status == w.status
    ensures w.status.Running? ==>
              r.1.sent == w.sent + [MakeRequest(methodName, params, 1)]
              && r.1.stdout == (if |w.stdout| > 0 then w.stdout[1..] else [])
    ensures w.status.Running? && (|w.stdout| == 0 || w.stdout[0].Stalled?) ==> r.0 == Err(TimedOut)
    ensures w.status.Running? && |w.stdout| > 0 && !w.stdout[0].Stalled? && (!w.stdout[0].Line? || w.stdout[0].text == "") ==>
              r.0 == Err(Runtime(EmptyResponseMessage))
    ensures w.status.Running? && |w.stdout| > 0 && w.stdout[0].Line? && w.stdout[0].text != "" ==>
              (r.0.Ok? <==> loads(w.stdout[0].text).Ok?)
              && (r.0.Ok? ==> r.0.value == loads(w.stdout[0].text).value)
              && (r.0.Err? ==> r.0.error == DecodeError(loads(w.stdout[0].text).error))
  {
    if w.status.Exited? then
      var (_, w1) := ReadStderr(w);
      (Err(Runtime(TerminatedMessage(w.status.code))), w1)
    else
      var w1 := Write(w, MakeRequest(methodName, params, 1));
      var (line, w2) := ReadLine(w1);
      match line
      case None => (Err(TimedOut), w2)
      case Some(t) =>
        if t == "" then (Err(Runtime(EmptyResponseMessage)), w2)
        else
          match loads(t)
          case Ok(j) => (Ok(j), w2)
          case Err(m) => (Err(DecodeError(m)), w2)
  }

  /** One iteration of the loop in `process_tool_calls`, including its `except`
      clause: the call's name is the method and its decoded arguments the params. */
  function DispatchOne(call: ToolCall, w: Worker, loads: Loads): (r: (Record, Worker))
    ensures Answers(call, r.0)
    ensures loads(call.arguments).Err? ==>
              r == (ToolRecord(call, ErrorObj(Str(loads(call.arguments).error))), w)
    ensures w.status.Running? && loads(call.arguments).Ok? ==>
              r.1.sent == w.sent + [MakeRequest(call.name, Some(loads(call.arguments).value), 1)]
    ensures w.status.Exited? ==>
              r.1.sent == w.sent && r.1.status == w.status
              && r.0.content == ErrorObj(Str(if loads(call.arguments).Err? then loads(call.arguments).error
                                             else TerminatedMessage(w.status.code)))
    ensures loads(call.arguments).Ok? ==>
              var sent := SendToMcp(w, loads, call.name, Some(loads(call.arguments).value));
              r == (OutcomeRecord(call, sent.0), sent.1)
  {
    match loads(call.arguments)
    case Err(m) => (OutcomeRecord(call, Err(DecodeError(m))), w)
    case Ok(args) =>
      var (outcome, w1) := SendToMcp(w, loads, call.name, Some(args));
      (OutcomeRecord(call, outcome), w1)
  }

  /** A live call whose reply is the next line, a dict carrying `result` and
      no `error`, is answered with that result, and the line is consumed. */
  lemma DispatchOneResult(call: ToolCall, w: Worker, loads: Loads, t: string, rest: seq<ReadOutcome>)
    requires w.status.Running? && loads(call.arguments).Ok?
    requires w.stdout == [Line(t)] + rest && t != ""
    requires loads(t).Ok? && loads(t).value.Obj?
    requires HasKey(loads(t).value, "result") && !HasKey(loads(t).value, "error")
    ensures DispatchOne(call, w, loads).0 == ToolRecord(call, Get(loads(t).value, "result").value)
    ensures DispatchOne(call, w, loads).1.stdout == rest
    ensures DispatchOne(call, w, loads).1.sent == w.sent + [MakeRequest(call.name, Some(loads(call.arguments).value), 1)]
  {
    var sent := SendToMcp(w, loads, call.name, Some(loads(call.arguments).value));
    assert sent.0 == Ok(loads(t).value);
    assert ResponseContent(loads(t).value) == Ok(Get(loads(t).value, "result").value);
  }

  /** The step the loop of `process_tool_calls` takes for each call. */
  function Dispatcher(loads: Loads): Step {
    (c, x) => DispatchOne(c, x, loads)
  }

  /** The loop of `process_tool_calls`: one answering record per call, at most
      one request written per call, nothing written once the worker has exited. */
  function DispatchAll(calls: seq<ToolCall>, w: Worker, loads: Loads): (r: (seq<Record>, Worker))
    ensures |r.0| == |calls|
    ensures forall i :: 0 <= i < |calls| ==> Answers(calls[i], r.0[i])
    ensures |w.sent| <= |r.1.sent| <= |w.sent| + |calls| && r.1.sent[..|w.sent|] == w.sent
    ensures w.status.Exited? ==>
              (r.1.sent == w.sent && forall i :: 0 <= i < |calls| ==> HasKey(r.0[i].content, "error"))
    ensures forall i :: 0 <= i < |calls| ==>
              r.0[i] == DispatchOne(calls[i], RunBatch(calls[..i], w, Dispatcher(loads)).1, loads).0
  {
    var step := Dispatcher(loads);
    forall i | 0 <= i < |calls|
      ensures RunBatch(calls, w, step).0[i] == DispatchOne(calls[i], RunBatch(calls[..i], w, step).1, loads).0
    {
      RunBatchRecord(calls, w, step, i);
    }
    assert forall c, x :: Answers(c, step(c, x).0) && WritesAtMostOne(x, step(c, x).1)
                          && InertWhenExited(x, step(c, x)) by {
      forall c, x ensures Answers(c, step(c, x).0) && WritesAtMostOne(x, step(c, x).1)
                          && InertWhenExited(x, step(c, x)) {
        var out := DispatchOne(c, x, loads);
        assert step(c, x) == out;
        assert out.1.sent[..|x.sent|] == x.sent;
      }
    }
    RunBatchAnswers(calls, w, step);
    RunBatchWrites(calls, w, step);
    if w.status.Exited? then RunBatchExited(calls, w, step); RunBatch(calls, w, step)
    else RunBatch(calls, w, step)
  }

  /** `process_tool_calls`: a dead worker gets one "terminated" record per call
      and nothing is sent; a live one has every call dispatched in order, with
      no ping first. */
  function ProcessToolCalls(calls: seq<ToolCall>, w: Worker, loads: Loads): (r: (seq<Record>, Worker))
    ensures AnswersAll(calls, r.0)
    ensures w.status.Exited? ==>
              r.1.sent == w.sent && forall i :: 0 <= i < |calls| ==> r.0[i] == TerminatedRecord(calls[i])
    ensures w.status.Running? ==> r == DispatchAll(calls, w, loads)
  {
    if w.status.Exited? then
      var (_, w1) := ReadStderr(w);
      (seq(|calls|, i requires 0 <= i < |calls| => TerminatedRecord(calls[i])), w1)
    else DispatchAll(calls, w, loads)
  }

  /** The handler the chat loop uses. */
  function Handler(loads: Loads): Chat.Handler {
    (calls, x) => ProcessToolCalls(calls, x, loads)
  }

  lemma HandlerIsFaithful(loads: Loads)
    ensures Faithful(Handler(loads))
  {
    forall calls, x ensures AnswersAll(calls, Handler(loads)(calls, x).0) {
      assert Handler(loads)(calls, x) == ProcessToolCalls(calls, x, loads);
    }
  }

  /** `chat_with_llm`: one assistant message per reply, each followed by the
      records answering exactly its tool calls, in order. */
  lemma ChatTranscript(input: string, replies: seq<Reply>, w: Worker, loads: Loads)
    ensures var c := ChatWithLlm(input, replies, w, Handler(loads));
            AssistantContents(c.messages) == ReplyContents(replies[..c.turns])
            && ToolIds(c.messages) == ReplyCallIds(replies[..c.turns])
  {
    HandlerIsFaithful(loads);
    ConverseAssistants([User(input)], replies, w, Handler(loads));
    ConverseToolIds([User(input)], replies, w, Handler(loads));
    assert AssistantContents([User(input)]) == [] && ToolIds([User(input)]) == [];
  }

  // ---------------------------------------------------------------------------
  // The program

  /** The `finally` of `main`: always terminate, then kill only when the
      worker has not exited within the five-second wait. */
  function Teardown(exitsWithinGrace: bool): (signals: seq<Signal>)
    ensures |signals| > 0 && signals[0] == Terminate
    ensures Kill in signals <==> !exitsWithinGrace
    ensures |signals| <= 2
  {
    [Terminate] + (if exitsWithinGrace then [] else [Kill])
  }

  datatype Run =
    | StartFailed(message: string)  // start_mcp_server raised; main has no handler for it
    | Served(conversations: seq<Conversation>, signals: seq<Signal>)

  /** `main`: start the worker, hold one conversation per input until an exit
      word, then tear down. */
  function RunClient(w: Worker, loads: Loads, inputs: seq<string>, scripts: seq<seq<Reply>>, exitsWithinGrace: bool)
    : (r: Run)
    ensures r.StartFailed? <==> w.status.Exited?
    ensures r.Served? ==> |r.conversations| == ExitIndex(inputs)
                          && forall i :: 0 <= i < |r.conversations| ==>
                               |r.conversations[i].messages| > 0 && r.conversations[i].messages[0] == User(inputs[i])
    ensures r.Served? ==> |r.signals| > 0 && r.signals[0] == Terminate && (Kill in r.signals <==> !exitsWithinGrace)
  {
    match StartServer(w)
    case Err(m) => StartFailed(m)
    case Ok(w1) =>
      var (conversations, _) := Session(inputs, scripts, w1, Handler(loads));
      Served(conversations, Teardown(exitsWithinGrace))
  }
}

=== FILE: notion.dfy ===
/** The page-to-loom fold of `notion_loom_loader.load`
    (pylib/components/prompt/notion.py): each Notion database page, already
    decoded, contributes one prompt entry keyed by its prompt id. The paging
    HTTP client that produces the pages is not part of this model; the pages
    are a given sequence. */
module Notion {
  import opened Base
  import opened Strings
  import opened Json

  /** The configured property names. */
  datatype Fields = Fields(promptId: string, promptText: string, params: string)

  /** Why the load stopped: one of the loader's own `ValueError`s, or another
      exception escaping from a subscript or a method call. */
  datatype Failure = ValueError(message: string) | Raised(exception: string)

  const IdMissing := "The prompt ID field name provided doesn't match a Notion page property"
  const TextMissing := "The prompt text field name provided doesn't match a Notion page property"
  const ParamsMissing := "The params field provided doesn't match a Notion page property"

  /** A loom entry: `T(text, 'en', meta=None, markers=params)`. */
  datatype Entry = Entry(text: string, lang: string, markers: seq<string>)

  /** The loom: prompt id to entry, each id taken up to Python's dict-key
      equality (see `DictKey`). */
  type Loom = map<Json, Entry>

  /** The key a Python dict files a hashable value under: `True == 1` and
      `False == 0` hash alike, so a boolean shares its slot with that integer. */
  function DictKey(j: Json): (k: Json)
    ensures !k.Bool?
    ensures j.Bool? ==> k == Int(if j.b then 1 else 0)
    ensures !j.Bool? ==> k == j
  {
    match j
    case Bool(b) => Int(if b then 1 else 0)
    case _ => j
  }

  // ---------------------------------------------------------------------------
  // Python subscripts on decoded JSON

  /** `j[key]`: a dict without the key raises `KeyError`, anything that is not
      a dict raises `TypeError`. */
  function Sub(j: Json, key: string): (r: Result<Json, string>)
    ensures r.Ok? <==> HasKey(j, key)
    ensures r.Ok? ==> Get(j, key) == Some(r.value)
    ensures j.Obj? && !HasKey(j, key) ==> r == Err("KeyError")
    ensures !j.Obj? ==> r == Err("TypeError")
  {
    if !j.Obj? then Err("TypeError")
    else match Get(j, key)
      case None => Err("KeyError")
      case Some(v) => Ok(v)
  }

  /** `j[0]`: the first item of a list or the first character of a string; an
      empty one raises `IndexError`, a dict (whose keys are strings) raises
      `KeyError`, a scalar raises `TypeError`. */
  function First(j: Json): (r: Result<Json, string>)
    ensures j.Arr? && |j.items| > 0 ==> r == Ok(j.items[0])
    ensures j.Arr? && |j.items| == 0 ==> r == Err("IndexError")
  {
    match j
    case Arr(items) => if |items| > 0 then Ok(items[0]) else Err("IndexError")
    case Str(s) => if |s| > 0 then Ok(Str([s[0]])) else Err("IndexError")
    case Obj(_) => Err("KeyError")
    case _ => Err("TypeError")
  }

  /** `x['rich_text' or 'title'][0][key]`: a chain of subscripts, the first
      exception escaping. */
  function FirstOf(j: Json, list: string, key: string): (r: Result<Json, string>)
    ensures r.Ok? ==> Sub(j, list).Ok? && First(Sub(j, list).value).Ok? && Sub(First(Sub(j, list).value).value, key) == r
  {
    match Sub(j, list)
    case Err(e) => Err(e)
    case Ok(items) =>
      match First(items)
      case Err(e) => Err(e)
      case Ok(item) => Sub(item, key)
  }

  /** A required property: a missing key on the properties dict becomes the
      loader's `ValueError`; any other exception escapes unchanged. */
  function Property(props: Json, name: string, missing: string): (r: Result<Json, Failure>)
    ensures props.Obj? && !HasKey(props, name) ==> r == Err(ValueError(missing))
    ensures HasKey(props, name) ==> r == Ok(Get(props, name).value)
    ensures !props.Obj? ==> r == Err(Raised("TypeError"))
  {
    match Sub(props, name)
    case Ok(v) => Ok(v)
    case Err(e) => if e == "KeyError" then Err(ValueError(missing)) else Err(Raised(e))
  }

  // ---------------------------------------------------------------------------
  // Params

  /** `[p.strip() for p in text.split(',')]`. */
  function Markers(text: string): (ms: seq<string>)
    ensures |ms| == |Split(text, ',')| >= 1
    ensures forall i :: 0 <= i < |ms| ==> ms[i] == Strip(Split(text, ',')[i])
  {
    var parts := Split(text, ',');
    seq(|parts|, i requires 0 <= i < |parts| => Strip(parts[i]))
  }

  /** The empty params text gives one empty marker, not none. */
  lemma MarkersOfEmpty()
    ensures Markers("") == [""]
  {
  }

  /** Markers that are already stripped and free of commas come back from the
      text that joins them with commas. */
  lemma MarkersOfJoin(ms: seq<string>)
    requires |ms| >= 1
    requires forall i :: 0 <= i < |ms| ==> ',' !in ms[i] && Strip(ms[i]) == ms[i]
    ensures Markers(Join(ms, ',')) == ms
  {
    SplitJoin(ms, ',');
  }

  /** The params text: the first `rich_text`'s `plain_text` when the list is
      truthy, else `''`; it must be a string to be split. */
  function ParamsText(params: Json): (r: Result<string, string>)
    ensures Sub(params, "rich_text").Err? ==> r == Err(Sub(params, "rich_text").error)
    ensures Sub(params, "rich_text").Ok? && !Truthy(Sub(params, "rich_text").value) ==> r == Ok("")
    ensures Sub(params, "rich_text").Ok? && Truthy(Sub(params, "rich_text").value) ==>
              (r.Ok? <==> FirstOf(params, "rich_text", "plain_text").Ok? && FirstOf(params, "rich_text", "plain_text").value.Str?)
              && (r.Ok? ==> FirstOf(params, "rich_text", "plain_text") == Ok(Str(r.value)))
    ensures r.Ok? ==> Get(params, "rich_text").Some?
  {
    match Sub(params, "rich_text")
    case Err(e) => Err(e)
    case Ok(list) =>
      if !Truthy(list) then Ok("")
      else
        match FirstOf(params, "rich_text", "plain_text")
        case Err(e) => Err(e)
        case Ok(Str(s)) => Ok(s)
        case Ok(_) => Err("AttributeError")
  }

  /** `j[list][0][key]` read structurally: a dict whose `list` member is a
      non-empty list whose first item is a dict binding `key`. */
  function Path(j: Json, list: string, key: string): Option<Json> {
    match Get(j, list)
    case Some(Arr(items)) => if |items| > 0 then Get(items[0], key) else None
    case _ => None
  }

  /** The subscript chain succeeds exactly on that shape, with that value. */
  lemma FirstOfIsPath(j: Json, list: string, key: string)
    ensures FirstOf(j, list, key).Ok? <==> Path(j, list, key).Some?
    ensures FirstOf(j, list, key).Ok? ==> FirstOf(j, list, key).value == Path(j, list, key).value
  {
  }

  /** `prompt_text['rich_text'][0]['text']['content']` read structurally. */
  function TextContent(promptText: Json): Option<Json> {
    match Path(promptText, "rich_text", "text")
    case Some(inner) => Get(inner, "content")
    case None => None
  }

  // ---------------------------------------------------------------------------
  // One page

  /** A value usable as a dict key: lists and dicts are unhashable. */
  predicate Hashable(j: Json) {
    !j.Arr? && !j.Obj?
  }

  /** One iteration of the loop: the page's key and entry, or the exception. */
  function ReadPage(page: Json, fields: Fields): (r: Result<(Json, Entry), Failure>)
    // `page['id']` and `page['properties']` are subscripted before any property
    ensures Sub(page, "id").Err? ==> r == Err(Raised(Sub(page, "id").error))
    ensures Sub(page, "id").Ok? && Sub(page, "properties").Err? ==> r == Err(Raised(Sub(page, "properties").error))
    // then the three properties, in this order
    ensures HasKey(page, "id") && HasKey(page, "properties") ==>
              var props := Get(page, "properties").value;
              (props.Obj? && !HasKey(props, fields.promptId) ==> r == Err(ValueError(IdMissing)))
              && (props.Obj? && HasKey(props, fields.promptId) && !HasKey(props, fields.promptText) ==>
                    r == Err(ValueError(TextMissing)))
              && ((props.Obj? && HasKey(props, fields.promptId) && HasKey(props, fields.promptText)
                   && !HasKey(props, fields.params)) ==> r == Err(ValueError(ParamsMissing)))
              && (!props.Obj? ==> r == Err(Raised("TypeError")))
    // what a page that reads contributes
    ensures r.Ok? ==>
              var props := Get(page, "properties").value;
              HasKey(page, "properties") && props.Obj?
              && HasKey(props, fields.promptId) && HasKey(props, fields.promptText) && HasKey(props, fields.params)
              && ParamsText(Get(props, fields.params).value).Ok?
              && r.value.1.markers == Markers(ParamsText(Get(props, fields.params).value).value)
              && r.value.1.lang == "en"
              && FirstOf(Get(props, fields.promptId).value, "title", "plain_text") == Ok(r.value.0)
              && Hashable(r.value.0)
              && TextContent(Get(props, fields.promptText).value).Some?
              && r.value.1.text == PyStr(TextContent(Get(props, fields.promptText).value).value)
    ensures r.Ok? ==> |r.value.1.markers| >= 1
  {
    match Sub(page, "id")
    case Err(e) => Err(Raised(e))
    case Ok(_) =>
      match Sub(page, "properties")
      case Err(e) => Err(Raised(e))
      case Ok(props) =>
        match Property(props, fields.promptId, IdMissing)
        case Err(f) => Err(f)
        case Ok(promptId) =>
          match Property(props, fields.promptText, TextMissing)
          case Err(f) => Err(f)
          case Ok(promptText) =>
            match Property(props, fields.params, ParamsMissing)
            case Err(f) => Err(f)
            case Ok(params) =>
              ReadEntry(promptId, promptText, params)
  }

  /** Lines 66-70 of the loop body, once the three properties are in hand: the
      params, then the key, then the text. */
  function ReadEntry(promptId: Json, promptText: Json, params: Json): (r: Result<(Json, Entry), Failure>)
    ensures r.Ok? ==>
              ParamsText(params).Ok? && r.value.1.markers == Markers(ParamsText(params).value)
              && r.value.1.lang == "en"
              && Path(promptId, "title", "plain_text") == Some(r.value.0) && Hashable(r.value.0)
              && TextContent(promptText).Some? && r.value.1.text == PyStr(TextContent(promptText).value)
    ensures ParamsText(params).Err? ==> r == Err(Raised(ParamsText(params).error))
    ensures (ParamsText(params).Ok? && Path(promptId, "title", "plain_text").Some?
             && Hashable(Path(promptId, "title", "plain_text").value) && TextContent(promptText).Some?) ==>
              r == Ok((Path(promptId, "title", "plain_text").value,
                       Entry(PyStr(TextContent(promptText).value), "en", Markers(ParamsText(params).value))))
  {
    match ParamsText(params)
    case Err(e) => Err(Raised(e))
    case Ok(text) =>
      match FirstOf(promptId, "title", "plain_text")
      case Err(e) => Err(Raised(e))
      case Ok(key) =>
        match FirstOf(promptText, "rich_text", "text")
        case Err(e) => Err(Raised(e))
        case Ok(inner) =>
          match Sub(inner, "content")
          case Err(e) => Err(Raised(e))
          case Ok(content) =>
            FirstOfIsPath(promptId, "title", "plain_text");
            FirstOfIsPath(promptText, "rich_text", "text");
            if !Hashable(key) then Err(Raised("TypeError"))
            else Ok((key, Entry(PyStr(content), "en", Markers(text))))
  }

  /** A well-formed database page as Notion returns it: the id, then the three
      configured properties (a title, the prompt text, and the params as an
      empty rich-text list or one plain text). */
  function NotionPage(fields: Fields, id: string, key: string, text: string, params: string): Json {
    var richParams := if params == "" then Arr([]) else Arr([Obj([("plain_text", Str(params))])]);
    Obj([("id", Str(id)),
         ("properties",
          Obj([(fields.promptId, Obj([("title", Arr([Obj([("plain_text", Str(key))])]))])),
               (fields.promptText, Obj([("rich_text", Arr([Obj([("text", Obj([("content", Str(text))]))])]))])),
               (fields.params, Obj([("rich_text", richParams)]))]))])
  }

  /** A well-formed page reads back as its prompt id, keyed to its text in
      English with the params split into markers. */
  lemma ReadPageRoundTrip(fields: Fields, id: string, key: string, text: string, params: string)
    requires fields.promptId != fields.promptText && fields.promptId != fields.params
    requires fields.promptText != fields.params
    ensures ReadPage(NotionPage(fields, id, key, text, params), fields) == Ok((Str(key), Entry(text, "en", Markers(params))))
  {
    var page := NotionPage(fields, id, key, text, params);
    var props := page.fields[1].1;
    assert page.fields[1..][0] == ("properties", props);
    assert Sub(page, "properties") == Ok(props);
    assert Sub(page, "id").Ok?;
    var f := props.fields;
    PropertiesOfPage(fields, f);
    ReadEntryOfPage(key, text, params, f[0].1, f[1].1, f[2].1);
  }

  /** The three configured properties are found in a properties dict listing them once each. */
  lemma PropertiesOfPage(fields: Fields, f: seq<(string, Json)>)
    requires |f| == 3 && f[0].0 == fields.promptId && f[1].0 == fields.promptText && f[2].0 == fields.params
    requires fields.promptId != fields.promptText && fields.promptId != fields.params
    requires fields.promptText != fields.params
    ensures Property(Obj(f), fields.promptId, IdMissing) == Ok(f[0].1)
    ensures Property(Obj(f), fields.promptText, TextMissing) == Ok(f[1].1)
    ensures Property(Obj(f), fields.params, ParamsMissing) == Ok(f[2].1)
  {
    assert f[1..][1..] == f[2..];
    assert Lookup(f[2..], fields.params) == Some(f[2].1);
    assert Lookup(f[1..], fields.params) == Some(f[2].1);
    assert Lookup(f[1..], fields.promptText) == Some(f[1].1);
  }

  lemma ReadEntryOfPage(key: string, text: string, params: string, idv: Json, textv: Json, pv: Json)
    requires idv == Obj([("title", Arr([Obj([("plain_text", Str(key))])]))])
    requires textv == Obj([("rich_text", Arr([Obj([("text", Obj([("content", Str(text))]))])]))])
    requires pv == Obj([("rich_text", if params == "" then Arr([]) else Arr([Obj([("plain_text", Str(params))])]))])
    ensures ReadEntry(idv, textv, pv) == Ok((Str(key), Entry(text, "en", Markers(params))))
  {
    assert ParamsText(pv) == Ok(params);
    assert Path(idv, "title", "plain_text") == Some(Str(key));
    assert TextContent(textv) == Some(Str(text));
  }

  // ---------------------------------------------------------------------------
  // The fold

  /** How a page is read: `ReadPage` with the loader's configured fields,
      `page => ReadPage(page, fields)`. The fold is stated over any reader. */
  type Reader = Json -> Result<(Json, Entry), Failure>

  /** Every page reads. */
  predicate AllRead(pages: seq<Json>, read: Reader) {
    forall i :: 0 <= i < |pages| ==> read(pages[i]).Ok?
  }

  /** Page `i` is the first that fails, with `f`. */
  predicate FirstFailure(pages: seq<Json>, read: Reader, i: nat, f: Failure) {
    i < |pages| && read(pages[i]) == Err(f) && AllRead(pages[..i], read)
  }

  /** `load`: the pages in order, each read page stored under its key (so a
      later `true` overwrites an earlier `1`); the
      first page that fails ends the load with its exception. */
  function Load(pages: seq<Json>, read: Reader): (r: Result<Loom, Failure>)
    ensures r.Ok? <==> AllRead(pages, read)
    ensures r.Err? ==> exists i :: FirstFailure(pages, read, i, r.error)
    decreases |pages|
  {
    if |pages| == 0 then Ok(map[])
    else
      var n := |pages| - 1;
      var init := pages[..n];
      match Load(init, read)
      case Err(f) =>
        ghost var i: nat :| FirstFailure(init, read, i, f);
        assert init[..i] == pages[..i] && init[i] == pages[i];
        assert FirstFailure(pages, read, i, f);
        Err(f)
      case Ok(loom) =>
        assert pages == init + [pages[n]];
        match read(pages[n])
        case Err(f) =>
          assert FirstFailure(pages, read, n, f);
          Err(f)
        case Ok((key, entry)) => Ok(loom[DictKey(key) := entry])
  }

  /** The dict slot page `i` writes to. */
  function KeyAt(pages: seq<Json>, read: Reader, i: nat): Json
    requires i < |pages| && read(pages[i]).Ok?
  {
    DictKey(read(pages[i]).value.0)
  }

  /** No page after `i` has the same key: page `i` is the last word on it. */
  ghost predicate LastWith(pages: seq<Json>, read: Reader, i: nat)
    requires AllRead(pages, read) && i < |pages|
  {
    forall j :: i < j < |pages| ==> KeyAt(pages, read, j) != KeyAt(pages, read, i)
  }

  /** The loom holds exactly the pages' keys, and each key's entry is the one
      of the last page carrying it: a later page overwrites an earlier one. */
  lemma {:induction false} LoadLastWins(pages: seq<Json>, read: Reader)
    requires Load(pages, read).Ok?
    ensures AllRead(pages, read)
    ensures forall k :: k in Load(pages, read).value <==>
              exists i :: 0 <= i < |pages| && KeyAt(pages, read, i) == k
    ensures forall k :: k in Load(pages, read).value ==>
              exists i :: 0 <= i < |pages| && KeyAt(pages, read, i) == k && LastWith(pages, read, i)
                          && Load(pages, read).value[k] == read(pages[i]).value.1
    decreases |pages|
  {
    if |pages| > 0 {
      var n := |pages| - 1;
      var init := pages[..n];
      assert forall i :: 0 <= i < |init| ==> init[i] == pages[i];
      assert pages == init + [pages[n]];
      LoadLastWins(init, read);
      var loom := Load(init, read).value;
      var (key, entry) := read(pages[n]).value;
      assert Load(pages, read).value == loom[DictKey(key) := entry];
      assert KeyAt(pages, read, n) == DictKey(key);
      forall k | k in Load(pages, read).value
        ensures exists i :: 0 <= i < |pages| && KeyAt(pages, read, i) == k && LastWith(pages, read, i)
                            && Load(pages, read).value[k] == read(pages[i]).value.1
      {
        if k == DictKey(key) {
          assert LastWith(pages, read, n);
        } else {
          var i :| 0 <= i < |init| && KeyAt(init, read, i) == k && LastWith(init, read, i)
                   && loom[k] == read(init[i]).value.1;
          assert KeyAt(pages, read, i) == k;
          assert LastWith(pages, read, i);
        }
      }
      forall k | exists i :: 0 <= i < |pages| && KeyAt(pages, read, i) == k
        ensures k in Load(pages, read).value
      {
        var i :| 0 <= i < |pages| && KeyAt(pages, read, i) == k;
        if i < n {
          assert KeyAt(init, read, i) == k;
        }
      }
    }
  }

  /** Two pages whose ids are `true` and `1` share one slot: the later wins. */
  lemma {:induction false} BoolAndIntShareAKey(p: Json, q: Json, read: Reader)
    requires read(p).Ok? && read(q).Ok?
    requires read(p).value.0 == Bool(true) && read(q).value.0 == Int(1)
    ensures Load([p, q], read) == Ok(map[Int(1) := read(q).value.1])
  {
    assert [p][..0] == [];
    assert Load([p], read) == Ok(map[Int(1) := read(p).value.1]);
    assert [p, q][..1] == [p];
    assert Load([p, q], read) == Ok(map[Int(1) := read(p).value.1][Int(1) := read(q).value.1]);
    assert map[Int(1) := read(p).value.1][Int(1) := read(q).value.1] == map[Int(1) := read(q).value.1];
  }

  /** Appending a page updates the loom at that page's key and nowhere else. */
  lemma LoadAppend(pages: seq<Json>, page: Json, read: Reader)
    requires Load(pages, read).Ok? && read(page).Ok?
    ensures Load(pages + [page], read) == Ok(Load(pages, read).value[DictKey(read(page).value.0) := read(page).value.1])
  {
  }
}

=== FILE: posix_path.dfy ===
/** The root-containment check of the filesystem tool server
    (cookbook/multi_agent/mcp_lm_studio/filesystem_mcp_server.py): a relative
    path is joined to ROOT_DIR, an absolute one is taken as is, and access is
    granted exactly when `commonpath([abspath(path), ROOT_DIR]) == ROOT_DIR`.
    The POSIX path functions are modelled after Python's `posixpath`. */
module PosixPath {
  import opened Base
  import opened Strings

  /** `os.path.isabs`. */
  predicate IsAbs(p: string) {
    StartsWith(p, "/")
  }

  /** `os.path.join(a, b)`: an absolute `b` replaces `a`; otherwise `b` is
      appended after a separator unless `a` is empty or already ends in one. */
  function PathJoin(a: string, b: string): (r: string)
    ensures IsAbs(b) ==> r == b
    ensures !IsAbs(b) ==> StartsWith(r, a) && EndsWith(r, b)
    ensures IsAbs(a) ==> IsAbs(r)
  {
    if IsAbs(b) then b
    else if a == "" || EndsWith(a, "/") then a + b
    else a + "/" + b
  }

  // ---------------------------------------------------------------------------
  // normpath / abspath

  /** One component of `normpath`'s loop: empty and `.` components vanish,
      `..` pops the previous component unless there is nothing to pop (kept
      for a relative path, dropped at the root) or the previous one is itself
      a kept `..`; anything else is pushed. */
  function Step(stack: seq<string>, c: string, rooted: bool): seq<string> {
    if c == "" || c == "." then stack
    else if c != ".." || (!rooted && |stack| == 0) || (|stack| > 0 && stack[|stack| - 1] == "..") then stack + [c]
    else if |stack| > 0 then stack[..|stack| - 1]
    else stack
  }

  function Resolve(stack: seq<string>, comps: seq<string>, rooted: bool): seq<string>
    decreases |comps|
  {
    if |comps| == 0 then stack else Resolve(Step(stack, comps[0], rooted), comps[1..], rooted)
  }

  /** The components `normpath` keeps for `p`. */
  function Resolved(p: string): seq<string> {
    Resolve([], Split(p, '/'), IsAbs(p))
  }

  /** `normpath` keeps exactly two leading slashes (POSIX leaves `//` to the
      implementation) and collapses one, or three or more, to a single one. */
  function LeadingSlashes(p: string): (n: nat)
    ensures n <= 2 && (n > 0 <==> IsAbs(p))
  {
    if StartsWith(p, "//") && !StartsWith(p, "///") then 2
    else if IsAbs(p) then 1
    else 0
  }

  function Slashes(n: nat): (r: string)
    ensures |r| == n && forall i :: 0 <= i < n ==> r[i] == '/'
  {
    if n == 0 then "" else "/" + Slashes(n - 1)
  }

  /** `os.path.normpath`. */
  function NormPath(p: string): (r: string)
    ensures r != ""
  {
    if p == "" then "."
    else
      var path := Slashes(LeadingSlashes(p)) + Join(Resolved(p), '/');
      if path == "" then "." else path
  }

  /** `os.path.abspath` with `cwd` standing for `os.getcwd()`. */
  function AbsPath(cwd: string, p: string): string {
    NormPath(if IsAbs(p) then p else PathJoin(cwd, p))
  }

  // ---------------------------------------------------------------------------
  // commonpath

  /** The components `commonpath` compares: the pieces between separators,
      without empty and `.` pieces. */
  function Clean(parts: seq<string>): (r: seq<string>)
    ensures forall i :: 0 <= i < |r| ==> r[i] != "" && r[i] != "."
    ensures forall i :: 0 <= i < |r| ==> r[i] in parts
  {
    if |parts| == 0 then []
    else if parts[0] == "" || parts[0] == "." then Clean(parts[1..])
    else [parts[0]] + Clean(parts[1..])
  }

  /** The longest common prefix. `commonpath` computes it as the common prefix
      of the lexicographically least and greatest component lists, which for
      two lists is the same thing. */
  function Lcp(a: seq<string>, b: seq<string>): (r: seq<string>)
    ensures |r| <= |a| && |r| <= |b| && r == a[..|r|] && r == b[..|r|]
    ensures |r| < |a| && |r| < |b| ==> a[|r|] != b[|r|]
  {
    if |a| == 0 || |b| == 0 || a[0] != b[0] then [] else [a[0]] + Lcp(a[1..], b[1..])
  }

  /** `os.path.commonpath([a, b])`: ValueError when one path is absolute and the
      other relative. */
  function CommonPath(a: string, b: string): Result<string, string> {
    if IsAbs(a) != IsAbs(b) then Err("Can't mix absolute and relative paths")
    else Ok((if IsAbs(a) then "/" else "") + Join(Lcp(Clean(Split(a, '/')), Clean(Split(b, '/'))), '/'))
  }

  // ---------------------------------------------------------------------------
  // The access check

  /** The outcome of the check: granted (with the path the tool goes on to
      use), denied, or the ValueError `commonpath` raised. */
  datatype Access = Granted(target: string) | Denied | Raised(message: string)

  /** The path a tool argument designates: relative paths are taken under the root. */
  function Target(root: string, p: string): string {
    if IsAbs(p) then p else PathJoin(root, p)
  }

  function Check(root: string, cwd: string, p: string): (a: Access)
    ensures a.Granted? ==> a.target == Target(root, p)
  {
    match CommonPath(AbsPath(cwd, Target(root, p)), root)
    case Err(m) => Raised(m)
    case Ok(c) => if c == root then Granted(Target(root, p)) else Denied
  }

  // ---------------------------------------------------------------------------
  // Containment as a component-prefix test

  /** A path component after normalisation of an absolute path. */
  predicate IsSegment(c: string) {
    c != "" && c != "." && c != ".." && '/' !in c
  }

  predicate AllSegments(segs: seq<string>) {
    forall i :: 0 <= i < |segs| ==> IsSegment(segs[i])
  }

  /** The canonical absolute path with the given components. */
  function Render(segs: seq<string>): string {
    "/" + Join(segs, '/')
  }

  predicate IsPrefix(a: seq<string>, b: seq<string>) {
    |a| <= |b| && b[..|a|] == a
  }

  /** The root `/` with the given number of slashes in front of a join splits
      back into its components. */
  lemma {:induction false} CleanSplitSlashes(n: nat, segs: seq<string>)
    requires AllSegments(segs)
    ensures Clean(Split(Slashes(n) + Join(segs, '/'), '/')) == segs
  {
    if n == 0 {
      assert Slashes(0) + Join(segs, '/') == Join(segs, '/');
      if |segs| == 0 {
        assert Split("", '/') == [""];
      } else {
        SplitJoin(segs, '/');
        CleanSegments(segs);
      }
    } else {
      var rest := Slashes(n - 1) + Join(segs, '/');
      assert Slashes(n) + Join(segs, '/') == "" + ['/'] + rest;
      SplitConcat("", rest, '/');
      assert Split("", '/') == [""];
      CleanSplitSlashes(n - 1, segs);
      assert Clean([""] + Split(rest, '/')) == Clean(Split(rest, '/'));
    }
  }

  lemma {:induction false} CleanSegments(segs: seq<string>)
    requires AllSegments(segs)
    ensures Clean(segs) == segs
  {
    if |segs| > 0 {
      CleanSegments(segs[1..]);
      assert segs == [segs[0]] + segs[1..];
    }
  }

  /** `normpath` of an absolute path only ever keeps real components. */
  lemma {:induction false} ResolveRootedSegments(stack: seq<string>, comps: seq<string>)
    requires AllSegments(stack)
    requires forall i :: 0 <= i < |comps| ==> '/' !in comps[i]
    ensures AllSegments(Resolve(stack, comps, true))
    decreases |comps|
  {
    if |comps| > 0 {
      var next := Step(stack, comps[0], true);
      assert AllSegments(next) by {
        if comps[0] != "" && comps[0] != "." && comps[0] != ".." {
          assert next == stack + [comps[0]];
        }
      }
      ResolveRootedSegments(next, comps[1..]);
    }
  }

  lemma JoinNonEmpty(segs: seq<string>)
    requires |segs| > 0 && segs[0] != ""
    ensures Join(segs, '/') != ""
  {
    if |segs| > 1 {
      JoinCons(segs, '/');
    }
  }

  /** Distinct component lists render differently. */
  lemma JoinInjective(a: seq<string>, b: seq<string>)
    requires AllSegments(a) && AllSegments(b)
    requires Join(a, '/') == Join(b, '/')
    ensures a == b
  {
    if |a| == 0 && |b| > 0 {
      JoinNonEmpty(b);
    } else if |b| == 0 && |a| > 0 {
      JoinNonEmpty(a);
    } else if |a| > 0 {
      SplitJoin(a, '/');
      SplitJoin(b, '/');
    }
  }

  lemma LcpIsWhole(a: seq<string>, b: seq<string>)
    ensures Lcp(a, b) == b <==> IsPrefix(b, a)
  {
  }

  /** The path a normalised absolute path designates, as components. */
  lemma {:induction false} AbsoluteTarget(cwd: string, t: string)
    requires IsAbs(t)
    ensures AllSegments(Resolved(t))
    ensures IsAbs(AbsPath(cwd, t))
    ensures Clean(Split(AbsPath(cwd, t), '/')) == Resolved(t)
  {
    ResolveRootedSegments([], Split(t, '/'));
    var n := LeadingSlashes(t);
    assert AbsPath(cwd, t) == Slashes(n) + Join(Resolved(t), '/');
    assert StartsWith(Slashes(n) + Join(Resolved(t), '/'), "/");
    CleanSplitSlashes(n, Resolved(t));
  }

  /** For a canonical absolute root, the check grants access exactly when the
      root's components are a prefix of the normalised target's components:
      `..` is resolved before comparing, and a sibling that merely shares a
      name prefix (`/root2` against `/root`) is not inside. */
  lemma {:induction false} ContainmentIsPrefix(segs: seq<string>, cwd: string, p: string)
    requires AllSegments(segs)
    ensures IsAbs(Target(Render(segs), p))
    ensures Check(Render(segs), cwd, p) ==
              if IsPrefix(segs, Resolved(Target(Render(segs), p))) then Granted(Target(Render(segs), p)) else Denied
  {
    var root := Render(segs);
    var t := Target(root, p);
    assert IsAbs(root);
    AbsoluteTarget(cwd, t);
    CleanSplitSlashes(1, segs);
    assert Slashes(1) + Join(segs, '/') == root;
    var l := Lcp(Resolved(t), segs);
    assert AllSegments(l) by {
      forall i | 0 <= i < |l| ensures IsSegment(l[i]) {
        assert l[i] == segs[i];
      }
    }
    assert CommonPath(AbsPath(cwd, t), root) == Ok("/" + Join(l, '/'));
    LcpIsWhole(Resolved(t), segs);
    if "/" + Join(l, '/') == root {
      assert Join(l, '/') == root[1..] == Join(segs, '/');
      JoinInjective(l, segs);
    }
  }

  // ---------------------------------------------------------------------------
  // Consequences

  lemma {:induction false} ResolveSegments(stack: seq<string>, segs: seq<string>)
    requires AllSegments(segs)
    ensures Resolve(stack, segs, true) == stack + segs
    decreases |segs|
  {
    if |segs| > 0 {
      ResolveSegments(stack + [segs[0]], segs[1..]);
      assert stack + [segs[0]] + segs[1..] == stack + segs;
    }
  }

  lemma {:induction false} ResolveConcat(stack: seq<string>, a: seq<string>, b: seq<string>, rooted: bool)
    ensures Resolve(stack, a + b, rooted) == Resolve(Resolve(stack, a, rooted), b, rooted)
    decreases |a|
  {
    if |a| == 0 {
      assert a + b == b;
    } else {
      assert (a + b)[0] == a[0] && (a + b)[1..] == a[1..] + b;
      ResolveConcat(Step(stack, a[0], rooted), a[1..], b, rooted);
    }
  }

  lemma JoinEndsWithLast(segs: seq<string>)
    requires |segs| > 0
    ensures EndsWith(Join(segs, '/'), segs[|segs| - 1])
    decreases |segs|
  {
    if |segs| > 1 {
      JoinCons(segs, '/');
      JoinEndsWithLast(segs[1..]);
    }
  }

  lemma {:induction false} SplitRender(segs: seq<string>)
    requires AllSegments(segs) && |segs| > 0
    ensures Split(Render(segs), '/') == [""] + segs
  {
    assert Render(segs) == "" + ['/'] + Join(segs, '/');
    SplitConcat("", Join(segs, '/'), '/');
    SplitJoin(segs, '/');
  }

  lemma {:induction false} RenderHasNoTrailingSlash(segs: seq<string>)
    requires AllSegments(segs) && |segs| > 0
    ensures !EndsWith(Render(segs), "/")
  {
    var root := Render(segs);
    var last := segs[|segs| - 1];
    JoinEndsWithLast(segs);
    assert root[|root| - 1] == last[|last| - 1];
    assert last[|last| - 1] in last;
  }

  /** From a root below `/`, the argument `..` designates the root's parent,
      which is refused. */
  lemma {:induction false} ParentOfRootDenied(segs: seq<string>, cwd: string)
    requires AllSegments(segs) && |segs| > 0
    ensures Check(Render(segs), cwd, "..") == Denied
  {
    var root := Render(segs);
    RenderHasNoTrailingSlash(segs);
    var t := Target(root, "..");
    assert t == root + ['/'] + "..";
    SplitConcat(root, "..", '/');
    SplitNoSep("..", '/');
    SplitRender(segs);
    assert Split(t, '/') == ([""] + segs) + [".."];
    ResolveConcat([], [""] + segs, [".."], true);
    ResolveConcat([], [""], segs, true);
    ResolveSegments([], segs);
    assert Resolved(t) == segs[..|segs| - 1];
    ContainmentIsPrefix(segs, cwd, "..");
  }

  /** What `commonpath` returns never ends in a separator, unless it is `/`. */
  lemma CommonPathNoTrailingSlash(a: string, b: string)
    requires CommonPath(a, b).Ok?
    ensures var c := CommonPath(a, b).value; |c| <= 1 || c[|c| - 1] != '/'
  {
    var l := Lcp(Clean(Split(a, '/')), Clean(Split(b, '/')));
    var c := CommonPath(a, b).value;
    if |l| > 0 {
      var last := l[|l| - 1];
      JoinEndsWithLast(l);
      assert last in Clean(Split(a, '/'));
      assert '/' !in last && last != "";
      assert c[|c| - 1] == last[|last| - 1];
    }
  }

  /** A ROOT_DIR written with a trailing slash (other than `/` itself) is never
      equal to what `commonpath` returns, so every path is refused. */
  lemma TrailingSlashRootDeniesAll(root: string, cwd: string, p: string)
    requires |root| > 1 && root[|root| - 1] == '/'
    ensures !Check(root, cwd, p).Granted?
  {
    var a := AbsPath(cwd, Target(root, p));
    if CommonPath(a, root).Ok? {
      CommonPathNoTrailingSlash(a, root);
    }
  }

  /** A relative ROOT_DIR makes every check raise: the normalised target and
      the root are never both absolute or both relative. */
  lemma RelativeRootRaises(root: string, cwd: string, p: string)
    requires !IsAbs(root) && IsAbs(cwd)
    ensures Check(root, cwd, p).Raised?
  {
    var t := Target(root, p);
    var a := AbsPath(cwd, t);
    var full := if IsAbs(t) then t else PathJoin(cwd, t);
    assert IsAbs(full);
    assert IsAbs(a) by {
      assert LeadingSlashes(full) > 0;
      assert StartsWith(Slashes(LeadingSlashes(full)) + Join(Resolved(full), '/'), "/");
    }
  }
}

=== FILE: prompt.dfy ===
/** `composite_prompt_content`, which builds OpenAI-style multimodal message
    content from a text and base64-encoded images. The repository carries two
    identical copies (pylib/components/prompt.py and
    pylib/components/prompt/composite.py); this module models both. */
module Prompt {
  import opened Base
  import opened Strings
  import opened Json

  /** `Base64Image` / `base_64_image`: the image subtype (e.g. `png`), a file
      name, and the base64 text. */
  datatype Image = Image(kind: string, filename: string, data: string)

  const UrlPrefix := "data:image/"
  const UrlMarker := ";base64,"

  /** The data URL of an image. */
  function DataUrl(img: Image): (url: string)
    ensures StartsWith(url, UrlPrefix)
  {
    var url := UrlPrefix + img.kind + UrlMarker + img.data;
    assert url == UrlPrefix + (img.kind + UrlMarker + img.data);
    url
  }

  /** `{'type': 'text', 'text': text}`. */
  function TextPart(text: string): Json {
    Obj([("type", Str("text")), ("text", Str(text))])
  }

  /** `{'type': 'image_url', 'image_url': {'url': url}}`. */
  function ImagePart(url: string): Json {
    Obj([("type", Str("image_url")), ("image_url", Obj([("url", Str(url))]))])
  }

  function ImageParts(images: seq<Image>): (parts: seq<Json>)
    ensures |parts| == |images|
    ensures forall i :: 0 <= i < |images| ==> parts[i] == ImagePart(DataUrl(images[i]))
  {
    seq(|images|, i requires 0 <= i < |images| => ImagePart(DataUrl(images[i])))
  }

  /** `composite_prompt_content(text, base64_images)`: the text itself when
      there are no images (`None` or an empty list); otherwise a text part
      followed by one image part per image, in order. */
  function CompositePromptContent(text: string, images: Option<seq<Image>>): (r: Json)
    ensures images.None? || images.value == [] <==> r == Str(text)
    ensures r.Arr? <==> images.Some? && images.value != []
    ensures r.Arr? ==>
              |r.items| == 1 + |images.value| && r.items[0] == TextPart(text)
              && forall i :: 0 <= i < |images.value| ==> r.items[i + 1] == ImagePart(DataUrl(images.value[i]))
  {
    var imgs := if images.Some? then images.value else [];
    if imgs == [] then Str(text)
    else Arr([TextPart(text)] + ImageParts(imgs))
  }

  /** Only the kind and data of each image matter: lists that agree on them,
      whatever the file names, give the same content. */
  lemma FilenameIrrelevant(text: string, a: seq<Image>, b: seq<Image>)
    requires |a| == |b|
    requires forall i :: 0 <= i < |a| ==> a[i].kind == b[i].kind && a[i].data == b[i].data
    ensures CompositePromptContent(text, Some(a)) == CompositePromptContent(text, Some(b))
  {
  }

  // ---------------------------------------------------------------------------
  // Reading the content back

  /** Index of the first `;` in `s`, or `|s|`. */
  function FirstSemicolon(s: string): (k: nat)
    ensures k <= |s| && (k < |s| ==> s[k] == ';')
    ensures forall j :: 0 <= j < k ==> s[j] != ';'
  {
    if |s| == 0 || s[0] == ';' then 0 else 1 + FirstSemicolon(s[1..])
  }

  /** The kind and data a data URL carries, read as the text up to the first
      `;` and what follows the marker. */
  function ParseDataUrl(url: string): Option<(string, string)> {
    if !StartsWith(url, UrlPrefix) then None
    else
      var rest := url[|UrlPrefix|..];
      var k := FirstSemicolon(rest);
      if StartsWith(rest[k..], UrlMarker) then Some((rest[..k], rest[k + |UrlMarker|..])) else None
  }

  /** A data URL gives back its image's kind and data, provided the kind has no `;`. */
  lemma DataUrlRoundTrip(img: Image)
    requires ';' !in img.kind
    ensures ParseDataUrl(DataUrl(img)) == Some((img.kind, img.data))
  {
    var url := DataUrl(img);
    var rest := img.kind + UrlMarker + img.data;
    assert url == UrlPrefix + rest;
    assert url[..|UrlPrefix|] == UrlPrefix;
    assert url[|UrlPrefix|..] == rest;
    FirstSemicolonAt(img.kind, UrlMarker + img.data);
    assert rest[|img.kind|..] == UrlMarker + img.data;
    assert rest[..|img.kind|] == img.kind;
    assert (UrlMarker + img.data)[..|UrlMarker|] == UrlMarker;
    assert rest[|img.kind| + |UrlMarker|..] == img.data;
  }

  lemma FirstSemicolonAt(a: string, b: string)
    requires ';' !in a && |b| > 0 && b[0] == ';'
    ensures FirstSemicolon(a + b) == |a|
  {
    if |a| > 0 {
      assert (a + b)[1..] == a[1..] + b;
      FirstSemicolonAt(a[1..], b);
    }
  }

  /** The text and the (kind, data) pairs of a composite content. */
  function Decompose(content: Json): Option<(string, seq<(string, string)>)> {
    if !content.Arr? || |content.items| == 0 then None
    else
      match (TextOf(content.items[0]), UrlsOf(content.items[1..]))
      case (Some(text), Some(pairs)) => Some((text, pairs))
      case _ => None
  }

  function TextOf(part: Json): Option<string> {
    if part.Obj? && |part.fields| == 2 && part.fields[0] == ("type", Str("text"))
       && part.fields[1].0 == "text" && part.fields[1].1.Str?
    then Some(part.fields[1].1.s) else None
  }

  function UrlOf(part: Json): Option<(string, string)> {
    if part.Obj? && |part.fields| == 2 && part.fields[0] == ("type", Str("image_url"))
       && part.fields[1].0 == "image_url" && part.fields[1].1.Obj? && |part.fields[1].1.fields| == 1
       && part.fields[1].1.fields[0].0 == "url" && part.fields[1].1.fields[0].1.Str?
    then ParseDataUrl(part.fields[1].1.fields[0].1.s) else None
  }

  function UrlsOf(parts: seq<Json>): (r: Option<seq<(string, string)>>)
    ensures r.Some? ==> |r.value| == |parts|
  {
    if |parts| == 0 then Some([])
    else
      match (UrlOf(parts[0]), UrlsOf(parts[1..]))
      case (Some(p), Some(ps)) => Some([p] + ps)
      case _ => None
  }

  /** The kind and data of each image, in order. */
  function Payloads(images: seq<Image>): seq<(string, string)> {
    seq(|images|, i requires 0 <= i < |images| => (images[i].kind, images[i].data))
  }

  /** The composite content keeps the text and every image's kind and data,
      in order: reading it back gives them again. */
  lemma {:induction false} CompositeRoundTrip(text: string, images: seq<Image>)
    requires images != []
    requires forall i :: 0 <= i < |images| ==> ';' !in images[i].kind
    ensures Decompose(CompositePromptContent(text, Some(images))) == Some((text, Payloads(images)))
  {
    var c := CompositePromptContent(text, Some(images));
    assert c.items[1..] == ImageParts(images);
    assert TextOf(c.items[0]) == Some(text);
    UrlsRoundTrip(images);
  }

  lemma {:induction false} UrlsRoundTrip(images: seq<Image>)
    requires forall i :: 0 <= i < |images| ==> ';' !in images[i].kind
    ensures UrlsOf(ImageParts(images)) == Some(Payloads(images))
  {
    if |images| > 0 {
      var parts := ImageParts(images);
      assert parts[1..] == ImageParts(images[1..]);
      DataUrlRoundTrip(images[0]);
      assert UrlOf(parts[0]) == Some((images[0].kind, images[0].data));
      UrlsRoundTrip(images[1..]);
      assert Payloads(images) == [(images[0].kind, images[0].data)] + Payloads(images[1..]);
    }
  }
}

=== FILE: protocol.dfy ===
/** What both stdio MCP clients share: the JSON-RPC request envelope, the
    tool-call intents a language model hands over, the tool-result records
    sent back, the errors a call can raise, and the worker process seen as a
    small state machine (running or exited, plus what its stdout will yield). */
module Protocol {
  import opened Base
  import opened Strings
  import opened Json

  // ---------------------------------------------------------------------------
  // Request envelope (JSON-RPC 2.0 Specification, section 4, Request object)

  /** A request as the clients build it. The version tag is always "2.0". */
  datatype Request = Request(id: int, methodName: string, params: Json)

  /** `{'jsonrpc': '2.0', 'id': id, 'method': method, 'params': params or {}}`:
      a missing or falsy parameter value becomes the empty dict. */
  function MakeRequest(methodName: string, params: Option<Json>, id: int): Request {
    Request(id, methodName, if params.Some? && Truthy(params.value) then params.value else EmptyObj)
  }

  /** The dict handed to `json.dumps`, fields in the order the source writes them. */
  function Encode(r: Request): Json {
    Obj([("jsonrpc", Str("2.0")), ("id", Int(r.id)), ("method", Str(r.methodName)), ("params", r.params)])
  }

  /** How a worker reads an envelope back: it must carry version "2.0", an
      integer id, a string method and a params member. */
  function Decode(j: Json): Option<Request> {
    match (Get(j, "jsonrpc"), Get(j, "id"), Get(j, "method"), Get(j, "params"))
    case (Some(Str("2.0")), Some(Int(id)), Some(Str(methodName)), Some(params)) => Some(Request(id, methodName, params))
    case _ => None
  }

  /** The envelope is well formed and carries exactly what the caller asked
      for: decoding it gives back the method and id, and its params are the
      given value when that value is truthy and `{}` otherwise (never `null`). */
  lemma EnvelopeRoundTrip(methodName: string, params: Option<Json>, id: int)
    ensures Decode(Encode(MakeRequest(methodName, params, id))) == Some(MakeRequest(methodName, params, id))
    ensures var p := MakeRequest(methodName, params, id).params;
            p == EmptyObj || (params.Some? && p == params.value && Truthy(p))
    ensures Truthy(MakeRequest(methodName, params, id).params) || MakeRequest(methodName, params, id).params == EmptyObj
  {
    var r := MakeRequest(methodName, params, id);
    var j := Encode(r);
    var f := j.fields;
    assert Lookup(f[3..], "params") == Some(r.params);
    assert Lookup(f[2..], "params") == Lookup(f[3..], "params") by { assert f[2..][1..] == f[3..]; }
    assert Lookup(f[1..], "params") == Lookup(f[2..], "params") by { assert f[1..][1..] == f[2..]; }
    assert Lookup(f[2..], "method") == Some(Str(methodName));
    assert Lookup(f[1..], "method") == Lookup(f[2..], "method") by { assert f[1..][1..] == f[2..]; }
    assert Lookup(f[1..], "id") == Some(Int(id));
    assert Get(j, "jsonrpc") == Some(Str("2.0"));
  }

  /** The loader of one JSON document (`json.loads`); `Err` carries the text of
      the JSONDecodeError. */
  type Loads = string -> Result<Json, string>

  // ---------------------------------------------------------------------------
  // Tool calls and tool-result records

  /** One tool-call intent from the language model: `tool_call.id`,
      `tool_call.function.name` and the JSON text `tool_call.function.arguments`. */
  datatype ToolCall = ToolCall(id: string, name: string, arguments: string)

  /** `{'tool_call_id': …, 'role': 'tool', 'name': …, 'content': json.dumps(content)}`;
      the content is kept as the JSON value before serialisation. */
  datatype Record = Record(toolCallId: string, role: string, name: string, content: Json)

  function ToolRecord(call: ToolCall, content: Json): (r: Record)
    ensures r.toolCallId == call.id && r.name == call.name && r.role == "tool"
  {
    Record(call.id, "tool", call.name, content)
  }

  /** The record every call gets when the worker was found dead before dispatch. */
  function TerminatedRecord(call: ToolCall): Record {
    ToolRecord(call, ErrorObj(Str("MCP server has terminated")))
  }

  // ---------------------------------------------------------------------------
  // Errors raised while talking to the worker

  /** The kind of a non-dict decoded response, which decides the TypeError text. */
  datatype NonDict = NoneValue | BoolValue | IntValue | StrValue | ListValue

  /** The exceptions a single call can raise; `FaultText` is what `str(e)` shows. */
  datatype Fault =
    | TimedOut                 // asyncio.TimeoutError from wait_for
    | Runtime(message: string) // RuntimeError(message)
    | DecodeError(message: string) // json.JSONDecodeError
    | MissingResult            // KeyError('result')
    | NotADict(kind: NonDict)  // TypeError from using a non-dict response as a dict

  function FaultText(f: Fault): string {
    match f
    case TimedOut => ""
    case Runtime(m) => m
    case DecodeError(m) => m
    case MissingResult => "'result'"
    case NotADict(k) =>
      match k
      case NoneValue => "argument of type 'NoneType' is not iterable"
      case BoolValue => "argument of type 'bool' is not iterable"
      case IntValue => "argument of type 'int' is not iterable"
      case StrValue => "string indices must be integers, not 'str'"
      case ListValue => "list indices must be integers or slices, not str"
  }

  /** Content of a tool record for a decoded response: `{'error': response['error']}`
      when the key is present, otherwise `response['result']`, raising KeyError when
      that is missing too and TypeError when the response is not a dict at all. */
  function ResponseContent(response: Json): (r: Result<Json, Fault>)
    ensures r.Ok? ==> response.Obj?
    ensures HasKey(response, "error") ==> r == Ok(ErrorObj(Get(response, "error").value))
    ensures response.Obj? && !HasKey(response, "error") ==>
              (r.Ok? <==> HasKey(response, "result")) && (r.Ok? ==> r.value == Get(response, "result").value)
  {
    match response
    case Null => Err(NotADict(NoneValue))
    case Bool(_) => Err(NotADict(BoolValue))
    case Int(_) => Err(NotADict(IntValue))
    case Str(_) => Err(NotADict(StrValue))
    case Arr(_) => Err(NotADict(ListValue))
    case Obj(_) =>
      match Get(response, "error")
      case Some(e) => Ok(ErrorObj(e))
      case None =>
        match Get(response, "result")
        case Some(v) => Ok(v)
        case None => Err(MissingResult)
  }

  /** The record for one call: the response content, or `{'error': str(e)}`
      when the call raised. */
  function OutcomeRecord(call: ToolCall, outcome: Result<Json, Fault>): (r: Record)
    ensures r.toolCallId == call.id && r.name == call.name && r.role == "tool"
    ensures outcome.Err? ==> r.content == ErrorObj(Str(FaultText(outcome.error)))
    ensures outcome.Ok? && ResponseContent(outcome.value).Ok? ==> r.content == ResponseContent(outcome.value).value
    ensures outcome.Ok? && ResponseContent(outcome.value).Err? ==>
              r.content == ErrorObj(Str(FaultText(ResponseContent(outcome.value).error)))
  {
    match outcome
    case Ok(response) =>
      (match ResponseContent(response)
       case Ok(content) => ToolRecord(call, content)
       case Err(f) => ToolRecord(call, ErrorObj(Str(FaultText(f)))))
    case Err(f) => ToolRecord(call, ErrorObj(Str(FaultText(f))))
  }

  // ---------------------------------------------------------------------------
  // The worker process

  /** `process.poll()`: `None` while running, the return code once exited. */
  datatype Status = Running | Exited(code: int)

  /** What one `stdout.readline()` under the client's timeout produces:
      a line, end-of-file with the worker still running, end-of-file because
      the worker exited with `code` at this point, or nothing before the timeout. */
  datatype ReadOutcome = Line(text: string) | Closed | Exit(code: int) | Stalled

  /** The worker as the client sees it. `sent` logs every request written to its
      stdin, so "nothing was sent" is a statement about `sent`. */
  datatype Worker = Worker(status: Status, stdout: seq<ReadOutcome>, stderr: string, sent: seq<Request>)

  /** `readline()` raced against the timeout: `None` when the timeout fires
      (also when the worker never writes again), `Some("")` at end-of-file. */
  function ReadLine(w: Worker): (r: (Option<string>, Worker))
    ensures r.1.sent == w.sent && r.1.stderr == w.stderr
    ensures |w.stdout| > 0 ==> r.1.stdout == w.stdout[1..]
    ensures |w.stdout| == 0 ==> r == (None, w)
    ensures r.1.status != w.status ==> |w.stdout| > 0 && w.stdout[0].Exit? && r.1.status == Exited(w.stdout[0].code)
    ensures |w.stdout| > 0 && w.stdout[0].Line? ==> r.0 == Some(w.stdout[0].text) && r.1.status == w.status
    ensures |w.stdout| > 0 && w.stdout[0].Closed? ==> r.0 == Some("") && r.1.status == w.status
    ensures |w.stdout| > 0 && w.stdout[0].Exit? ==> r.0 == Some("") && r.1.status == Exited(w.stdout[0].code)
    ensures |w.stdout| > 0 && w.stdout[0].Stalled? ==> r.0.None? && r.1.status == w.status
  {
    if |w.stdout| == 0 then (None, w)
    else
      var rest := w.(stdout := w.stdout[1..]);
      match w.stdout[0]
      case Line(t) => (Some(t), rest)
      case Closed => (Some(""), rest)
      case Exit(c) => (Some(""), rest.(status := Exited(c)))
      case Stalled => (None, rest)
  }

  /** `stderr.read()`: everything buffered, which is then gone. */
  function ReadStderr(w: Worker): (string, Worker) {
    (w.stderr, w.(stderr := ""))
  }

  /** Writing one request line to the worker's stdin. */
  function Write(w: Worker, r: Request): Worker {
    w.(sent := w.sent + [r])
  }

  // ---------------------------------------------------------------------------
  // Session edges shared by both clients

  /** `user_input.lower() in ['exit', 'quit', 'q']`. */
  predicate IsExitCommand(input: string) {
    var l := Lower(input);
    l == "exit" || l == "quit" || l == "q"
  }

  /** `a` spelled like the lower-case word `b` in any mix of letter case. */
  predicate SameIgnoringCase(a: string, b: string) {
    |a| == |b| && forall i :: 0 <= i < |a| ==> a[i] == b[i] || a[i] == UpperChar(b[i])
  }

  lemma LowerMatches(a: string, b: string)
    requires forall i :: 0 <= i < |b| ==> 'a' <= b[i] <= 'z'
    ensures Lower(a) == b <==> SameIgnoringCase(a, b)
  {
    if SameIgnoringCase(a, b) {
      assert forall i :: 0 <= i < |a| ==> Lower(a)[i] == b[i];
    }
    if Lower(a) == b {
      forall i | 0 <= i < |a| ensures a[i] == b[i] || a[i] == UpperChar(b[i]) {
        assert LowerChar(a[i]) == b[i];
      }
    }
  }

  /** The exit sentinels are exactly `exit`, `quit` and `q` in any letter case. */
  lemma ExitCommands(input: string)
    ensures IsExitCommand(input) <==>
              SameIgnoringCase(input, "exit") || SameIgnoringCase(input, "quit") || SameIgnoringCase(input, "q")
  {
    LowerMatches(input, "exit");
    LowerMatches(input, "quit");
    LowerMatches(input, "q");
  }

  /** The signals teardown sends. */
  datatype Signal = Terminate | Kill
}

=== FILE: researcher.dfy ===
/** The control logic of the toolio researcher (cookbook/toolio_researcher_plus/main.py):
    classifying fetched content by its MIME type, turning it into the record
    the analysis sees, the fold over SearXNG results, the bounded research
    step loop with its early exit, and the trace it keeps. The language
    model, HTTP, MIME guessing and text extraction are parameters. */
module Researcher {
  import opened Base
  import opened Strings
  import opened Json

  const ResultsPerQuery: nat := 3
  const MaxSteps: nat := 10
  const MinSteps: nat := 2
  /** The length `content[:2000]` keeps. */
  const RawLimit: nat := 2000

  // ---------------------------------------------------------------------------
  // content_processor

  datatype Category = Image | Pdf | Video | Text | Unknown

  /** The category's name as `classify_url` returns it. */
  function Name(c: Category): string {
    match c
    case Image => "image"
    case Pdf => "pdf"
    case Video => "video"
    case Text => "text"
    case Unknown => "unknown"
  }

  /** `classify_url` given the guessed MIME type of the URL's path (`None`
      when `mimetypes` has no guess): `image/…`, `application/pdf`,
      `video/…` and `text/…` have categories, anything else is unknown. */
  function Classify(mime: Option<string>): (c: Category)
    ensures c == Image <==> mime.Some? && StartsWith(mime.value, "image/")
    ensures c == Pdf <==> mime.Some? && mime.value == "application/pdf"
    ensures c == Video <==> mime.Some? && StartsWith(mime.value, "video/")
    ensures c == Text <==> mime.Some? && StartsWith(mime.value, "text/")
  {
    if mime.None? || mime.value == "" then Unknown
    else if StartsWith(mime.value, "image/") then
      assert mime.value[0] == 'i';
      Image
    else if mime.value == "application/pdf" then Pdf
    else if StartsWith(mime.value, "video/") then Video
    else if StartsWith(mime.value, "text/") then Text
    else Unknown
  }

  /** The dict `process_content` returns. */
  datatype Processed = Processed(kind: Category, processed: string, raw: string)

  /** What the processing needs from libraries: the MIME guess for a URL
      (`urlparse` then `mimetypes.guess_type`), trafilatura's extraction
      (`None` when it finds nothing), and the HTTP fetch of a page's text. */
  datatype Env = Env(mimeOf: string -> Option<string>, extract: string -> Option<string>,
                     fetch: string -> Result<string, string>)

  /** `content[:n]`. */
  function Take(s: string, n: nat): string {
    s[..Min(n, |s|)]
  }

  /** `process_content`: text is extracted (falling back to its first 2000
      characters when extraction gives nothing), anything else becomes a
      bracketed placeholder; the raw content is always cut to 2000 characters. */
  function ProcessContent(content: string, url: string, env: Env): (r: Processed)
    ensures r.kind == Classify(env.mimeOf(url))
    ensures |r.raw| == Min(|content|, RawLimit) && r.raw == content[..|r.raw|]
    ensures r.kind != Text ==> r.processed == "[" + Upper(Name(r.kind)) + " content]"
    ensures r.kind == Text ==>
              r.processed == (if env.extract(content).Some? && env.extract(content).value != ""
                              then env.extract(content).value else r.raw)
  {
    var kind := Classify(env.mimeOf(url));
    if kind == Text then
      var extracted := env.extract(content);
      Processed(kind, if extracted.Some? && extracted.value != "" then extracted.value else Take(content, RawLimit),
                Take(content, RawLimit))
    else Processed(kind, "[" + Upper(Name(kind)) + " content]", if content != "" then Take(content, RawLimit) else "")
  }

  // ---------------------------------------------------------------------------
  // searxng_search

  /** One processed result: `{'title': …, 'url': …, **processed_content}`. */
  datatype Found = Found(title: Json, url: string, page: Processed)

  /** The `try` body for one search result: fetch, process, then read the
      title. Anything raised (a failed fetch, a URL that is not a string, a
      missing title) drops the result. */
  function Visit(result: Json, env: Env): (r: Option<Found>)
    ensures r.Some? ==> Get(result, "url") == Some(Str(r.value.url)) && Get(result, "title") == Some(r.value.title)
    ensures r.Some? ==> env.fetch(r.value.url).Ok?
  {
    match Get(result, "url")
    case Some(Str(url)) =>
      (match env.fetch(url)
       case Err(_) => None
       case Ok(content) =>
         match Get(result, "title")
         case None => None
         case Some(title) => Some(Found(title, url, ProcessContent(content, url, env))))
    case _ => None
  }

  /** A result without a `url` key: the `except` clause's own `r["url"]` raises,
      and the exception leaves `searxng_search`. */
  predicate Escapes(result: Json) {
    !HasKey(result, "url")
  }

  const UrlKeyError := "KeyError: 'url'"

  /** Reference definition: the results that survive their `try`, in order. */
  function Kept(results: seq<Json>, env: Env): (r: Result<seq<Found>, string>)
    ensures r.Ok? ==> |r.value| <= |results|
    ensures r.Ok? <==> forall i :: 0 <= i < |results| ==> !Escapes(results[i])
    ensures r.Err? ==> r.error == UrlKeyError
  {
    if |results| == 0 then Ok([])
    else if Escapes(results[0]) then Err(UrlKeyError)
    else
      var rest := Kept(results[1..], env);
      assert forall i :: 1 <= i < |results| ==> results[i] == results[1..][i - 1];
      match Visit(results[0], env)
      case None => rest
      case Some(f) => if rest.Ok? then Ok([f] + rest.value) else rest
  }

  /** `p` in front of a successful outcome. */
  function Prepend(p: seq<Found>, r: Result<seq<Found>, string>): Result<seq<Found>, string> {
    if r.Ok? then Ok(p + r.value) else r
  }

  /** One result's share of the reference: its record, if its `try` got through. */
  lemma KeptStep(results: seq<Json>, env: Env)
    requires |results| > 0 && !Escapes(results[0])
    ensures Kept(results, env) == Prepend(if Visit(results[0], env).Some? then [Visit(results[0], env).value] else [],
                                          Kept(results[1..], env))
  {
    if Visit(results[0], env).None? && Kept(results[1..], env).Ok? {
      assert [] + Kept(results[1..], env).value == Kept(results[1..], env).value;
    }
  }

  /** `searxng_search` after the search request: the first `RESULTS_PER_QUERY`
      results are fetched and processed one by one. */
  method SearxngSearch(response: seq<Json>, env: Env) returns (r: Result<seq<Found>, string>)
    ensures r == Kept(response[..Min(ResultsPerQuery, |response|)], env)
    ensures r.Ok? ==> |r.value| <= ResultsPerQuery
  {
    var results := response[..Min(ResultsPerQuery, |response|)];
    var processed: seq<Found> := [];
    var i := 0;
    assert results[0..] == results;
    PrependEmpty(Kept(results, env));
    while i < |results|
      invariant 0 <= i <= |results|
      invariant Kept(results, env) == Prepend(processed, Kept(results[i..], env))
    {
      if Escapes(results[i]) {
        assert results[i..][0] == results[i];
        return Err(UrlKeyError);
      }
      var visited := Visit(results[i], env);
      KeptStep(results[i..], env);
      assert results[i..][1..] == results[i + 1..];
      var q := if visited.Some? then [visited.value] else [];
      PrependTwice(processed, q, Kept(results[i + 1..], env));
      processed := processed + q;
      i := i + 1;
    }
    assert results[i..] == [];
    assert processed + [] == processed;
    return Ok(processed);
  }

  lemma PrependEmpty(r: Result<seq<Found>, string>)
    ensures Prepend([], r) == r
  {
    if r.Ok? {
      assert [] + r.value == r.value;
    }
  }

  lemma PrependTwice(p: seq<Found>, q: seq<Found>, r: Result<seq<Found>, string>)
    ensures Prepend(p, Prepend(q, r)) == Prepend(p + q, r)
  {
    if r.Ok? {
      assert p + (q + r.value) == (p + q) + r.value;
    }
  }

  /** Dropping a result whose fetch fails changes nothing else: the other
      results are kept exactly as without it. */
  lemma {:induction false} FailedFetchDropsOnlyItself(before: seq<Json>, failed: Json, after: seq<Json>, env: Env)
    requires !Escapes(failed) && Visit(failed, env).None?
    ensures Kept(before + [failed] + after, env) == Kept(before + after, env)
  {
    if |before| == 0 {
      assert before + [failed] + after == [failed] + after;
      assert ([failed] + after)[1..] == after;
      assert before + after == after;
    } else {
      assert (before + [failed] + after)[0] == before[0];
      assert (before + [failed] + after)[1..] == before[1..] + [failed] + after;
      assert (before + after)[0] == before[0];
      assert (before + after)[1..] == before[1..] + after;
      FailedFetchDropsOnlyItself(before[1..], failed, after, env);
    }
  }

  /** When every fetch succeeds every result is kept, in order, under its own URL. */
  lemma {:induction false} AllFetchedAllKept(results: seq<Json>, env: Env)
    requires forall i :: 0 <= i < |results| ==> Visit(results[i], env).Some?
    ensures Kept(results, env).Ok? && |Kept(results, env).value| == |results|
    ensures forall i :: 0 <= i < |results| ==> Kept(results, env).value[i] == Visit(results[i], env).value
  {
    if |results| > 0 {
      assert forall i :: 1 <= i < |results| ==> results[i] == results[1..][i - 1];
      AllFetchedAllKept(results[1..], env);
      var k := Kept(results, env).value;
      assert k == [Visit(results[0], env).value] + Kept(results[1..], env).value;
    }
  }

  // ---------------------------------------------------------------------------
  // tee_seeker.research

  /** A planned step: its `step_type` and `query`. */
  datatype PlanStep = PlanStep(stepType: string, query: string)

  /** What the analysis of a search step reports. */
  datatype Analysis = Analysis(keyFindings: seq<string>, researchComplete: bool)

  predicate IsSearch(s: PlanStep) {
    s.stepType == "web_search"
  }

  /** Step `j` ends the loop early: a search step, taken after at least
      `MIN_STEPS` counted steps, whose analysis says the research is
      complete, at a rigor below 0.8. */
  predicate StopsAt(steps: seq<PlanStep>, analysisOf: nat -> Analysis, rigorBelow: bool, j: nat)
    requires j < |steps|
  {
    IsSearch(steps[j]) && j >= MinSteps && analysisOf(j).researchComplete && rigorBelow
  }

  /** The key findings of the search steps among the first `n`, in order. */
  function Findings(steps: seq<PlanStep>, analysisOf: nat -> Analysis, n: nat): seq<string>
    requires n <= |steps|
  {
    if n == 0 then []
    else Findings(steps, analysisOf, n - 1)
         + (if IsSearch(steps[n - 1]) then analysisOf(n - 1).keyFindings else [])
  }

  /** The search steps among the first `n`. */
  function Searches(steps: seq<PlanStep>, n: nat): nat
    requires n <= |steps|
  {
    if n == 0 then 0 else Searches(steps, n - 1) + (if IsSearch(steps[n - 1]) then 1 else 0)
  }

  /** The step loop of `research`. `analysisOf(j)` is the model's analysis
      of step `j`'s search results; `rigorBelow` is `rigor < 0.8`. Returns the
      counted steps, the findings, whether the loop stopped early, and the
      kinds of the trace entries written. */
  method Research(steps: seq<PlanStep>, analysisOf: nat -> Analysis, rigorBelow: bool)
    returns (completed: nat, findings: seq<string>, early: bool, trace: seq<string>)
    ensures completed <= MaxSteps && completed <= |steps|
    ensures early ==> completed < |steps| && completed < MaxSteps && StopsAt(steps, analysisOf, rigorBelow, completed)
    ensures !early ==> completed == Min(|steps|, MaxSteps)
    ensures forall j :: 0 <= j < completed ==> !StopsAt(steps, analysisOf, rigorBelow, j)
    ensures findings == Findings(steps, analysisOf, completed + (if early then 1 else 0))
    ensures var started := completed + (if early then 1 else 0);
            |trace| == 2 + started + 2 * Searches(steps, started)
            && trace[0] == "plan" && trace[|trace| - 1] == "summary"
  {
    completed := 0;
    findings := [];
    early := false;
    trace := ["plan"];
    while completed < |steps|
      invariant completed <= MaxSteps && completed <= |steps|
      invariant forall j :: 0 <= j < completed ==> !StopsAt(steps, analysisOf, rigorBelow, j)
      invariant findings == Findings(steps, analysisOf, completed)
      invariant |trace| == 1 + completed + 2 * Searches(steps, completed) && trace[0] == "plan"
      decreases |steps| - completed
    {
      if completed >= MaxSteps {
        break;
      }
      var step := steps[completed];
      trace := trace + ["step_start"];
      if IsSearch(step) {
        var analysis := analysisOf(completed);
        trace := trace + ["search_results", "analysis"];
        findings := findings + analysis.keyFindings;
        if completed >= MinSteps && analysis.researchComplete && rigorBelow {
          early := true;
          break;
        }
      }
      completed := completed + 1;
    }
    trace := trace + ["summary"];
  }

  // ---------------------------------------------------------------------------
  // _trace

  /** A trace entry: when, what kind, and its data. */
  datatype TraceEntry = TraceEntry(timestamp: string, kind: string, data: Json)

  /** `_trace`: one entry appended, earlier entries unchanged. The clock
      reading is a parameter. */
  function Trace(trace: seq<TraceEntry>, kind: string, data: Json, timestamp: string): (r: seq<TraceEntry>)
    ensures |r| == |trace| + 1 && r[..|trace|] == trace
    ensures r[|trace|] == TraceEntry(timestamp, kind, data)
  {
    trace + [TraceEntry(timestamp, kind, data)]
  }

  /** Tracing several entries keeps every earlier one where it was. */
  lemma {:induction false} TraceKeepsHistory(trace: seq<TraceEntry>, entries: seq<(string, Json, string)>)
    decreases |entries|
    ensures |TraceAll(trace, entries)| == |trace| + |entries|
    ensures TraceAll(trace, entries)[..|trace|] == trace
    ensures forall k :: 0 <= k < |entries| ==>
              TraceAll(trace, entries)[|trace| + k] == TraceEntry(entries[k].2, entries[k].0, entries[k].1)
  {
    if |entries| > 0 {
      var t1 := Trace(trace, entries[0].0, entries[0].1, entries[0].2);
      TraceKeepsHistory(t1, entries[1..]);
      var r := TraceAll(trace, entries);
      assert r[..|trace|] == r[..|t1|][..|trace|];
      forall k | 0 <= k < |entries|
        ensures r[|trace| + k] == TraceEntry(entries[k].2, entries[k].0, entries[k].1)
      {
        if k > 0 {
          assert entries[k] == entries[1..][k - 1];
          assert r[|t1| + (k - 1)] == TraceEntry(entries[k].2, entries[k].0, entries[k].1);
        } else {
          assert r[..|t1|][|trace|] == t1[|trace|];
        }
      }
    }
  }

  /** Successive `_trace` calls with (kind, data, timestamp) triples. */
  function TraceAll(trace: seq<TraceEntry>, entries: seq<(string, Json, string)>): seq<TraceEntry>
    decreases |entries|
  {
    if |entries| == 0 then trace
    else TraceAll(Trace(trace, entries[0].0, entries[0].1, entries[0].2), entries[1..])
  }
}

=== FILE: searxng_client.dfy ===
/** The SearXNG MCP client (cookbook/multi_agent/mcp_lm_studio/searxng_mcp_client.py):
    start-up handshake, reading a response while skipping non-JSON banner lines,
    sending one request, initialisation, dispatching a batch of tool calls,
    the keep-alive loop and the two-phase teardown. */
module SearxngClient {
  import opened Base
  import opened Strings
  import opened Json
  import opened Protocol
  import opened Batch
  import opened Chat

  // ---------------------------------------------------------------------------
  // Start-up

  /** The line `start_mcp_server` waits for on the worker's stderr. */
  predicate IsReadyLine(line: string) {
    Strip(line) == "READY"
  }

  /** Index of the first READY line (or the number of lines when there is none). */
  function ReadyIndex(lines: seq<string>): (k: nat)
    ensures k <= |lines|
    ensures forall i :: 0 <= i < k ==> !IsReadyLine(lines[i])
    ensures k < |lines| ==> IsReadyLine(lines[k])
  {
    if |lines| == 0 || IsReadyLine(lines[0]) then 0 else 1 + ReadyIndex(lines[1..])
  }

  /** `start_mcp_server`: the stderr lines up to and including the first READY
      are consumed (the others are echoed); then a worker that has exited is a
      start-up failure whose message carries the rest of its stderr. */
  function StartServer(stderrLines: seq<string>, status: Status, stdout: seq<ReadOutcome>)
    : (r: Result<Worker, string>)
    ensures r.Err? <==> status.Exited?
    ensures var k := ReadyIndex(stderrLines);
            var rest := if k < |stderrLines| then stderrLines[k + 1..] else [];
            (r.Err? ==> r.error == "MCP server failed to start: " + Concat(rest))
            && (r.Ok? ==> r.value == Worker(Running, stdout, Concat(rest), []))
  {
    var k := ReadyIndex(stderrLines);
    var rest := if k < |stderrLines| then stderrLines[k + 1..] else [];
    if status.Exited? then Err("MCP server failed to start: " + Concat(rest))
    else Ok(Worker(Running, stdout, Concat(rest), []))
  }

  // ---------------------------------------------------------------------------
  // Reading one response

  /** A stdout line `read_mcp_response` skips: non-empty, and its stripped
      text does not start with `{`. */
  predicate IsBanner(o: ReadOutcome) {
    o.Line? && o.text != "" && !StartsWith(Strip(o.text), "{")
  }

  /** Index of the first outcome that is not a banner line (or the length). */
  function FirstNonBanner(out: seq<ReadOutcome>): (k: nat)
    ensures k <= |out|
    ensures forall j :: 0 <= j < k ==> IsBanner(out[j])
    ensures k < |out| ==> !IsBanner(out[k])
  {
    if |out| == 0 || !IsBanner(out[0]) then 0 else 1 + FirstNonBanner(out[1..])
  }

  function TerminatedMessage(code: int, stderr: string): string {
    "MCP server terminated with code " + IntToString(code) + ": " + stderr
  }

  const EmptyResponseMessage := "MCP server returned empty response"

  /** An empty read: a RuntimeError that names the exit code (and the drained
      stderr) when the worker has exited, a plain "empty response" otherwise. */
  function EmptyRead(w: Worker): (r: (Result<string, Fault>, Worker))
    ensures r.1.sent == w.sent && r.1.stdout == w.stdout && r.1.status == w.status
  {
    if w.status.Exited? then
      var (err, w1) := ReadStderr(w);
      (Err(Runtime(TerminatedMessage(w.status.code, err))), w1)
    else (Err(Runtime(EmptyResponseMessage)), w)
  }

  /** `read_mcp_response`: read lines until one whose stripped text starts
      with `{`, skipping the others; every retry gets its own timeout. */
  function ReadResponse(w: Worker): (r: (Result<string, Fault>, Worker))
    ensures r.1.sent == w.sent
    ensures r.0.Ok? ==> StartsWith(Strip(r.0.value), "{")
    decreases |w.stdout|
  {
    var (line, w1) := ReadLine(w);
    match line
    case None => (Err(TimedOut), w1)
    case Some(t) =>
      if t == "" then EmptyRead(w1)
      else if StartsWith(Strip(t), "{") then (Ok(t), w1)
      else ReadResponse(w1)
  }

  /** What `read_mcp_response` yields, read off the first non-banner outcome. */
  function ExpectedRead(w: Worker): Result<string, Fault> {
    var k := FirstNonBanner(w.stdout);
    if k == |w.stdout| then Err(TimedOut)
    else
      match w.stdout[k]
      case Stalled => Err(TimedOut)
      case Line(t) =>
        if t != "" then Ok(t)
        else if w.status.Exited? then Err(Runtime(TerminatedMessage(w.status.code, w.stderr)))
        else Err(Runtime(EmptyResponseMessage))
      case Closed =>
        if w.status.Exited? then Err(Runtime(TerminatedMessage(w.status.code, w.stderr)))
        else Err(Runtime(EmptyResponseMessage))
      case Exit(c) => Err(Runtime(TerminatedMessage(c, w.stderr)))
  }

  /** `read_mcp_response` returns the first line whose stripped text starts
      with `{`, after consuming exactly the banner lines before it; end-of-file
      raises, naming the exit code when the worker has exited. */
  lemma {:induction false} ReadResponseSkipsBanners(w: Worker)
    ensures ReadResponse(w).0 == ExpectedRead(w)
    ensures var k := FirstNonBanner(w.stdout);
            ReadResponse(w).1.stdout == if k < |w.stdout| then w.stdout[k + 1..] else []
    ensures var k := FirstNonBanner(w.stdout);
            k < |w.stdout| && w.stdout[k].Line? ==> ReadResponse(w).1.status == w.status
    decreases |w.stdout|
  {
    if |w.stdout| > 0 && IsBanner(w.stdout[0]) {
      var w1 := ReadLine(w).1;
      ReadResponseSkipsBanners(w1);
      assert w1 == w.(stdout := w.stdout[1..]);
      assert FirstNonBanner(w.stdout) == 1 + FirstNonBanner(w1.stdout);
      assert ReadResponse(w) == ReadResponse(w1);
    } else if |w.stdout| > 0 {
      assert FirstNonBanner(w.stdout) == 0;
      var (line, w1) := ReadLine(w);
      assert w1.stdout == w.stdout[1..] && w1.stderr == w.stderr;
      match w.stdout[0]
      case Line(t) => assert line == Some(t) && w1.status == w.status;
      case Closed => assert line == Some("") && w1.status == w.status;
      case Exit(c) => assert line == Some("") && w1.status == Exited(c);
      case Stalled => assert line == None;
    }
  }

  // ---------------------------------------------------------------------------
  // Sending one request

  function ProcessTerminatedMessage(code: int, stderr: string): string {
    "MCP server process terminated with code " + IntToString(code) + ": " + stderr
  }

  const InvalidJsonPrefix := "Invalid JSON response: "

  /** What a live worker's reply to one request comes to, read off its stdout:
      the outcome `read_mcp_response` expects, decoded, with a line that does
      not decode becoming "Invalid JSON response: " and the line. */
  function Reply(w: Worker, loads: Loads): Result<Json, Fault> {
    match ExpectedRead(w)
    case Err(f) => Err(f)
    case Ok(t) =>
      match loads(t)
      case Ok(j) => Ok(j)
      case Err(_) => Err(Runtime(InvalidJsonPrefix + t))
  }

  /** `send_to_mcp`: refuses (before writing) when the worker has exited;
      otherwise writes the envelope, reads a response line and decodes it. */
  function SendToMcp(w: Worker, loads: Loads, methodName: string, params: Option<Json>, id: int)
    : (r: (Result<Json, Fault>, Worker))
    ensures w.status.Exited? ==>
              r.1.sent == w.sent && r.1.status == w.status
              && r.0 == Err(Runtime(ProcessTerminatedMessage(w.status.code, w.stderr)))
    ensures w.status.Running? ==> r.1.sent == w.sent + [MakeRequest(methodName, params, id)]
    ensures w.status.Running? ==> r.0 == Reply(w, loads)
  {
    if w.status.Exited? then
      var (err, w1) := ReadStderr(w);
      (Err(Runtime(ProcessTerminatedMessage(w.status.code, err))), w1)
    else
      var w1 := Write(w, MakeRequest(methodName, params, id));
      ReadResponseSkipsBanners(w1);
      assert ExpectedRead(w1) == ExpectedRead(w);
      var (line, w2) := ReadResponse(w1);
      match line
      case Err(f) => (Err(f), w2)
      case Ok(t) =>
        match loads(t)
        case Ok(j) => (Ok(j), w2)
        case Err(_) =>
          var w3 := if w2.status.Exited? then ReadStderr(w2).1 else w2;
          (Err(Runtime(InvalidJsonPrefix + t)), w3)
  }

  /** A live worker that prints banner lines and then a JSON line answers the
      request with that line, decoded; the banners are skipped and the request
      is logged. */
  lemma SendToMcpSkipsBanners(w: Worker, loads: Loads, methodName: string, params: Option<Json>,
                              banners: seq<string>, t: string, rest: seq<ReadOutcome>)
    requires w.status.Running?
    requires forall i :: 0 <= i < |banners| ==> banners[i] != "" && !StartsWith(Strip(banners[i]), "{")
    requires StartsWith(Strip(t), "{")
    requires w.stdout == seq(|banners|, i requires 0 <= i < |banners| => Line(banners[i])) + [Line(t)] + rest
    ensures SendToMcp(w, loads, methodName, params, 1).0 ==
              if loads(t).Ok? then Ok(loads(t).value) else Err(Runtime(InvalidJsonPrefix + t))
    ensures SendToMcp(w, loads, methodName, params, 1).1.stdout == rest
    ensures SendToMcp(w, loads, methodName, params, 1).1.status == w.status
  {
    var n := |banners|;
    BannersThenLine(w.stdout, banners, t, rest);
    var w1 := Write(w, MakeRequest(methodName, params, 1));
    assert w1.stdout == w.stdout;
    ReadResponseSkipsBanners(w1);
    assert ExpectedRead(w) == Ok(t);
  }

  /** Where the banner lines end in such an output. */
  lemma BannersThenLine(out: seq<ReadOutcome>, banners: seq<string>, t: string, rest: seq<ReadOutcome>)
    requires forall i :: 0 <= i < |banners| ==> banners[i] != "" && !StartsWith(Strip(banners[i]), "{")
    requires StartsWith(Strip(t), "{")
    requires out == seq(|banners|, i requires 0 <= i < |banners| => Line(banners[i])) + [Line(t)] + rest
    ensures FirstNonBanner(out) == |banners| && out[|banners|] == Line(t) && out[|banners| + 1..] == rest
  {
    var n := |banners|;
    assert forall j :: 0 <= j < n ==> IsBanner(out[j]);
    assert out[n] == Line(t);
    FirstNonBannerAt(out, n);
    assert out[n + 1..] == rest;
  }

  lemma {:induction false} FirstNonBannerAt(out: seq<ReadOutcome>, n: nat)
    requires n < |out| && !IsBanner(out[n]) && forall j :: 0 <= j < n ==> IsBanner(out[j])
    ensures FirstNonBanner(out) == n
  {
    if n > 0 {
      FirstNonBannerAt(out[1..], n - 1);
    }
  }

  /** `handle_ping`. */
  function Ping(w: Worker, loads: Loads): (Result<Json, Fault>, Worker) {
    SendToMcp(w, loads, "ping", None, 1)
  }

  // ---------------------------------------------------------------------------
  // Initialisation

  datatype InitError =
    | NotRunning(message: string) // the worker had exited before the handshake
    | Raised(fault: Fault)        // send_to_mcp raised, or the reply was not a dict
    | Rejected(detail: Json)      // the reply carried an `error` member

  const InitParams: Json :=
    Obj([("protocolVersion", Str("0.1.0")),
         ("capabilities", EmptyObj),
         ("clientInfo", Obj([("name", Str("SearXNG-MCP-Client")), ("version", Str("1.0.0"))]))])

  /** `'error' in response` followed by `response['error']` on a reply that is not a
      dict: `in` itself raises TypeError for None/bool/int, and on a string or list
      that contains "error" the subscript raises; otherwise the reply passes. */
  function NonDictInit(response: Json): Result<Json, InitError>
    requires !response.Obj?
  {
    match response
    case Null => Err(Raised(NotADict(NoneValue)))
    case Bool(_) => Err(Raised(NotADict(BoolValue)))
    case Int(_) => Err(Raised(NotADict(IntValue)))
    case Str(s) => if Contains(s, "error") then Err(Raised(NotADict(StrValue))) else Ok(response)
    case Arr(items) => if Str("error") in items then Err(Raised(NotADict(ListValue))) else Ok(response)
  }

  /** `initialize_mcp`: fails when the worker is dead or the reply carries an
      `error` member; otherwise returns the reply. */
  function Initialize(w: Worker, loads: Loads): (r: (Result<Json, InitError>, Worker))
    ensures r.0.Ok? ==> w.status.Running? && !HasKey(r.0.value, "error")
    ensures w.status.Running? && Reply(w, loads).Err? ==> r.0 == Err(Raised(Reply(w, loads).error))
    ensures w.status.Running? && Reply(w, loads).Ok? && Reply(w, loads).value.Obj? ==>
              var reply := Reply(w, loads).value;
              (HasKey(reply, "error") ==> r.0 == Err(Rejected(Get(reply, "error").value)))
              && (!HasKey(reply, "error") ==> r.0 == Ok(reply))
    ensures w.status.Running? && Reply(w, loads).Ok? && !Reply(w, loads).value.Obj? ==>
              r.0 == NonDictInit(Reply(w, loads).value)
    ensures w.status.Exited? ==>
              r.0 == Err(NotRunning(TerminatedMessage(w.status.code, w.stderr))) && r.1.sent == w.sent
    ensures w.status.Running? ==> r.1.sent == w.sent + [Request(1, "initialize", InitParams)]
  {
    if w.status.Exited? then
      var (err, w1) := ReadStderr(w);
      (Err(NotRunning(TerminatedMessage(w.status.code, err))), w1)
    else
      var (response, w1) := SendToMcp(w, loads, "initialize", Some(InitParams), 1);
      match response
      case Err(f) => (Err(Raised(f)), w1)
      case Ok(j) =>
        if !j.Obj? then (NonDictInit(j), w1)
        else
          match Get(j, "error")
          case Some(e) => (Err(Rejected(e)), w1)
          case None => (Ok(j), w1)
  }

  /** The handshake succeeds with the worker's first JSON line exactly when
      that line decodes to a dict without an `error` member, and otherwise it
      fails carrying the reply's `error`. */
  lemma InitializeFirstJsonLine(w: Worker, loads: Loads, banners: seq<string>, t: string, rest: seq<ReadOutcome>)
    requires w.status.Running?
    requires forall i :: 0 <= i < |banners| ==> banners[i] != "" && !StartsWith(Strip(banners[i]), "{")
    requires StartsWith(Strip(t), "{") && loads(t).Ok? && loads(t).value.Obj?
    requires w.stdout == seq(|banners|, i requires 0 <= i < |banners| => Line(banners[i])) + [Line(t)] + rest
    ensures Initialize(w, loads).0.Ok? <==> !HasKey(loads(t).value, "error")
    ensures Initialize(w, loads).0.Ok? ==> Initialize(w, loads).0.value == loads(t).value
    ensures Initialize(w, loads).0.Err? ==> Initialize(w, loads).0 == Err(Rejected(Get(loads(t).value, "error").value))
  {
    SendToMcpSkipsBanners(w, loads, "initialize", Some(InitParams), banners, t, rest);
  }

  // ---------------------------------------------------------------------------
  // Tool calls

  /** The request a tool call turns into: `search` goes out as the MCP
      `tools/call` method with `{name, arguments}`; any other name is sent as
      the method itself with the decoded arguments as params. */
  function ToolRequest(name: string, args: Json): Request {
    if name == "search" then MakeRequest("tools/call", Some(SearchParams(args)), 1)
    else MakeRequest(name, Some(args), 1)
  }

  /** The `tools/call` params for a `search` call. */
  function SearchParams(args: Json): Json {
    Obj([("name", Str("search")), ("arguments", args)])
  }

  /** `send_to_mcp` for a tool call, with the method and params `ToolRequest` names. */
  function SendTool(w: Worker, loads: Loads, name: string, args: Json): (Result<Json, Fault>, Worker) {
    if name == "search" then SendToMcp(w, loads, "tools/call", Some(SearchParams(args)), 1)
    else SendToMcp(w, loads, name, Some(args), 1)
  }

  /** One iteration of the loop in `process_tool_calls`, including its
      `except` clause: whatever goes wrong becomes this call's error record. */
  function DispatchOne(call: ToolCall, w: Worker, loads: Loads): (r: (Record, Worker))
    ensures r.0.toolCallId == call.id && r.0.name == call.name && r.0.role == "tool"
    ensures loads(call.arguments).Err? ==>
              r == (ToolRecord(call, ErrorObj(Str(loads(call.arguments).error))), w)
    ensures w.status.Running? && loads(call.arguments).Ok? ==>
              r.1.sent == w.sent + [ToolRequest(call.name, loads(call.arguments).value)]
    ensures w.status.Exited? ==> r.1.sent == w.sent && r.1.status == w.status && r.0.content.Obj?
                                 && HasKey(r.0.content, "error")
    ensures loads(call.arguments).Ok? ==>
              var sent := SendTool(w, loads, call.name, loads(call.arguments).value);
              r == (OutcomeRecord(call, sent.0), sent.1)
  {
    match loads(call.arguments)
    case Err(m) => (OutcomeRecord(call, Err(DecodeError(m))), w)
    case Ok(args) =>
      var (outcome, w1) := SendTool(w, loads, call.name, args);
      (OutcomeRecord(call, outcome), w1)
  }

  /** A live call whose reply is the next line, a dict carrying `result` and
      no `error`, is answered with that result, and the line is consumed. */
  lemma DispatchOneResult(call: ToolCall, w: Worker, loads: Loads, t: string, rest: seq<ReadOutcome>)
    requires w.status.Running? && loads(call.arguments).Ok?
    requires w.stdout == [Line(t)] + rest && StartsWith(Strip(t), "{")
    requires loads(t).Ok? && loads(t).value.Obj?
    requires HasKey(loads(t).value, "result") && !HasKey(loads(t).value, "error")
    ensures DispatchOne(call, w, loads).0 == ToolRecord(call, Get(loads(t).value, "result").value)
    ensures DispatchOne(call, w, loads).1.stdout == rest
    ensures DispatchOne(call, w, loads).1.sent == w.sent + [ToolRequest(call.name, loads(call.arguments).value)]
  {
    var args := loads(call.arguments).value;
    var none: seq<string> := [];
    assert w.stdout == seq(|none|, i requires 0 <= i < |none| => Line(none[i])) + [Line(t)] + rest;
    if call.name == "search" {
      SendToMcpSkipsBanners(w, loads, "tools/call", Some(SearchParams(args)), none, t, rest);
    } else {
      SendToMcpSkipsBanners(w, loads, call.name, Some(args), none, t, rest);
    }
    assert SendTool(w, loads, call.name, args).0 == Ok(loads(t).value);
    assert ResponseContent(loads(t).value) == Ok(Get(loads(t).value, "result").value);
  }

  /** The step the loop of `process_tool_calls` takes for each call. */
  function Dispatcher(loads: Loads): Step {
    (c, x) => DispatchOne(c, x, loads)
  }

  /** The loop of `process_tool_calls` over a batch, in order: one answering
      record per call, at most one request written per call, nothing written
      once the worker has exited. */
  function DispatchAll(calls: seq<ToolCall>, w: Worker, loads: Loads): (r: (seq<Record>, Worker))
    ensures |r.0| == |calls|
    ensures forall i :: 0 <= i < |calls| ==> Answers(calls[i], r.0[i])
    ensures |w.sent| <= |r.1.sent| <= |w.sent| + |calls| && r.1.sent[..|w.sent|] == w.sent
    ensures w.status.Exited? ==>
              (r.1.sent == w.sent && forall i :: 0 <= i < |calls| ==> HasKey(r.0[i].content, "error"))
    ensures forall i :: 0 <= i < |calls| ==>
              r.0[i] == DispatchOne(calls[i], RunBatch(calls[..i], w, Dispatcher(loads)).1, loads).0
  {
    var step := Dispatcher(loads);
    forall i | 0 <= i < |calls|
      ensures RunBatch(calls, w, step).0[i] == DispatchOne(calls[i], RunBatch(calls[..i], w, step).1, loads).0
    {
      RunBatchRecord(calls, w, step, i);
    }
    assert forall c, x :: Answers(c, step(c, x).0) && WritesAtMostOne(x, step(c, x).1)
                          && InertWhenExited(x, step(c, x)) by {
      forall c, x ensures Answers(c, step(c, x).0) && WritesAtMostOne(x, step(c, x).1)
                          && InertWhenExited(x, step(c, x)) {
        var out := DispatchOne(c, x, loads);
        assert step(c, x) == out;
        assert out.1.sent[..|x.sent|] == x.sent;
      }
    }
    RunBatchAnswers(calls, w, step);
    RunBatchWrites(calls, w, step);
    if w.status.Exited? then RunBatchExited(calls, w, step); RunBatch(calls, w, step)
    else RunBatch(calls, w, step)
  }

  /** `process_tool_calls`: a dead worker gets one "terminated" record per call
      and nothing is sent; a live one is pinged first (a failed ping is only
      logged) and then every call is dispatched in order. */
  function ProcessToolCalls(calls: seq<ToolCall>, w: Worker, loads: Loads): (r: (seq<Record>, Worker))
    ensures |r.0| == |calls|
    ensures AnswersAll(calls, r.0)
    ensures w.status.Exited? ==>
              r.1.sent == w.sent && forall i :: 0 <= i < |calls| ==> r.0[i] == TerminatedRecord(calls[i])
    ensures w.status.Running? ==>
              |r.1.sent| > |w.sent| && r.1.sent[..|w.sent| + 1] == w.sent + [MakeRequest("ping", None, 1)]
              && |r.1.sent| <= |w.sent| + 1 + |calls|
    ensures w.status.Running? ==> r == DispatchAll(calls, Ping(w, loads).1, loads)
  {
    if w.status.Exited? then
      var (_, w1) := ReadStderr(w);
      (seq(|calls|, i requires 0 <= i < |calls| => TerminatedRecord(calls[i])), w1)
    else
      var (_, w1) := Ping(w, loads);
      var r := DispatchAll(calls, w1, loads);
      assert r.1.sent[..|w.sent| + 1] == w1.sent by {
        assert r.1.sent[..|w1.sent|] == w1.sent;
      }
      r
  }

  // ---------------------------------------------------------------------------
  // Keep-alive and teardown

  datatype KeepAliveRun = KeepAliveRun(stopped: bool, pings: nat, worker: Worker)

  /** `keep_alive_ping` over `ticks` wake-ups (the task is cancelled after the
      last one): ping while the worker runs, ignore ping failures, leave the
      loop at the first wake-up that finds the worker exited. */
  function KeepAlive(ticks: nat, w: Worker, loads: Loads): (r: KeepAliveRun)
    ensures r.stopped ==> r.worker.status.Exited?
    ensures !r.stopped ==> r.pings == ticks
    ensures r.pings <= ticks
    ensures w.status.Exited? && ticks > 0 ==> r.stopped && r.pings == 0
    ensures |r.worker.sent| == |w.sent| + r.pings && r.worker.sent[..|w.sent|] == w.sent
    ensures forall i :: |w.sent| <= i < |r.worker.sent| ==> r.worker.sent[i] == MakeRequest("ping", None, 1)
  {
    if ticks == 0 then KeepAliveRun(false, 0, w)
    else if w.status.Exited? then KeepAliveRun(true, 0, w)
    else
      var (_, w1) := Ping(w, loads);
      var rest := KeepAlive(ticks - 1, w1, loads);
      assert w1.sent == w.sent + [MakeRequest("ping", None, 1)];
      assert rest.worker.sent[..|w1.sent|] == w1.sent;
      assert rest.worker.sent[..|w.sent|] == w.sent;
      assert rest.worker.sent[|w.sent|] == MakeRequest("ping", None, 1);
      KeepAliveRun(rest.stopped, rest.pings + 1, rest.worker)
  }

  /** The handler the chat loop uses. */
  function Handler(loads: Loads): Chat.Handler {
    (calls, x) => ProcessToolCalls(calls, x, loads)
  }

  lemma HandlerIsFaithful(loads: Loads)
    ensures Faithful(Handler(loads))
  {
    forall calls, x ensures AnswersAll(calls, Handler(loads)(calls, x).0) {
      assert Handler(loads)(calls, x) == ProcessToolCalls(calls, x, loads);
    }
  }

  /** The inner loop of `main`: one assistant message per reply, each followed
      by the records answering exactly its tool calls, in order. */
  lemma ChatTranscript(input: string, replies: seq<Reply>, w: Worker, loads: Loads)
    ensures var c := ChatWithLlm(input, replies, w, Handler(loads));
            AssistantContents(c.messages) == ReplyContents(replies[..c.turns])
            && ToolIds(c.messages) == ReplyCallIds(replies[..c.turns])
  {
    HandlerIsFaithful(loads);
    ConverseAssistants([User(input)], replies, w, Handler(loads));
    ConverseToolIds([User(input)], replies, w, Handler(loads));
    assert AssistantContents([User(input)]) == [] && ToolIds([User(input)]) == [];
  }

  /** The `finally` of `main`: terminate only a worker that is still running,
      and kill it only when it has not exited within the five-second wait. */
  function Teardown(status: Status, exitsWithinGrace: bool): (signals: seq<Signal>)
    ensures Terminate in signals <==> status.Running?
    ensures Kill in signals <==> status.Running? && !exitsWithinGrace
    ensures |signals| > 0 ==> signals[0] == Terminate
    ensures |signals| <= 2
  {
    if status.Exited? then []
    else [Terminate] + (if exitsWithinGrace then [] else [Kill])
  }

  /** `str(e)` for the exception `initialize_mcp` raised. */
  function InitErrorText(e: InitError): string {
    match e
    case NotRunning(m) => m
    case Raised(f) => FaultText(f)
    case Rejected(detail) => "MCP initialization failed: " + PyStr(detail)
  }

  /** The start of `main`'s try block: `initialize_mcp`, then one ping; the
      error is `str(e)` of the first exception, and a failed `initialize_mcp`
      ends the block before the ping is sent. */
  function Handshake(w: Worker, loads: Loads): (r: (Result<Json, string>, Worker))
    ensures var (init, w1) := Initialize(w, loads);
            init.Err? ==> r == (Err(InitErrorText(init.error)), w1)
    ensures var (init, w1) := Initialize(w, loads);
            r.0.Ok? <==> init.Ok? && Ping(w1, loads).0.Ok?
    ensures var (init, w1) := Initialize(w, loads);
            init.Ok? ==> r.1 == Ping(w1, loads).1
                         && (Ping(w1, loads).0.Ok? ==> r.0 == Ok(Ping(w1, loads).0.value))
                         && (Ping(w1, loads).0.Err? ==> r.0 == Err(FaultText(Ping(w1, loads).0.error)))
    ensures w.status.Exited? ==> r.0.Err? && r.1.sent == w.sent
    ensures w.status.Running? ==>
              |r.1.sent| > |w.sent| && r.1.sent[..|w.sent| + 1] == w.sent + [Request(1, "initialize", InitParams)]
    ensures r.0.Ok? ==>
              r.1.sent == w.sent + [Request(1, "initialize", InitParams), MakeRequest("ping", None, 1)]
  {
    var (init, w1) := Initialize(w, loads);
    match init
    case Err(e) => (Err(InitErrorText(e)), w1)
    case Ok(_) =>
      var (ping, w2) := Ping(w1, loads);
      match ping
      case Err(f) => (Err(FaultText(f)), w2)
      case Ok(j) => (Ok(j), w2)
  }

  /** A worker whose first two lines are an error-free dict and then any JSON
      reply completes the handshake with that second reply, having sent
      exactly `initialize` and `ping`. */
  lemma HandshakeTwoReplies(w: Worker, loads: Loads, a: string, b: string, rest: seq<ReadOutcome>)
    requires w.status.Running?
    requires StartsWith(Strip(a), "{") && StartsWith(Strip(b), "{")
    requires loads(a).Ok? && loads(a).value.Obj? && !HasKey(loads(a).value, "error")
    requires loads(b).Ok?
    requires w.stdout == [Line(a), Line(b)] + rest
    ensures Handshake(w, loads).0 == Ok(loads(b).value)
    ensures Handshake(w, loads).1.stdout == rest
  {
    var none: seq<string> := [];
    var banners := seq(|none|, i requires 0 <= i < |none| => Line(none[i]));
    assert w.stdout == banners + [Line(a)] + ([Line(b)] + rest);
    SendToMcpSkipsBanners(w, loads, "initialize", Some(InitParams), none, a, [Line(b)] + rest);
    InitializeFirstJsonLine(w, loads, none, a, [Line(b)] + rest);
    var w1 := Initialize(w, loads).1;
    assert w1 == SendToMcp(w, loads, "initialize", Some(InitParams), 1).1;
    assert w1.stdout == banners + [Line(b)] + rest;
    SendToMcpSkipsBanners(w1, loads, "ping", None, none, b, rest);
  }

  datatype Run =
    | NotStarted(message: string) // start_mcp_server raised: main returns before its try block
    | Ran(conversations: seq<Conversation>, error: Option<string>, final: Worker, signals: seq<Signal>)

  /** `main`: start the worker, run the handshake, then hold one conversation
      per input until an exit word; a failed handshake ends the session before
      any conversation, and teardown follows whenever the worker was started. */
  function RunClient(stderrLines: seq<string>, status: Status, stdout: seq<ReadOutcome>, loads: Loads,
                inputs: seq<string>, scripts: seq<seq<Reply>>, exitsWithinGrace: bool): (r: Run)
    ensures r.NotStarted? <==> status.Exited?
    ensures r.NotStarted? ==> r == NotStarted(StartServer(stderrLines, status, stdout).error)
    ensures r.Ran? ==>
              var w := StartServer(stderrLines, status, stdout).value;
              r.error == (if Handshake(w, loads).0.Err? then Some(Handshake(w, loads).0.error) else None)
    ensures r.Ran? && r.error.Some? ==> r.conversations == []
    ensures r.Ran? && r.error.None? ==> |r.conversations| == ExitIndex(inputs)
    ensures r.Ran? ==>
              var (_, w1) := Handshake(StartServer(stderrLines, status, stdout).value, loads);
              r.final == if r.error.Some? then w1 else Session(inputs, scripts, w1, Handler(loads)).1
    ensures r.Ran? ==> r.signals == Teardown(r.final.status, exitsWithinGrace)
    ensures r.Ran? && r.final.status.Running? ==>
              |r.signals| > 0 && r.signals[0] == Terminate && (Kill in r.signals <==> !exitsWithinGrace)
    ensures r.Ran? && r.final.status.Exited? ==> r.signals == []
  {
    match StartServer(stderrLines, status, stdout)
    case Err(m) => NotStarted(m)
    case Ok(w) =>
      var (handshake, w1) := Handshake(w, loads);
      match handshake
      case Err(m) => Ran([], Some(m), w1, Teardown(w1.status, exitsWithinGrace))
      case Ok(_) =>
        var (conversations, w2) := Session(inputs, scripts, w1, Handler(loads));
        Ran(conversations, None, w2, Teardown(w2.status, exitsWithinGrace))
  }
}

=== FILE: strings.dfy ===
/** The handful of Python `str` operations the modelled code relies on:
    prefix/suffix tests, `split`/`join` on one separator, `strip()`,
    ASCII `lower()`/`upper()` and `str()` of an integer. */
module Strings {

  predicate StartsWith(s: string, prefix: string) {
    |prefix| <= |s| && s[..|prefix|] == prefix
  }

  predicate EndsWith(s: string, suffix: string) {
    |suffix| <= |s| && s[|s| - |suffix|..] == suffix
  }

  /** Python's `needle in s` for strings: `needle` occurs somewhere in `s`. */
  predicate Contains(s: string, needle: string) {
    StartsWith(s, needle) || (|s| > 0 && Contains(s[1..], needle))
  }

  /** `''.join(parts)`. */
  function Concat(parts: seq<string>): string {
    if |parts| == 0 then "" else parts[0] + Concat(parts[1..])
  }

  // ---------------------------------------------------------------------------
  // split / join

  /** Python's `s.split(sep)` for a one-character separator: the pieces between
      separators, so there is always at least one piece (`"".split(",") == [""]`). */
  function Split(s: string, sep: char): (parts: seq<string>)
    ensures |parts| >= 1
    ensures forall i :: 0 <= i < |parts| ==> sep !in parts[i]
  {
    if |s| == 0 then [""]
    else
      var rest := Split(s[1..], sep);
      if s[0] == sep then [""] + rest
      else [[s[0]] + rest[0]] + rest[1..]
  }

  /** Python's `sep.join(parts)`. */
  function Join(parts: seq<string>, sep: char): string
  {
    if |parts| == 0 then ""
    else if |parts| == 1 then parts[0]
    else parts[0] + [sep] + Join(parts[1..], sep)
  }

  lemma JoinCons(parts: seq<string>, sep: char)
    requires |parts| >= 2
    ensures Join(parts, sep) == parts[0] + [sep] + Join(parts[1..], sep)
  {
  }

  /** Joining the pieces of a split gives back the original string. */
  lemma {:induction false} JoinSplit(s: string, sep: char)
    ensures Join(Split(s, sep), sep) == s
  {
    if |s| == 0 {
    } else {
      var rest := Split(s[1..], sep);
      JoinSplit(s[1..], sep);
      if s[0] == sep {
        assert Split(s, sep) == [""] + rest;
        JoinCons([""] + rest, sep);
        assert ([""] + rest)[1..] == rest;
        assert s == [s[0]] + s[1..];
      } else {
        var parts := Split(s, sep);
        assert parts == [[s[0]] + rest[0]] + rest[1..];
        if |rest| == 1 {
          assert Join(parts, sep) == [s[0]] + rest[0];
        } else {
          JoinCons(rest, sep);
          JoinCons(parts, sep);
          assert parts[1..] == rest[1..];
        }
        assert s == [s[0]] + s[1..];
      }
    }
  }

  /** Splitting around one separator occurrence splits each side independently. */
  lemma {:induction false} SplitConcat(a: string, b: string, sep: char)
    ensures Split(a + [sep] + b, sep) == Split(a, sep) + Split(b, sep)
  {
    var s := a + [sep] + b;
    if |a| == 0 {
      assert s == [sep] + b;
      assert s[1..] == b;
    } else {
      assert s[0] == a[0];
      assert s[1..] == a[1..] + [sep] + b;
      SplitConcat(a[1..], b, sep);
      var ra := Split(a[1..], sep);
      if a[0] == sep {
        assert Split(a, sep) == [""] + ra;
      } else {
        assert Split(a, sep) == [[a[0]] + ra[0]] + ra[1..];
        assert (ra + Split(b, sep))[0] == ra[0];
        assert (ra + Split(b, sep))[1..] == ra[1..] + Split(b, sep);
      }
    }
  }

  lemma {:induction false} SplitNoSep(s: string, sep: char)
    requires sep !in s
    ensures Split(s, sep) == [s]
  {
    if |s| > 0 {
      assert s[0] != sep;
      assert sep !in s[1..] by {
        forall i | 0 <= i < |s[1..]| ensures s[1..][i] != sep {
          assert s[1..][i] == s[i + 1];
        }
      }
      SplitNoSep(s[1..], sep);
      assert s == [s[0]] + s[1..];
    }
  }

  /** Splitting a join of separator-free pieces gives back the pieces. */
  lemma {:induction false} SplitJoin(parts: seq<string>, sep: char)
    requires |parts| >= 1
    requires forall i :: 0 <= i < |parts| ==> sep !in parts[i]
    ensures Split(Join(parts, sep), sep) == parts
  {
    if |parts| == 1 {
      SplitNoSep(parts[0], sep);
    } else {
      JoinCons(parts, sep);
      SplitConcat(parts[0], Join(parts[1..], sep), sep);
      SplitNoSep(parts[0], sep);
      SplitJoin(parts[1..], sep);
      assert parts == [parts[0]] + parts[1..];
    }
  }

  // ---------------------------------------------------------------------------
  // strip

  /** The characters Python's `str.isspace()` accepts, which `strip()` removes. */
  predicate IsSpace(c: char) {
    || c == ' '
    || ('\t' <= c <= '\r')
    || ('\U{1C}' <= c <= '\U{1F}')
    || c == '\U{85}' || c == '\U{A0}' || c == '\U{1680}'
    || ('\U{2000}' <= c <= '\U{200A}')
    || c == '\U{2028}' || c == '\U{2029}' || c == '\U{202F}' || c == '\U{205F}' || c == '\U{3000}'
  }

  /** `s.lstrip()`: the suffix of `s` after its leading whitespace. */
  function LStrip(s: string): (r: string)
    ensures |r| <= |s|
  {
    if |s| > 0 && IsSpace(s[0]) then LStrip(s[1..]) else s
  }

  /** `s.rstrip()`: the prefix of `s` before its trailing whitespace. */
  function RStrip(s: string): (r: string)
    ensures |r| <= |s|
  {
    if |s| > 0 && IsSpace(s[|s| - 1]) then RStrip(s[..|s| - 1]) else s
  }

  /** `s.strip()`. */
  function Strip(s: string): string {
    RStrip(LStrip(s))
  }

  /** `lstrip` removes exactly the leading whitespace. */
  lemma {:induction false} LStripShape(s: string)
    ensures LStrip(s) == s[|s| - |LStrip(s)|..]
    ensures forall i :: 0 <= i < |s| - |LStrip(s)| ==> IsSpace(s[i])
    ensures |LStrip(s)| > 0 ==> !IsSpace(LStrip(s)[0])
  {
    if |s| > 0 && IsSpace(s[0]) {
      LStripShape(s[1..]);
    }
  }

  /** `rstrip` keeps the first character of any string it leaves non-empty. */
  lemma {:induction false} RStripKeepsFront(s: string)
    ensures RStrip(s) == s[..|RStrip(s)|]
    ensures |s| > 0 && !IsSpace(s[0]) ==> |RStrip(s)| > 0
  {
    if |s| > 0 && IsSpace(s[|s| - 1]) {
      RStripKeepsFront(s[..|s| - 1]);
      assert s[..|s| - 1][..|RStrip(s)|] == s[..|RStrip(s)|];
    }
  }

  /** `s.strip().startswith(c)` for a non-space character `c` holds exactly when
      the first non-whitespace character of `s` is `c`. */
  lemma StripStartsWith(s: string, c: char)
    requires !IsSpace(c)
    ensures StartsWith(Strip(s), [c]) <==> (|LStrip(s)| > 0 && LStrip(s)[0] == c)
  {
    var l := LStrip(s);
    var r := RStrip(l);
    LStripShape(s);
    RStripKeepsFront(l);
    assert StartsWith(r, [c]) <==> (|r| >= 1 && r[0] == c);
    if |r| > 0 {
      assert r[0] == l[0];
    }
  }

  // ---------------------------------------------------------------------------
  // case mapping (ASCII letters; the rest is unchanged)

  function LowerChar(c: char): char {
    if 'A' <= c <= 'Z' then (c as int + 32) as char else c
  }

  function UpperChar(c: char): char {
    if 'a' <= c <= 'z' then (c as int - 32) as char else c
  }

  function Lower(s: string): (r: string)
    ensures |r| == |s|
  {
    seq(|s|, i requires 0 <= i < |s| => LowerChar(s[i]))
  }

  function Upper(s: string): (r: string)
    ensures |r| == |s|
  {
    seq(|s|, i requires 0 <= i < |s| => UpperChar(s[i]))
  }

  // ---------------------------------------------------------------------------
  // str(int)

  function DigitChar(d: int): char
    requires 0 <= d < 10
  {
    "0123456789"[d]
  }

  function DigitValue(c: char): int {
    c as int - '0' as int
  }

  /** Decimal digits of a natural number, most significant first, no leading zeros. */
  function NatToString(n: nat): (r: string)
    ensures |r| >= 1
    ensures forall i :: 0 <= i < |r| ==> '0' <= r[i] <= '9'
    ensures |r| > 1 ==> r[0] != '0'
  {
    if n < 10 then [DigitChar(n)] else NatToString(n / 10) + [DigitChar(n % 10)]
  }

  /** Python's `str(i)` for an integer. */
  function IntToString(i: int): string {
    if i < 0 then "-" + NatToString(-i) else NatToString(i)
  }

  /** Value of a string of decimal digits. */
  function ParseDigits(s: string): int
  {
    if |s| == 0 then 0 else 10 * ParseDigits(s[..|s| - 1]) + DigitValue(s[|s| - 1])
  }

  lemma DigitRoundTrip(d: int)
    requires 0 <= d < 10
    ensures DigitValue(DigitChar(d)) == d
  {
    if d == 0 {} else if d == 1 {} else if d == 2 {} else if d == 3 {} else if d == 4 {}
    else if d == 5 {} else if d == 6 {} else if d == 7 {} else if d == 8 {} else {}
  }

  /** Reading the digits back gives the number: `str()` loses nothing. */
  lemma {:induction false} ParseNatToString(n: nat)
    ensures ParseDigits(NatToString(n)) == n
  {
    var r := NatToString(n);
    if n < 10 {
      DigitRoundTrip(n);
      assert r[..0] == [];
    } else {
      ParseNatToString(n / 10);
      DigitRoundTrip(n % 10);
      assert r[..|r| - 1] == NatToString(n / 10);
      assert r[|r| - 1] == DigitChar(n % 10);
      assert ParseDigits(r) == 10 * (n / 10) + n % 10;
    }
  }

  lemma NatToStringInjective(m: nat, n: nat)
    requires NatToString(m) == NatToString(n)
    ensures m == n
  {
    ParseNatToString(m);
    ParseNatToString(n);
  }
}

=== FILE: tabluk.dfy ===
/** The tab-group handlers of tabluk (cookbook/browserkit/tabluk/app.py) on
    the in-memory map of groups that each handler loads, changes and saves.
    Persistence, uuid generation and the page fetch are parameters or left
    out; a handler that raises is an `Err` carrying the exception. */
module Tabluk {
  import opened Base
  import opened Strings
  import opened Json

  datatype Link = Link(id: string, url: string, title: string)
  datatype Group = Group(id: string, name: string, links: seq<Link>)

  /** The saved groups, by id. */
  type Groups = map<string, Group>

  const NameKeyError := "KeyError: 'name'"
  const UrlKeyError := "KeyError: 'url'"
  const NotAString := "ValidationError: Input should be a valid string"
  const NotSubscriptable := "TypeError: 'TabGroup' object is not subscriptable"
  const NoItemAssignment := "TypeError: 'TabGroup' object does not support item assignment"

  /** A required string field of the request body (`data[key]`, then pydantic's
      check that it is a string). */
  function Field(data: Json, key: string, missing: string): (r: Result<string, string>)
    ensures r.Ok? <==> Get(data, key).Some? && Get(data, key).value.Str?
    ensures r.Ok? ==> Get(data, key) == Some(Str(r.value))
    ensures Get(data, key).None? ==> r == Err(missing)
  {
    match Get(data, key)
    case None => Err(missing)
    case Some(Str(s)) => Ok(s)
    case Some(_) => Err(NotAString)
  }

  // ---------------------------------------------------------------------------
  // Groups

  /** `create_group`: a new group under the fresh id, named from the body, with no links. */
  function CreateGroup(groups: Groups, data: Json, freshId: string): (r: Result<Groups, string>)
    ensures r.Ok? <==> Field(data, "name", NameKeyError).Ok?
    ensures r.Ok? ==> freshId in r.value && r.value[freshId] == Group(freshId, Field(data, "name", NameKeyError).value, [])
    ensures r.Ok? ==> forall k :: k != freshId ==> (k in r.value <==> k in groups) && (k in groups ==> r.value[k] == groups[k])
  {
    match Field(data, "name", NameKeyError)
    case Err(e) => Err(e)
    case Ok(name) => Ok(groups[freshId := Group(freshId, name, [])])
  }

  /** With a fresh id the map gains exactly one key and keeps every other group. */
  lemma CreateGroupAddsOne(groups: Groups, data: Json, freshId: string)
    requires freshId !in groups && Field(data, "name", NameKeyError).Ok?
    ensures CreateGroup(groups, data, freshId).value.Keys == groups.Keys + {freshId}
    ensures |CreateGroup(groups, data, freshId).value| == |groups| + 1
  {
  }

  /** `update_group`: for a present id the new name `data['name']` is read
      first (a missing one raises KeyError), and then the handler item-assigns
      the loaded `TabGroup` like a dict and raises before saving; an absent id
      changes nothing. */
  function UpdateGroup(groups: Groups, groupId: string, data: Json): (r: Result<Groups, string>)
    ensures r.Ok? <==> groupId !in groups
    ensures r.Ok? ==> r.value == groups
    ensures groupId in groups && !HasKey(data, "name") ==> r == Err(NameKeyError)
    ensures groupId in groups && HasKey(data, "name") ==> r == Err(NoItemAssignment)
  {
    if groupId !in groups then Ok(groups)
    else if !HasKey(data, "name") then Err(NameKeyError)
    else Err(NoItemAssignment)
  }

  /** `delete_group`: a present id is removed; an absent one changes nothing. */
  function DeleteGroup(groups: Groups, groupId: string): (r: Groups)
    ensures groupId !in r
    ensures forall k :: k != groupId ==> (k in r <==> k in groups) && (k in groups ==> r[k] == groups[k])
  {
    if groupId in groups then groups - {groupId} else groups
  }

  /** Deleting is undone by putting the group back, and deleting an absent id
      is the identity. */
  lemma DeleteGroupInverse(groups: Groups, groupId: string)
    ensures groupId in groups ==> DeleteGroup(groups, groupId)[groupId := groups[groupId]] == groups
    ensures groupId !in groups ==> DeleteGroup(groups, groupId) == groups
  {
  }

  // ---------------------------------------------------------------------------
  // Links

  const InvalidIpv6 := "ValueError: Invalid IPv6 URL"

  /** `urlparse(url).netloc`: leading control characters and spaces are
      stripped and tabs and line breaks removed; then, after a valid scheme
      and `:`, the host is the text between a leading `//` and the first `/`,
      `?` or `#`; a host with only one of `[` and `]` raises ValueError. */
  function Netloc(url: string): (r: Result<string, string>)
    ensures r.Ok? ==> forall i :: 0 <= i < |r.value| ==> r.value[i] !in "/?#" && !Unsafe(r.value[i])
    ensures r.Ok? ==> ('[' in r.value <==> ']' in r.value)
    ensures r.Err? ==> r.error == InvalidIpv6
  {
    HostPart(AfterScheme(Cleaned(url)))
  }

  /** The URL as `urlsplit` reads it. */
  function Cleaned(url: string): (r: string)
    ensures forall i :: 0 <= i < |r| ==> !Unsafe(r[i])
  {
    RemoveUnsafe(LStripC0(url))
  }

  /** The host of what follows the scheme: the text after a leading `//` up to
      the first `/`, `?` or `#`, checked for unbalanced brackets. */
  function HostPart(rest: string): (r: Result<string, string>)
    requires forall i :: 0 <= i < |rest| ==> !Unsafe(rest[i])
    ensures r.Ok? ==> forall i :: 0 <= i < |r.value| ==> r.value[i] !in "/?#" && !Unsafe(r.value[i])
    ensures r.Ok? ==> ('[' in r.value <==> ']' in r.value)
    ensures r.Err? ==> r.error == InvalidIpv6
  {
    if StartsWith(rest, "//") then
      var host := UpTo(rest[2..]);
      assert forall i :: 0 <= i < |host| ==> host[i] == rest[2 + i];
      if ('[' in host) != (']' in host) then Err(InvalidIpv6) else Ok(host)
    else Ok("")
  }

  /** `url.lstrip(_WHATWG_C0_CONTROL_OR_SPACE)`: the characters up to and including the space. */
  function LStripC0(s: string): (r: string)
    ensures |r| <= |s| && r == s[|s| - |r|..]
    ensures |r| > 0 ==> r[0] > ' '
    ensures forall i :: 0 <= i < |s| - |r| ==> s[i] <= ' '
  {
    if |s| > 0 && s[0] <= ' ' then LStripC0(s[1..]) else s
  }

  /** The characters `urlsplit` deletes wherever they occur. */
  predicate Unsafe(c: char) {
    c == '\t' || c == '\r' || c == '\n'
  }

  /** The URL with every tab, carriage return and line feed removed. */
  function RemoveUnsafe(s: string): (r: string)
    ensures forall i :: 0 <= i < |r| ==> !Unsafe(r[i])
    ensures |r| <= |s|
  {
    if |s| == 0 then ""
    else (if Unsafe(s[0]) then "" else [s[0]]) + RemoveUnsafe(s[1..])
  }

  /** A URL without tabs or line breaks is left as it is. */
  lemma {:induction false} RemoveUnsafeKeeps(s: string)
    requires forall i :: 0 <= i < |s| ==> !Unsafe(s[i])
    ensures RemoveUnsafe(s) == s
  {
    if |s| > 0 {
      RemoveUnsafeKeeps(s[1..]);
      assert [s[0]] + s[1..] == s;
    }
  }

  predicate SchemeChar(c: char) {
    'a' <= c <= 'z' || 'A' <= c <= 'Z' || '0' <= c <= '9' || c == '+' || c == '-' || c == '.'
  }

  /** The URL with its scheme and `:` removed, when it has a valid one. */
  function AfterScheme(url: string): (r: string)
    ensures |r| <= |url| && r == url[|url| - |r|..]
  {
    var k := FirstColon(url);
    if 0 < k < |url| && ('a' <= url[0] <= 'z' || 'A' <= url[0] <= 'Z')
       && forall j :: 0 <= j < k ==> SchemeChar(url[j])
    then url[k + 1..] else url
  }

  /** Index of the first `:` in `s`, or `|s|`. */
  function FirstColon(s: string): (k: nat)
    ensures k <= |s| && (k < |s| ==> s[k] == ':') && forall j :: 0 <= j < k ==> s[j] != ':'
  {
    if |s| == 0 || s[0] == ':' then 0 else 1 + FirstColon(s[1..])
  }

  /** `s` up to its first `/`, `?` or `#`. */
  function UpTo(s: string): (r: string)
    ensures StartsWith(s, r) && forall i :: 0 <= i < |r| ==> r[i] !in "/?#"
    ensures |r| < |s| ==> s[|r|] in "/?#"
  {
    if |s| == 0 || s[0] in "/?#" then "" else [s[0]] + UpTo(s[1..])
  }

  /** The host of an `https` URL comes back as its netloc. */
  lemma NetlocOfHttps(host: string, path: string)
    requires forall i :: 0 <= i < |host| ==> host[i] !in "/?#:[]" && !Unsafe(host[i])
    requires forall i :: 0 <= i < |path| ==> !Unsafe(path[i])
    ensures Netloc("https://" + host + "/" + path) == Ok(host)
  {
    var url := "https://" + host + "/" + path;
    var rest := "//" + host + ("/" + path);
    HttpsCleaned(host, path);
    HttpsScheme(host, path);
    HostPartOf(host, "/" + path);
    SameCleaned(url, url);
  }

  lemma HttpsCleaned(host: string, path: string)
    requires forall i :: 0 <= i < |host| ==> !Unsafe(host[i])
    requires forall i :: 0 <= i < |path| ==> !Unsafe(path[i])
    ensures Cleaned("https://" + host + "/" + path) == "https://" + host + "/" + path
  {
    var url := "https://" + host + "/" + path;
    forall i | 0 <= i < |url| ensures !Unsafe(url[i]) {
      if i < 8 { assert url[i] == "https://"[i]; }
      else if i < 8 + |host| { assert url[i] == host[i - 8]; }
      else if i > 8 + |host| { assert url[i] == path[i - 9 - |host|]; }
    }
    assert url[0] == 'h';
    assert LStripC0(url) == url;
    RemoveUnsafeKeeps(url);
  }

  lemma HttpsScheme(host: string, path: string)
    requires forall i :: 0 <= i < |host| ==> host[i] != ':'
    ensures AfterScheme("https://" + host + "/" + path) == "//" + host + ("/" + path)
  {
    var url := "https://" + host + "/" + path;
    assert url[5] == ':';
    assert forall j :: 0 <= j < 5 ==> url[j] == "https"[j] && url[j] != ':';
    FirstColonAt(url, 5);
    assert url[6..] == "//" + host + ("/" + path);
  }

  /** The host depends only on the cleaned URL. */
  lemma SameCleaned(a: string, b: string)
    requires Cleaned(a) == Cleaned(b)
    ensures Netloc(a) == Netloc(b)
  {
  }

  lemma HostPartOf(host: string, tail: string)
    requires forall i :: 0 <= i < |host| ==> host[i] !in "/?#[]" && !Unsafe(host[i])
    requires |tail| > 0 && tail[0] == '/' && forall i :: 0 <= i < |tail| ==> !Unsafe(tail[i])
    ensures forall i :: 0 <= i < |"//" + host + tail| ==> !Unsafe(("//" + host + tail)[i])
    ensures HostPart("//" + host + tail) == Ok(host)
  {
    var rest := "//" + host + tail;
    assert forall i :: 0 <= i < |rest| ==> !Unsafe(rest[i]) by {
      forall i | 0 <= i < |rest| ensures !Unsafe(rest[i]) {
        if i < 2 { assert rest[i] == '/'; }
        else if i < 2 + |host| { assert rest[i] == host[i - 2]; }
        else { assert rest[i] == tail[i - 2 - |host|]; }
      }
    }
    assert rest[..2] == "//";
    assert rest[2..] == host + tail;
    UpToStops(host, tail);
    assert '[' !in host && ']' !in host;
  }

  /** Leading spaces and control characters do not change the host. */
  lemma NetlocIgnoresLeadingBlanks(blanks: string, url: string)
    requires forall i :: 0 <= i < |blanks| ==> blanks[i] <= ' '
    ensures Netloc(blanks + url) == Netloc(url)
  {
    LStripConcat(blanks, url);
  }

  lemma {:induction false} LStripConcat(blanks: string, url: string)
    requires forall i :: 0 <= i < |blanks| ==> blanks[i] <= ' '
    ensures LStripC0(blanks + url) == LStripC0(url)
  {
    if |blanks| > 0 {
      assert (blanks + url)[1..] == blanks[1..] + url;
      LStripConcat(blanks[1..], url);
    } else {
      assert blanks + url == url;
    }
  }

  /** Tabs and line breaks anywhere in the URL do not change the host. */
  lemma {:induction false} NetlocIgnoresBreaks(url: string)
    requires |url| > 0 && url[0] > ' '
    ensures Netloc(url) == Netloc(RemoveUnsafe(url))
  {
    var u := RemoveUnsafe(url);
    assert Cleaned(url) == u by {
      assert LStripC0(url) == url;
    }
    assert Cleaned(u) == u by {
      RemoveUnsafeKeepsHead(url);
      assert LStripC0(u) == u;
      RemoveUnsafeKeeps(u);
    }
    SameCleaned(url, u);
  }

  lemma RemoveUnsafeKeepsHead(s: string)
    requires |s| > 0 && !Unsafe(s[0])
    ensures |RemoveUnsafe(s)| > 0 && RemoveUnsafe(s)[0] == s[0]
  {
  }

  lemma FirstColonAt(s: string, k: nat)
    requires k < |s| && s[k] == ':' && forall j :: 0 <= j < k ==> s[j] != ':'
    ensures FirstColon(s) == k
  {
    if k > 0 {
      FirstColonAt(s[1..], k - 1);
    }
  }

  lemma {:induction false} UpToStops(a: string, b: string)
    requires forall i :: 0 <= i < |a| ==> a[i] !in "/?#"
    requires |b| > 0 && b[0] in "/?#"
    ensures UpTo(a + b) == a
  {
    if |a| > 0 {
      assert (a + b)[1..] == a[1..] + b;
      UpToStops(a[1..], b);
      assert [a[0]] + a[1..] == a;
    } else {
      assert a + b == b;
    }
  }

  /** `get_page_title`: the stripped text of the page's `title` element when the
      fetch answered 200 and the page has one (`fetched`), else the URL's host. */
  function PageTitle(url: string, fetched: Option<string>): (t: Result<string, string>)
    ensures fetched.None? ==> t == Netloc(url)
    ensures fetched.Some? ==> t == Ok(Strip(fetched.value))
  {
    if fetched.Some? then Ok(Strip(fetched.value)) else Netloc(url)
  }

  /** `add_link`: for a present group, the URL is required, an absent or empty
      title is replaced by the page title, and the new link goes at the end. */
  function AddLink(groups: Groups, groupId: string, data: Json, linkId: string, fetched: Option<string>)
    : (r: Result<Groups, string>)
    ensures groupId !in groups ==> r == Ok(groups)
    ensures groupId in groups && Get(data, "url").None? ==> r == Err(UrlKeyError)
    ensures groupId in groups ==>
              (r.Ok? <==> Field(data, "url", UrlKeyError).Ok?
                          && LinkTitle(data, Field(data, "url", UrlKeyError).value, fetched).Ok?)
    ensures r.Ok? && groupId in groups && Field(data, "url", UrlKeyError).Ok? ==>
              var url := Field(data, "url", UrlKeyError).value;
              LinkTitle(data, url, fetched).Ok? && groupId in r.value
              && r.value[groupId].id == groups[groupId].id && r.value[groupId].name == groups[groupId].name
              && r.value[groupId].links == groups[groupId].links + [Link(linkId, url, LinkTitle(data, url, fetched).value)]
    ensures r.Ok? ==> forall k :: k != groupId ==> (k in r.value <==> k in groups) && (k in groups ==> r.value[k] == groups[k])
    ensures r.Ok? ==> r.value.Keys == groups.Keys
    ensures groupId in groups && Get(data, "url").Some? && !Get(data, "url").value.Str? ==>
              var url := Get(data, "url").value;
              r == Err(if TitleMissing(data) && Truthy(url) then NoDecode(url) else NotAString)
  {
    if groupId !in groups then Ok(groups)
    else if Get(data, "url").Some? && !Get(data, "url").value.Str?
            && TitleMissing(data) && Truthy(Get(data, "url").value) then
      Err(NoDecode(Get(data, "url").value))
    else
      match Field(data, "url", UrlKeyError)
      case Err(e) => Err(e)
      case Ok(url) =>
        match LinkTitle(data, url, fetched)
        case Err(e) => Err(e)
        case Ok(title) =>
          var g := groups[groupId];
          Ok(groups[groupId := Group(g.id, g.name, g.links + [Link(linkId, url, title)])])
  }

  /** The title the new link gets: the given one when truthy, else the page title. */
  function LinkTitle(data: Json, url: string, fetched: Option<string>): (r: Result<string, string>)
    ensures TitleMissing(data) ==> r == PageTitle(url, fetched)
    ensures !TitleMissing(data) ==> (r.Ok? <==> Get(data, "title").value.Str?)
    ensures r.Ok? && !TitleMissing(data) ==> Get(data, "title") == Some(Str(r.value)) && r.value != ""
  {
    var given := Get(data, "title");
    if TitleMissing(data) then PageTitle(url, fetched)
    else if given.value.Str? then Ok(given.value.s)
    else Err(NotAString)
  }

  /** No usable title in the body: absent or falsy, so the page title is looked up. */
  predicate TitleMissing(data: Json) {
    Get(data, "title").None? || !Truthy(Get(data, "title").value)
  }

  /** Python's name for the type of a decoded JSON value. */
  function TypeName(j: Json): string {
    match j
    case Null => "NoneType"
    case Bool(_) => "bool"
    case Int(_) => "int"
    case Str(_) => "str"
    case Arr(_) => "list"
    case Obj(_) => "dict"
  }

  /** What `urlparse` raises for a truthy non-string: it tries to decode it as bytes. */
  function NoDecode(j: Json): string {
    "AttributeError: '" + TypeName(j) + "' object has no attribute 'decode'"
  }

  /** The links whose id differs from `linkId`, in their order. */
  function Without(links: seq<Link>, linkId: string): (r: seq<Link>)
    ensures |r| <= |links|
    ensures forall l :: l in r <==> l in links && l.id != linkId
  {
    if |links| == 0 then []
    else (if links[0].id == linkId then [] else [links[0]]) + Without(links[1..], linkId)
  }

  /** The filter keeps order: it works piecewise on a concatenation, and leaves
      a list without the id as it is. */
  lemma {:induction false} WithoutConcat(a: seq<Link>, b: seq<Link>, linkId: string)
    ensures Without(a + b, linkId) == Without(a, linkId) + Without(b, linkId)
  {
    if |a| == 0 {
      assert a + b == b;
    } else {
      var head := if a[0].id == linkId then [] else [a[0]];
      assert (a + b)[0] == a[0] && (a + b)[1..] == a[1..] + b;
      assert Without(a + b, linkId) == head + Without(a[1..] + b, linkId);
      WithoutConcat(a[1..], b, linkId);
      assert head + (Without(a[1..], linkId) + Without(b, linkId))
          == (head + Without(a[1..], linkId)) + Without(b, linkId);
    }
  }

  lemma {:induction false} WithoutAbsent(links: seq<Link>, linkId: string)
    requires forall i :: 0 <= i < |links| ==> links[i].id != linkId
    ensures Without(links, linkId) == links
  {
    if |links| > 0 {
      WithoutAbsent(links[1..], linkId);
      assert [links[0]] + links[1..] == links;
    }
  }

  /** `delete_link`: the group keeps exactly its links with a different id. */
  function DeleteLink(groups: Groups, groupId: string, linkId: string): (r: Groups)
    ensures r.Keys == groups.Keys
    ensures groupId in groups ==>
              r[groupId].links == Without(groups[groupId].links, linkId)
              && r[groupId].id == groups[groupId].id && r[groupId].name == groups[groupId].name
    ensures forall k :: k in groups && k != groupId ==> r[k] == groups[k]
  {
    if groupId in groups then
      var g := groups[groupId];
      groups[groupId := Group(g.id, g.name, Without(g.links, linkId))]
    else groups
  }

  /** `launch_group`: for an absent id the error dict; for a present one every
      link's URL is opened in order, after which the handler indexes the
      `TabGroup` like a dict and raises. */
  function LaunchGroup(groups: Groups, groupId: string): (r: (seq<string>, Result<Json, string>))
    ensures groupId !in groups ==>
              r.0 == [] && r.1 == Ok(Obj([("status", Str("error")), ("message", Str("Group not found"))]))
    ensures groupId in groups ==>
              r.1 == Err(NotSubscriptable) && |r.0| == |groups[groupId].links|
              && forall i :: 0 <= i < |r.0| ==> r.0[i] == groups[groupId].links[i].url
  {
    if groupId in groups then
      var links := groups[groupId].links;
      (seq(|links|, i requires 0 <= i < |links| => links[i].url), Err(NotSubscriptable))
    else ([], Ok(Obj([("status", Str("error")), ("message", Str("Group not found"))])))
  }
}
